=== FILE: README.md ===
# sym-links-lora in Dafny

This project models the two parts of the LoRA manager that do the work.

- **Catalog client** (`civitai.py`) covers:
  - the credential header;
  - the by-hash lookup;
  - the status check of a download;
  - `download_model_files`, which writes the metadata `.json`, the declared side-car files, the primary preview and the numbered previews next to a model;
  - `process_lora_folder`, which walks a folder, hashes every `.safetensors` file, looks it up and reconciles its side-cars.
- **Manager window rules** (`lora_manager.py`) cover:
  - which files belong to a LoRA;
  - `apply_selection`, which copies a selection into the output folder;
  - `remove_lora` and `remove_selected_or_all_loras`;
  - grouping the output folder into bottom-panel cards, and resolving their previews;
  - `load_loras`, which covers preview and config lookup plus the search index;
  - `filter_loras`;
  - the click selection, the button label, zoom and the thumbnail grid.

The filesystem is a map from path to entry: a regular file with its content, a directory, or a symbolic link. Links are followed one step, the way `os.path.exists`, `isfile` and `open` see them.

Collaborators the code cannot see into are total functions held in an `Env`:
- the HTTP transport;
- `json.dumps`;
- SHA-256;
- `os.listdir`.

Every observable effect of the catalog client is appended to an event log: a request, a metadata write, a log line, a callback. Exceptions are part of the result, so a run either returns or raises with the state it had reached.

Modules:
- `Wrappers`: `Option`.
- `Seqs`: the first and last index matching a predicate, and filtering.
- `Paths`: POSIX path and string rules:
  - `splitext`, `join`, `basename`, `dirname`;
  - ASCII `lower`;
  - `str.replace(p, "")`;
  - `str(n)`.
- `FileSystem`: the filesystem itself.
- `Civitai` with `CivitaiProofs`, `CivitaiRuns` and `CivitaiScan`.
- `LoraManager` with `LoraManagerProofs`.
- `ScanAgreement`: how the scan and the top panel see the same model files.

Three behaviours of the code a reader might not expect:
- Nothing in `download_model_files` or `process_lora_folder` catches a failure, so the first one ends the scan. A failed download or a directory in the way raises out of both. An unreadable model file raises out of `process_lora_folder`, which hashes it.
- `load_loras` matches a preview by name *prefix*, so `foo` can show `foo-v2.png` (`LoraManagerProofs.PrefixTakesOtherPreview`).
- `apply_selection` copies files with `shutil.copy2` and never creates a link, whatever its comment and the repository's name suggest (`LoraManagerProofs.ApplySelectionSafe`).

## Model

| member | source | states |
|---|---|---|
| Civitai.GetHeaders | civitai.py:27-31 | The bearer header is sent exactly when an API key is set. Its value is `Bearer ` followed by the key, and no other header is sent. |
| Civitai.GetModelInfoByHash | civitai.py:41-48 | The lookup gives the decoded body when the by-hash request answers 200, and `None` on any other status. |
| Civitai.DownloadFile | civitai.py:142-149 | A download makes one request. It succeeds exactly when the status is 200 and the destination is not a directory; then the destination holds the body and nothing else changed. On failure the filesystem is untouched and the exception names the URL and status, or the path. |
| Civitai.HashFile | civitai.py:33-39 | Hashing succeeds exactly on a readable file, and gives the SHA-256 of its content. |
| Civitai.SaveMetadata | civitai.py:56-70 | The serialised record is written next to the model unless the `.json` already holds exactly that text. A write is logged and fires the JSON callback. A directory at that path raises with nothing changed. |
| Civitai.FetchDeclaredFile | civitai.py:72-94 | A declared file with a URL and a name that is not `.safetensors` is fetched only when its destination does not exist. Anything else changes nothing on disk and adds at most a log line. |
| Civitai.FetchPrimary | civitai.py:95-107 | The first image is fetched as `<stem>.preview<ext>` only when there is a model path, the image has a URL, and that name does not exist yet. |
| Civitai.FirstGguf | civitai.py:114-118 | Without a model path, the preview stem is that of the first listed `.gguf` (case-insensitive), and there is none exactly when no `.gguf` is listed. |
| Civitai.PreviewBase | civitai.py:110-118 | With a model path, previews are named after the model path's stem. |
| Civitai.DownloadModelFiles | civitai.py:50-54 | A falsy record returns False and touches nothing. Otherwise the call never returns False. A destination folder that cannot be made raises before anything else happens. |
| Civitai.ProcessFile | civitai.py:155-164 | Other files are passed over. An unreadable model file raises. A model file is looked up first, and reported with True exactly when the lookup gave a record. For a record, the state afterwards is the lookup followed by everything `download_model_files` did on that record, files and events. The call stops exactly when that download raised, with its exception. An unmatched file is reported False with only the lookup done. |
| Civitai.FetchDeclared | civitai.py:72-94 | The declared-file loop. `CivitaiProofs.DeclaredRequests` states what it requests, and `CivitaiProofs.DeclaredSettles` what it leaves on disk. |
| Civitai.Urls | civitai.py:121-123 | The URLs the image loop acts on: a string is one of them exactly when some image carries it as a non-empty URL. There are never more of them than images. |
| Civitai.FetchPreviews | civitai.py:119-139 | The image loop. `CivitaiProofs.PreviewRequests` states what it requests, and `CivitaiProofs.PreviewsSettle` what it leaves on disk. |
| Civitai.Reconcile | civitai.py:56-139 | The four steps after the destination folder is made. `CivitaiRuns.RunReconciles` states that a completed run leaves metadata, declared files and previews in place. |
| Civitai.ProcessLoraFolder | civitai.py:151-167 | The scan over the walk. `CivitaiScan.ScanReportsCandidates` states that a scan that completes returns one entry per model file met, in walk order. `CivitaiScan.ScanStopsAtFirstFailure` and `CivitaiScan.FirstStopEndsScan` state that a scan stops exactly at the first model file whose step raised, with that step's state and exception. |
| CivitaiProofs.FetchToSettles | civitai.py:142-149 | A successful download to a missing destination makes it exist and disturbs nothing that already existed. |
| CivitaiProofs.FetchToFresh | civitai.py:142-149 | With a 200 answer, a download to a fresh path succeeds and adds exactly that path. |
| CivitaiProofs.FetchToEvents | civitai.py:89-94 | A download adds only its log line, its one request and its preview callback. A failure names that request. |
| CivitaiProofs.DeclaredTargetsMember | civitai.py:72-79 | A target of the declared-file step is exactly a declared file's URL paired with `join(dest_folder, name)`. |
| CivitaiProofs.DeclaredFileRequests | civitai.py:72-94 | One declared file makes at most its own request, and an abort names it. |
| CivitaiProofs.DeclaredRequests | civitai.py:72-94 | Every request of the declared-file loop is for a declared file and never a `.safetensors` one. The first failure ends the loop and names its request. |
| CivitaiProofs.DeclaredSettles | civitai.py:72-94 | After the declared-file loop completes, every declared destination exists and nothing that existed was disturbed. |
| CivitaiProofs.DeclaredQuiet | civitai.py:72-94 | When every declared destination exists, the loop changes nothing and only logs. |
| CivitaiProofs.ImagePlanEntries | civitai.py:119-139 | The images with a URL are numbered consecutively. The first is `<stem>.preview<ext>`, the k-th is `<stem>.<k>.preview<ext>`, and images without a URL take no number. |
| CivitaiProofs.PlanAvoids | civitai.py:125-128 | No later image reuses the name of an earlier index. |
| CivitaiProofs.NoBaseNoPreviews | civitai.py:121-123 | Without a usable stem, the image loop requests nothing and changes nothing. |
| CivitaiProofs.PreviewRequests | civitai.py:119-139 | Every request of the image loop is for an entry of the numbered plan, and an abort names the failed request. |
| CivitaiProofs.PreviewsSettle | civitai.py:119-139 | After the image loop completes, every planned preview exists and nothing that existed was disturbed. |
| CivitaiProofs.PreviewsQuiet | civitai.py:129-133 | When every planned preview exists, the image loop does nothing at all. |
| CivitaiProofs.PreviewNamesDistinct | civitai.py:125-128 | Preview names with different indices differ, whatever their extensions. |
| CivitaiProofs.PreviewsFresh | civitai.py:119-139 | In a folder holding none of the planned names, with every image answering 200, each planned image is requested exactly once, in order. |
| CivitaiRuns.SaveMetadataShape | civitai.py:64-66 | Writing the metadata keeps every directory in place and the filesystem well formed. |
| CivitaiRuns.PrimaryIsPlanned | civitai.py:95-101 | The primary preview is the first entry of the numbered image plan. |
| CivitaiRuns.DownloadStepsRequests | civitai.py:71-139 | After the metadata step, every request is for a declared file or a planned preview, and an abort names its request. |
| CivitaiRuns.MetadataMakesNoRequest | civitai.py:56-70 | Writing the metadata makes no request. |
| CivitaiRuns.RunRequests | civitai.py:50-140 | Every request of a call with a model path is for a declared file or a planned preview. An exception escapes either before anything is recorded, or right after the request it names. |
| CivitaiRuns.MetadataWrittenOnlyOnChange | civitai.py:56-70 | The `.json` is written at most once, exactly when it did not already hold the serialised record. The JSON callback fires only with that write. |
| CivitaiRuns.MetadataEvents | civitai.py:56-70 | The metadata step writes exactly when the text differs and fires the callback only with a write. If it fails, it has recorded nothing. |
| CivitaiRuns.RunReconciles | civitai.py:50-140 | A call that returns True leaves the metadata, every declared file and every planned preview in place. |
| CivitaiRuns.ReconciledRunIsQuiet | civitai.py:50-140 | On a reconciled folder a call returns True, changes nothing and only logs. |
| CivitaiRuns.SecondRunChangesNothing | civitai.py:50-140 | Calling again with the same record on what the first call left changes nothing and only logs. |
| CivitaiRuns.MetadataNotPreview | civitai.py:125-128 | The metadata name is never a preview name of the same stem. |
| CivitaiRuns.PlanAvoidsMetadata | civitai.py:119-139 | No planned preview overwrites the metadata file. |
| CivitaiRuns.FreshImages | civitai.py:95-139 | In a folder without the planned names, the primary step and the image loop together request every planned image exactly once. |
| CivitaiRuns.FreshFolderFetchesEachImageOnce | civitai.py:95-139 | Take a fresh folder and a record with no declared files, with every image answering 200. The call returns True and requests each planned image once, in order. |
| CivitaiRuns.FreshMetadata | civitai.py:56-70 | Writing the metadata into a folder without it adds exactly that file and makes no request. |
| CivitaiRuns.RunUnfolds | civitai.py:50-140 | Once the folder and metadata steps succeed, the call ends as the remaining steps end: True exactly when they complete, else their exception. |
| CivitaiScan.FilesVisitCandidates | civitai.py:155-164 | A scan of one folder that runs through reports every `.safetensors` file (case-insensitive), joined to the folder, in listing order. |
| CivitaiScan.WalkVisitsCandidates | civitai.py:154-166 | A scan that runs through reports the model files of every directory in walk order. Without `recursive` it reports those of the top directory only. |
| CivitaiScan.ScanReportsCandidates | civitai.py:151-167 | `process_lora_folder` returns one entry per model file it meets, in walk order. |
| CivitaiScan.NonRecursiveScansTopOnly | civitai.py:165-166 | Without `recursive`, only the first directory the walk yields is scanned. |
| CivitaiScan.UnmatchedFile | civitai.py:155-164 | If no record matches, one file gives at most a lookup and a False entry. It fails only when a model file cannot be read. |
| CivitaiScan.UnmatchedScanChangesNothing | civitai.py:151-167 | When the catalog knows none of the hashes, a scan writes nothing, only looks hashes up and reports every model file with False. |
| CivitaiScan.ProcessFilesSplit | civitai.py:155-164 | Scanning a listing is scanning its first `k` names, then, unless that raised, the rest from the state it left, with the results concatenated. |
| CivitaiScan.FirstStopEndsFiles | civitai.py:155-164 | If the names before the `k`-th ran through and its step raised, the listing's scan is exactly that step's result: no later name is hashed or looked up. |
| CivitaiScan.StoppedFilesHasFirst | civitai.py:155-164 | A listing's scan raises exactly when some name's step raised after all earlier names ran through, and its result is then that step's own. |
| CivitaiScan.ProcessWalkSplit | civitai.py:154-167 | A recursive scan of a walk is scanning its first `d` directories, then, unless that raised, the rest from the state it left. |
| CivitaiScan.FirstStopEndsWalk | civitai.py:154-167 | If the directories before the `d`-th ran through and its scan raised, the recursive scan is exactly that directory's result: no later directory is visited. |
| CivitaiScan.StoppedWalkHasFirst | civitai.py:154-167 | A recursive scan raises exactly when some directory's scan raised after all earlier ones ran through, and its result is then that directory's. |
| CivitaiScan.ScanStopsAtFirstFailure | civitai.py:151-167 | `process_lora_folder` raises exactly when the step for some model file raised after every earlier file and directory ran through. The scan's result is then that step's: the state holds nothing done after that file, and the exception is that step's. Without `recursive` that file is in the top directory. |
| CivitaiScan.FirstStopEndsScan | civitai.py:151-167 | Conversely, once every earlier file ran through, the first model file whose step raises ends the whole scan with that step's result. |
| FileSystem.Write | civitai.py:65-66 | Opening for writing fails exactly on a directory. Otherwise the path reads back the data, the write goes through a link, and every other entry is kept. |
| FileSystem.MakeDirs | civitai.py:54 | `makedirs(exist_ok=True)` succeeds exactly on an existing directory or a free name, and leaves a directory there. |
| FileSystem.WriteFreshGrows | civitai.py:145-147 | Writing to a path that does not exist succeeds and disturbs nothing that exists. |
| Paths.SplitExtSpec | civitai.py:57 | `splitext` splits its argument: the parts concatenate back, and the extension is empty or a dot followed by neither dots nor separators. |
| Paths.SplitExtAppend | civitai.py:101 | Appending an extension to a path with a stem is undone by `splitext`. |
| Paths.JoinEndsWith | civitai.py:79 | `join(dir, name)` ends with `name`. |
| Paths.BasenameSpec | lora_manager.py:613 | `basename` holds no separator and is the tail of the path. |
| Paths.NatToStringInjective | civitai.py:128 | Different preview counters print differently. |
| Paths.RemoveAllAbsent | lora_manager.py:231 | Deleting `.preview` from a name that does not contain it changes nothing. |
| LoraManager.RemoveSelectedOrAll | lora_manager.py:284-300 | The handler raises exactly when the output path is not a directory, and then removes nothing. Otherwise it ends with an empty selection. |
| LoraManager.ApplySelection | lora_manager.py:609-662 | The copies run selected LoRA by selected LoRA. A selected LoRA whose folder cannot be listed raises and keeps the selection. After the copies, `refresh_selected_list` raises when the output path exists but is not a folder, and the selection is kept. Otherwise the selection is cleared, and then `load_loras` creates a missing output folder, raising when it cannot. When nothing raises, the output folder is a directory, and an existing one is left as the copies left it. |
| LoraManager.RefreshSelected | lora_manager.py:209-276 | A missing output folder gives an empty panel and keeps the selection. A non-folder output path raises. Otherwise the i-th card is the card of the i-th group of the listing, and the selection is cleared. |
| LoraManager.GroupCard | lora_manager.py:249-270 | A bottom-panel card shows the group's model file and name, with the preview resolved in the model file's folder. |
| LoraManager.LoadLoras | lora_manager.py:514-582 | The output folder is created first, and a failure there raises. After it, the output folder is a directory. `ScanAgreement.LoadLorasLaysOutScan` states which cards it lays out. |
| LoraManager.Toggle | lora_manager.py:496-504 | A click flips the clicked card's membership in the selection and leaves every other card as it was. |
| LoraManager.MaxCols | lora_manager.py:241-245 | The grid always has at least one column. |
| LoraManager.Place | lora_manager.py:272-275 | The grid places the i-th card at row `i // max_cols`, column `i % max_cols`, left to right and row by row. |
| LoraManager.CellIsDivMod | lora_manager.py:579-582 | Row-major placement is division with remainder by the column count. |
| LoraManager.Belongs | lora_manager.py:620-622 | The file test `apply_selection` and `remove_lora` share. `LoraManagerProofs.RemoveLoraExact` states which files it selects. |
| LoraManager.RemoveLora | lora_manager.py:664-675 | `remove_lora`. `LoraManagerProofs.RemoveLoraExact` states that it removes exactly the LoRA's files and links. |
| LoraManager.ApplyFile | lora_manager.py:615-658 | One listed file of `apply_selection`. `LoraManagerProofs.ApplyFileSafe` and `LoraManagerProofs.ApplyFileCopies` state what it never touches and when it copies. |
| LoraManager.CopyInto | lora_manager.py:651-658 | The guarded `makedirs` and `copy2`. `LoraManagerProofs.CopyIntoSafe` states that it replaces nothing real. |
| LoraManager.GroupFiles | lora_manager.py:217-237 | The grouping loop. `LoraManagerProofs.GroupFilesAgree` states the groups it builds. |
| LoraManager.ResolvePreview | lora_manager.py:249-269 | The bottom-panel preview. `LoraManagerProofs.ResolvePreviewOrder` states the order of the lookups. |
| LoraManager.FindPreview | lora_manager.py:543-555 | The top-panel preview. `LoraManagerProofs.FindPreviewSpec` states which image it finds. |
| LoraManager.FindConfig | lora_manager.py:557-562 | The config lookup. `LoraManagerProofs.FindConfigSpec` states which file it finds. |
| LoraManager.RelPath | lora_manager.py:573 | `os.path.relpath`. `LoraManagerProofs.RelPathOfWalk` states what it gives for the roots of a walk. |
| LoraManager.FilterAsWritten | lora_manager.py:584-607 | `filter_loras` over the dict. `LoraManagerProofs.KeyCollisionHidesCard` states the card it loses. |
| LoraManager.FilterLoras | lora_manager.py:584-607 | `filter_loras` over every card. `LoraManagerProofs.FilterLorasShowsEveryMatch` states that it lists exactly the matching cards. |
| LoraManager.ButtonLabel | lora_manager.py:278-282 | The button label. `LoraManagerProofs.ClickRelabels` states how a click changes it. |
| LoraManager.ZoomIn | lora_manager.py:677-682 | One zoom step in. `LoraManagerProofs.ZoomLadder` states its range and how it undoes a step out. |
| LoraManager.ZoomOut | lora_manager.py:684-689 | One zoom step out. `LoraManagerProofs.ZoomLadder` states its range and how it undoes a step in. |
| LoraManagerProofs.RemoveNamesExact | lora_manager.py:292-297 | Removing listed names one at a time takes exactly the files and links among them. Directories stay, because `os.remove` fails on them and the error is caught. |
| LoraManagerProofs.RemoveLoraExact | lora_manager.py:664-675 | `remove_lora` takes exactly the files and links of the output folder that belong to the LoRA. A file belongs if its base is the name or it starts with `<name>.preview`. Every other entry is kept. |
| LoraManagerProofs.RemoveLoraListing | lora_manager.py:667 | Only which removable entries a listing names matters. Listing the folder again after earlier removals removes the same files. |
| LoraManagerProofs.RemoveEachExact | lora_manager.py:285-289 | Removing the selected LoRAs one after another takes exactly the files that belong to any of them. |
| LoraManagerProofs.RemoveEachOrderFree | lora_manager.py:287 | The order in which the selection set is iterated does not matter. |
| LoraManagerProofs.RemoveSelectedOrAllExact | lora_manager.py:284-297 | On an existing output folder, a selection removes exactly the selected LoRAs' files. No selection removes every listed file and link and keeps sub-folders. |
| LoraManagerProofs.CopyIntoSafe | lora_manager.py:651-658 | Copying onto a free target never replaces a real file or directory and never creates a link. |
| LoraManagerProofs.ApplyFileSafe | lora_manager.py:615-658 | One listed file never overwrites or deletes a real file or directory, and never creates a link. Only a link at the target may go. |
| LoraManagerProofs.ApplySelectionSafe | lora_manager.py:609-662 | Whatever `apply_selection` lists and however far it gets, every real file and directory stays. Every link afterwards was there before, so the step copies and never links. |
| LoraManagerProofs.ApplyFileCopies | lora_manager.py:615-653 | A file of the LoRA whose target is free or a link, in an existing output folder, ends up copied: the target shows the source's content. |
| LoraManagerProofs.CopyIntoSettles | lora_manager.py:651-658 | A copy attempt onto a free target either changes nothing or leaves a real entry there. |
| LoraManagerProofs.ApplyFileIdempotent | lora_manager.py:615-658 | Applying a file twice is applying it once, provided the target is not a dangling link. |
| LoraManagerProofs.DanglingTargetWrittenThrough | lora_manager.py:626-653 | A dangling link at the target is not unlinked, because `exists` is False for it. The copy is written to where the link points, and the link stays. |
| LoraManagerProofs.GroupFilesAgree | lora_manager.py:217-237 | The grouping loop builds the declarative reading of the listing. There is one group per model-file base, in the order the bases first appear. Each group keeps its first model file, and the last image and last config filed under it after that file; earlier ones are dropped. |
| LoraManagerProofs.AddFileAgrees | lora_manager.py:218-237 | One pass of the grouping loop keeps the groups in agreement with the reading of the listing so far. |
| LoraManagerProofs.ExpectedSnoc | lora_manager.py:230-237 | A group already opened keeps its model file when a later file is listed, and changes only by that file being attached. |
| LoraManagerProofs.NamesOpened | lora_manager.py:224 | A name has a group exactly when a model file with that base has been listed. |
| LoraManagerProofs.ModelAtIsFirst | lora_manager.py:224-229 | A group is opened by the first model file whose base is its name. |
| LoraManagerProofs.AttachedAfterIsLast | lora_manager.py:230-237 | What is attached to a group is the last file of that kind filed under its name, and only if it comes after the group's model file. |
| LoraManagerProofs.RefreshShowsListing | lora_manager.py:209-276 | On an output folder, every card is for a listed model file. Its path is the output folder joined with the first model file of its name, and its preview is resolved in that folder. Cards follow the order in which those first model files are listed. Every listed model-file base has a card. |
| LoraManagerProofs.ResolvePreviewOrder | lora_manager.py:249-269 | A bottom-panel preview is the first existing file among `<name>.preview.{png,jpg,jpeg}` then `<name>.{png,jpg,jpeg}`. When none exists it is the folder's `preview.png`, because the second look for `<name>.preview.png` cannot find anything the first missed. |
| LoraManagerProofs.PreviewFiledUnderName | lora_manager.py:231 | An image copied for a LoRA, `<name>.preview<ext>` or `<name><ext>`, is filed under that LoRA by the grouping loop, provided the name holds no `.preview`. |
| LoraManagerProofs.RemoveAllSuffix | lora_manager.py:231 | Deleting `.preview` from `<name>.preview` leaves the name when the name holds no `.preview`. |
| LoraManagerProofs.FindPreviewSpec | lora_manager.py:543-555 | When a listed image's lower-cased name starts with `<name>.preview` lower-cased, the preview is the first such image. Otherwise it is the first listed image whose lower-cased name starts with the lower-cased name. There is none exactly when no listed image starts with the name. |
| LoraManagerProofs.PrefixTakesOtherPreview | lora_manager.py:552-555 | `foo` is shown with `foo-v2.png`, a file `apply_selection` does not count as part of `foo`. |
| LoraManagerProofs.FindConfigSpec | lora_manager.py:557-562 | The config is the first listed `.yaml`/`.yml`/`.json` file whose base is exactly the name. There is none exactly when no such file is listed. |
| LoraManagerProofs.RelPathOfWalk | lora_manager.py:573 | For the roots `os.walk` yields, `relpath` gives `.` for the folder itself. For a directory below it, `relpath` gives the path under the folder, also when the folder is written with trailing separators. |
| LoraManagerProofs.ShownSpec | lora_manager.py:601-603 | An entry is shown exactly when its key contains the lower-cased search text. |
| LoraManagerProofs.EmptyQueryShowsAll | lora_manager.py:590-603 | An empty search shows every entry, in order. |
| LoraManagerProofs.NarrowerQueryShowsLess | lora_manager.py:601-603 | Whatever a longer query shows, a query it contains shows too. |
| LoraManagerProofs.FilterLorasShowsEveryMatch | lora_manager.py:584-607 | With the search running over every card laid out, a card is listed exactly when its key contains the query. An empty query lists every card. |
| LoraManagerProofs.CaseTwinsShareKey | lora_manager.py:573-574 | Two model files of one folder whose names differ only in case get the same search key. |
| LoraManagerProofs.IndexKeepsLater | lora_manager.py:574 | Storing two cards under one key keeps only the second. |
| LoraManagerProofs.PutSpec | lora_manager.py:574 | `d[k] = v` on a dict keeps its keys distinct, holds `(k, v)` afterwards, keeps every entry under another key, and drops only the old value of `k`. |
| LoraManagerProofs.BuildIndexSpec | lora_manager.py:573-574 | After `load_loras`, the keys of `all_thumbnail_widgets` are distinct and are exactly the search keys of the cards laid out. Each key holds the card of the last card laid out with that key. |
| LoraManagerProofs.KeyCollisionHidesCard | lora_manager.py:573-574 | For two model files in one folder whose names differ only in case, the search over the dict, even an empty one, shows only the second card. The search over every card shows both. |
| LoraManagerProofs.CaseTwinsCollide | lora_manager.py:535-537 | `A.safetensors` and `a.safetensors` are both model files, named `A` and `a`, with the same lower-cased name. |
| LoraManagerProofs.ToggleTwice | lora_manager.py:496-504 | Clicking a card twice leaves the selection as it was. |
| LoraManagerProofs.ClickRelabels | lora_manager.py:278-282 | After a click the button reads "Remove All" exactly when the click deselected the only selected card. |
| LoraManagerProofs.ZoomLadder | lora_manager.py:677-689 | Zooming keeps the size a multiple of 50 within 100..500. One step in and one out, or out and in, returns to the start away from the ends. Zoom in never shrinks and zoom out never grows. |
| LoraManagerProofs.FloorDivSpec | lora_manager.py:245 | `//` leaves a remainder with the divisor's sign. |
| LoraManagerProofs.MaxColsFit | lora_manager.py:241-245 | Only whole columns: one more card than the column count would not fit the width, and with more than one column they all fit. |
| ScanAgreement.CardsFollowScan | lora_manager.py:532-537 | `load_loras` lays out a card for every model file the recursive catalog scan visits, in the same order and at the same path. |
| ScanAgreement.LoadLorasLaysOutScan | lora_manager.py:520-573 | When the output folder can be made, `load_loras` lays out one entry per model file the recursive catalog scan visits, in the same order and at the same path. Each entry is the card, config and search key built for a model file listed in some directory of the walk, on the filesystem with the output folder made. |
| ScanAgreement.FoundAllBuilt | lora_manager.py:532-573 | Every entry laid out for a walk is the one built for a model file listed in one of its directories. |
| ScanAgreement.ScanMatchesPanel | civitai.py:151-167 | Every file a completed recursive scan reports has a top-panel card at the same position. |

## Left out

- The Qt window is not modelled: widgets, styles, dialogs, the settings file, `resizeEvent`, and `print` and log text. Each handler is reduced to its effect on the filesystem, the selection and the cards it lays out.
- `apply_selection` is modelled with what its trailing calls do to the filesystem and the selection: the refresh's listing, which can raise, the clearing, and the `os.makedirs` of `load_loras`. The cards those calls lay out are modelled by `RefreshSelected` and `LoadLoras` on their own. The trailing `refresh_selected_list()`, `load_loras()` and `save_settings()` calls of the other handlers are not chained either.
- HTTP streaming, chunked hashing and JSON decoding are out. The transport, `json.dumps`, SHA-256 and `os.listdir` are parameters of `Env`. The transport is a function, so the same URL always gets the same answer.
- Transport errors (`requests` raising) are left out. Only status codes and filesystem errors raise in the model.
- File content is a string. Encodings, `ensure_ascii`, and the metadata that `shutil.copy2` preserves are not modelled.
- `str.lower` is ASCII-only. Non-ASCII case folding is out.
- Links are followed one step. Chains of links and paths that pass through a linked directory are not modelled, and proofs that need it assume no link points at a link.
- FileSystem.Write: a missing parent folder is treated as present, so the write succeeds where `open(dest_path, "wb")` raises `FileNotFoundError`. `FileSystem.MakeDirs` likewise creates the last component only and treats missing parents as present.
- LoraManager.RelPath: `os.path.relpath(root, lora_path)` is exact for the roots `os.walk(lora_path)` yields, which are the folder itself or paths below it, trailing separators of the folder included. `.` and `..` components, repeated separators inside a path, and paths outside the folder are not normalised the way `relpath` does.
- `os.walk` is given as its sequence of (directory, file names) steps. The same goes for each listing in `remove_lora`, `remove_selected_or_all_loras`, `refresh_selected_list` and `apply_selection`: one listing per call. `remove_lora` re-lists after earlier removals, which `LoraManagerProofs.RemoveLoraListing` shows removes the same files.
- The config path `load_loras` finds is computed but not used by the cards, as in the source.
- LoraManagerProofs.ApplyFileIdempotent: excludes a target that is a dangling link, because the first pass writes through such a link and leaves it dangling-free. `LoraManagerProofs.DanglingTargetWrittenThrough` states that case instead.
- LoraManagerProofs.ApplySelectionSafe: idempotence is proved per file, not for a whole `apply_selection`. A second run over a whole selection depends on the listing function.
- CivitaiRuns.SecondRunChangesNothing: proved only when a model path is given. Without one, the preview stem depends on the order `os.listdir` returns.

## Findings

| source | as written | input that shows it | evidently intended | confidence | as-written member | corrected member |
|---|---|---|---|---|---|---|
| lora_manager.py:573-574 | `load_loras` keys `all_thumbnail_widgets` by the lower-cased `"<name> <relpath>"`. A later card whose key repeats an earlier one replaces it, and `filter_loras` iterates over that dict. | `A.safetensors` and `a.safetensors` in one folder: both get key `a .`, and any search, the empty one included, shows only the second card (`LoraManagerProofs.CaseTwinsCollide`). In general the dict keeps only the last card per key (`LoraManagerProofs.BuildIndexSpec`). | Every card `load_loras` laid out can be found by the search. | not executed | LoraManagerProofs.KeyCollisionHidesCard | LoraManagerProofs.FilterLorasShowsEveryMatch |

=== FILE: civitai.dfy ===
/** The catalog client of `civitai.py`: credential headers, the by-hash
    lookup, the status check of a download, the side-car reconciliation of
    `download_model_files` and the folder scan of `process_lora_folder`.

    The network, `json.dumps`, SHA-256 and `os.listdir` are the total
    functions carried by an `Env`; the filesystem is the map of `FileSystem`;
    every observable effect (request, metadata write, log line, callback) is
    appended to an event log. */
module Civitai {
  import opened Wrappers
  import opened Seqs
  import opened Paths
  import opened FileSystem

  const ApiBase: string := "https://civitai.com/api/v1"

  /** Lower-cased extensions whose download counts as a preview. */
  const PreviewExts: seq<string> := [".png", ".jpg", ".jpeg", ".webp"]

  // ---------------------------------------------------------------------
  // Catalog records and the outside world
  // ---------------------------------------------------------------------

  /** One entry of the record's `files` list; a missing key or `null` is "". */
  datatype RemoteFile = RemoteFile(downloadUrl: string, name: string)

  /** One entry of the record's `images` list; a missing `url` is "". */
  datatype RemoteImage = RemoteImage(url: string)

  /** A decoded catalog response: `None`, the empty object `{}` (both falsy)
      or a non-empty object whose other keys are summarised by `rest`. */
  datatype ModelInfo =
    | Null
    | EmptyObject
    | Object(files: seq<RemoteFile>, images: seq<RemoteImage>, rest: string)

  type Headers = map<string, string>

  datatype Request = Request(url: string, headers: Headers)

  /** A response: its status code, its body, and the body decoded as JSON. */
  datatype Response = Response(status: int, body: string, json: ModelInfo)

  /** Which of the optional log function and callbacks are installed. */
  datatype Hooks = Hooks(log: bool, preview: bool, json: bool)

  /** `CivitaiAPI` state: the optional API key ("" for none) and the hooks. */
  datatype Client = Client(apiKey: string, hooks: Hooks)

  /** The collaborators the client cannot see into. */
  datatype Env = Env(
    http: Request -> Response,
    listdir: (Fs, Path) -> seq<string>,
    dumps: ModelInfo -> string,
    sha256: string -> string)

  datatype LogKind =
    | SavedMetadata | DeclaredPresent | DownloadingDeclared | DownloadingPrimary | DownloadingPreview

  datatype Event =
    | Query(url: string)              // a catalog lookup request
    | Get(url: string, dest: Path)    // a download request aimed at `dest`
    | MetadataWrite(path: Path)       // the metadata `.json` was (re)written
    | Log(kind: LogKind, subject: string)
    | JsonCallback
    | PreviewCallback

  /** The exceptions that escape: a non-200 download, an `OSError`. */
  datatype Failure = HttpStatus(url: string, status: int) | OsError(path: Path)

  datatype State = State(fs: Fs, events: seq<Event>)

  /** The result of one step: carry on, or an exception with the state it left. */
  datatype Outcome = Done(st: State) | Failed(st: State, failure: Failure)

  datatype Exit = Returned(value: bool) | Raised(failure: Failure)

  datatype Run = Run(st: State, exit: Exit)

  function When(b: bool, e: Event): seq<Event>
  {
    if b then [e] else []
  }

  /** `st'` continues the event log of `st`. */
  ghost predicate Extends(st: State, st': State)
  {
    |st.events| <= |st'.events| && st'.events[..|st.events|] == st.events
  }

  /** `st'` continues the log of `st` with log lines only. */
  ghost predicate OnlyLogsAdded(st: State, st': State)
  {
    Extends(st, st') && forall i :: |st.events| <= i < |st'.events| ==> st'.events[i].Log?
  }

  /** The events a download step may log. */
  predicate IsFetchEvent(e: Event) { e.Log? || e.Get? || e.PreviewCallback? }

  /** `st'` continues the log of `st` with download-step events only. */
  ghost predicate OnlyFetchEventsAdded(st: State, st': State)
  {
    Extends(st, st') && forall i :: |st.events| <= i < |st'.events| ==> IsFetchEvent(st'.events[i])
  }

  // ---------------------------------------------------------------------
  // Requests
  // ---------------------------------------------------------------------

  /** `get_headers`: the bearer credential is sent exactly when a key is set. */
  function GetHeaders(c: Client): (h: Headers)
    ensures "Authorization" in h <==> c.apiKey != ""
    ensures "Authorization" in h ==> h["Authorization"] == "Bearer " + c.apiKey
    ensures h.Keys <= {"Authorization"}
  {
    if c.apiKey != "" then map["Authorization" := "Bearer " + c.apiKey] else map[]
  }

  function Fetch(c: Client, env: Env, url: string): Response
  {
    env.http(Request(url, GetHeaders(c)))
  }

  function LookupUrl(hash: string): string
  {
    ApiBase + "/model-versions/by-hash/" + hash
  }

  /** `get_model_info_by_hash`: the decoded body on 200, `None` otherwise. */
  function GetModelInfoByHash(c: Client, env: Env, hash: string): (r: ModelInfo)
    ensures Fetch(c, env, LookupUrl(hash)).status != 200 ==> r == Null
    ensures Fetch(c, env, LookupUrl(hash)).status == 200 ==> r == Fetch(c, env, LookupUrl(hash)).json
  {
    var resp := Fetch(c, env, LookupUrl(hash));
    if resp.status == 200 then resp.json else Null
  }

  /** `_download_file`: one request; on 200 the body lands at `dest`, any
      other status raises and leaves the filesystem alone. */
  function DownloadFile(c: Client, env: Env, st: State, url: string, dest: Path): (o: Outcome)
    ensures o.st.events == st.events + [Get(url, dest)]
    ensures o.Done? <==> Fetch(c, env, url).status == 200 && !IsDir(st.fs, dest)
    ensures o.Done? ==> View(o.st.fs, dest) == Some(Regular(Fetch(c, env, url).body))
    ensures o.Done? ==> o.st.fs == Write(st.fs, dest, Fetch(c, env, url).body).value
    ensures o.Failed? ==> o.st.fs == st.fs
    ensures o.Failed? ==> o.failure == HttpStatus(url, Fetch(c, env, url).status) || o.failure == OsError(dest)
    ensures Fetch(c, env, url).status != 200 ==> o.failure == HttpStatus(url, Fetch(c, env, url).status)
  {
    var resp := Fetch(c, env, url);
    var st' := st.(events := st.events + [Get(url, dest)]);
    if resp.status != 200 then Failed(st', HttpStatus(url, resp.status))
    else if IsDir(st.fs, dest) then Failed(st', OsError(dest))
    else Done(st'.(fs := Write(st.fs, dest, resp.body).value))
  }

  // ---------------------------------------------------------------------
  // download_model_files, step by step
  // ---------------------------------------------------------------------

  /** `splitext(safetensor_path)[0] + ".json"` */
  function MetadataPath(sp: Path): Path
  {
    SplitExt(sp).0 + ".json"
  }

  /** Step 1: write the serialised record next to the model unless the file
      already holds exactly that text. Reading a directory raises. */
  function SaveMetadata(c: Client, env: Env, st: State, info: ModelInfo, sp: Path): (o: Outcome)
    ensures o.Failed? <==> IsDir(st.fs, MetadataPath(sp))
    ensures o.Failed? ==> o.st == st && o.failure == OsError(MetadataPath(sp))
    ensures o.Done? ==> View(o.st.fs, MetadataPath(sp)) == Some(Regular(env.dumps(info)))
    ensures View(st.fs, MetadataPath(sp)) == Some(Regular(env.dumps(info))) ==> o == Done(st)
    ensures o.Done? && View(st.fs, MetadataPath(sp)) != Some(Regular(env.dumps(info))) ==>
      o.st.fs == Write(st.fs, MetadataPath(sp), env.dumps(info)).value
    ensures o.Done? && View(st.fs, MetadataPath(sp)) != Some(Regular(env.dumps(info))) ==>
      o.st.events == st.events + [MetadataWrite(MetadataPath(sp))]
                     + When(c.hooks.log, Log(SavedMetadata, MetadataPath(sp)))
                     + When(c.hooks.json, JsonCallback)
  {
    var path := MetadataPath(sp);
    var text := env.dumps(info);
    if IsDir(st.fs, path) then Failed(st, OsError(path))
    else if View(st.fs, path) == Some(Regular(text)) then Done(st)
    else
      Done(State(Write(st.fs, path, text).value,
                 st.events + [MetadataWrite(path)]
                 + When(c.hooks.log, Log(SavedMetadata, path))
                 + When(c.hooks.json, JsonCallback)))
  }

  /** A declared file is considered when it has both a URL and a name and its
      lower-cased extension is not `.safetensors`. */
  predicate Declared(f: RemoteFile)
  {
    f.downloadUrl != "" && f.name != "" && Lower(SplitExt(f.name).1) != ".safetensors"
  }

  function DeclaredDest(d: Path, f: RemoteFile): Path
  {
    Join(d, f.name)
  }

  /** Log, download, and fire the preview callback when `isPreview`. */
  function FetchTo(c: Client, env: Env, st: State, url: string, dest: Path, kind: LogKind, isPreview: bool): (o: Outcome)
    ensures o.Done? ==> o.st.events == st.events + When(c.hooks.log, Log(kind, dest)) + [Get(url, dest)]
                                      + When(c.hooks.preview && isPreview, PreviewCallback)
    ensures o.Failed? ==> o.st.events == st.events + When(c.hooks.log, Log(kind, dest)) + [Get(url, dest)]
    ensures o.Done? <==> Fetch(c, env, url).status == 200 && !IsDir(st.fs, dest)
    ensures o.Done? ==> View(o.st.fs, dest) == Some(Regular(Fetch(c, env, url).body))
    ensures o.Done? ==> o.st.fs == Write(st.fs, dest, Fetch(c, env, url).body).value
    ensures o.Failed? ==> o.st.fs == st.fs
    ensures o.Failed? ==> o.failure == HttpStatus(url, Fetch(c, env, url).status) || o.failure == OsError(dest)
  {
    var st1 := st.(events := st.events + When(c.hooks.log, Log(kind, dest)));
    match DownloadFile(c, env, st1, url, dest)
    case Failed(s, e) => Failed(s, e)
    case Done(s) => Done(s.(events := s.events + When(c.hooks.preview && isPreview, PreviewCallback)))
  }

  /** Step 2 for one declared file: `.gguf` or not, an existing destination
      is never fetched; a `.gguf` skip is logged. */
  function FetchDeclaredFile(c: Client, env: Env, st: State, f: RemoteFile, d: Path): (o: Outcome)
    ensures !Declared(f) || Exists(st.fs, DeclaredDest(d, f)) ==>
      o.Done? && o.st.fs == st.fs
      && (o.st.events == st.events || o.st.events == st.events + [Log(DeclaredPresent, f.name)])
    ensures Declared(f) && !Exists(st.fs, DeclaredDest(d, f)) ==>
      o == FetchTo(c, env, st, f.downloadUrl, DeclaredDest(d, f), DownloadingDeclared,
                   Lower(SplitExt(f.name).1) in PreviewExts)
  {
    if !Declared(f) then Done(st)
    else
      var ext := Lower(SplitExt(f.name).1);
      var dest := Join(d, f.name);
      if ext == ".gguf" && Exists(st.fs, dest) then
        Done(st.(events := st.events + When(c.hooks.log, Log(DeclaredPresent, f.name))))
      else if Exists(st.fs, dest) then Done(st)
      else FetchTo(c, env, st, f.downloadUrl, dest, DownloadingDeclared, ext in PreviewExts)
  }

  /** Step 2: the declared files in order; the first failed download aborts. */
  function FetchDeclared(c: Client, env: Env, st: State, files: seq<RemoteFile>, d: Path): (o: Outcome)
    decreases |files|
  {
    if |files| == 0 then Done(st)
    else
      match FetchDeclaredFile(c, env, st, files[0], d)
      case Failed(s, e) => Failed(s, e)
      case Done(s) => FetchDeclared(c, env, s, files[1..], d)
  }

  /** `<base>.preview<ext>` for index 0, `<base>.<k>.preview<ext>` after. */
  function PreviewName(base: Path, k: nat, ext: string): Path
  {
    if k == 0 then base + ".preview" + ext
    else base + "." + NatToString(k) + ".preview" + ext
  }

  /** Step 3 applies when a model path is given and the first image has a URL. */
  predicate HasPrimary(info: ModelInfo, sp: Path)
    requires info.Object?
  {
    sp != "" && |info.images| > 0 && info.images[0].url != ""
  }

  function PrimaryPath(info: ModelInfo, sp: Path): Path
    requires info.Object? && HasPrimary(info, sp)
  {
    SplitExt(sp).0 + ".preview" + SplitExt(info.images[0].url).1
  }

  /** Step 3: the first image as the primary preview, unless it exists. */
  function FetchPrimary(c: Client, env: Env, st: State, info: ModelInfo, sp: Path): (o: Outcome)
    requires info.Object?
    ensures !HasPrimary(info, sp) || Exists(st.fs, PrimaryPath(info, sp)) ==> o == Done(st)
    ensures HasPrimary(info, sp) && !Exists(st.fs, PrimaryPath(info, sp)) ==>
      o == FetchTo(c, env, st, info.images[0].url, PrimaryPath(info, sp), DownloadingPrimary, true)
  {
    if HasPrimary(info, sp) && !Exists(st.fs, PrimaryPath(info, sp)) then
      FetchTo(c, env, st, info.images[0].url, PrimaryPath(info, sp), DownloadingPrimary, true)
    else Done(st)
  }

  predicate IsGgufName(f: string)
  {
    EndsWith(Lower(f), ".gguf")
  }

  /** The stem of the first listed `.gguf` file, if any. */
  function FirstGguf(names: seq<string>, d: Path): (r: Option<Path>)
    ensures r.None? <==> forall i :: 0 <= i < |names| ==> !IsGgufName(names[i])
    ensures r.Some? ==>
      exists i :: 0 <= i < |names| && IsGgufName(names[i])
               && r.value == SplitExt(Join(d, names[i])).0
               && forall j :: 0 <= j < i ==> !IsGgufName(names[j])
  {
    match FirstIndex(names, IsGgufName)
    case None => None
    case Some(i) => Some(SplitExt(Join(d, names[i])).0)
  }

  /** The stem preview images are named after: the model path's, or else
      that of the first `.gguf` the folder listing shows at that moment. */
  function PreviewBase(env: Env, fs: Fs, d: Path, sp: Path): (r: Option<Path>)
    ensures sp != "" ==> r == Some(SplitExt(sp).0)
  {
    if sp != "" then Some(SplitExt(sp).0) else FirstGguf(env.listdir(fs, d), d)
  }

  /** Python truthiness of the optional base. */
  predicate Usable(base: Option<Path>)
  {
    base.Some? && base.value != ""
  }

  /** Step 4: the images in order; only those with a URL take an index. */
  function FetchPreviews(c: Client, env: Env, st: State, images: seq<RemoteImage>, base: Option<Path>, k: nat): (o: Outcome)
    decreases |images|
  {
    if |images| == 0 then Done(st)
    else
      var url := images[0].url;
      if url != "" && Usable(base) then
        var dest := PreviewName(base.value, k, SplitExt(url).1);
        var o1 := if Exists(st.fs, dest) then Done(st)
                  else FetchTo(c, env, st, url, dest, DownloadingPreview, true);
        match o1
        case Failed(s, e) => Failed(s, e)
        case Done(s) => FetchPreviews(c, env, s, images[1..], base, k + 1)
      else FetchPreviews(c, env, st, images[1..], base, k)
  }

  /** The URLs of the images that have one, in order. */
  function Urls(images: seq<RemoteImage>): (r: seq<string>)
    ensures |r| <= |images|
    ensures forall j :: 0 <= j < |r| ==> r[j] != ""
    ensures forall u :: u in r <==> exists i :: 0 <= i < |images| && images[i].url == u && u != ""
  {
    if |images| == 0 then []
    else (if images[0].url != "" then [images[0].url] else []) + Urls(images[1..])
  }

  /** What step 4 aims at: (url, destination) for every image with a URL,
      the j-th of them numbered `k + j`. */
  function ImagePlan(images: seq<RemoteImage>, base: Path, k: nat): (r: seq<(string, Path)>)
    ensures |r| == |Urls(images)|
    decreases |images|
  {
    if |images| == 0 then []
    else if images[0].url != "" then
      [(images[0].url, PreviewName(base, k, SplitExt(images[0].url).1))] + ImagePlan(images[1..], base, k + 1)
    else ImagePlan(images[1..], base, k)
  }

  /** Steps 1 to 4 once the destination folder is in place. */
  function Reconcile(c: Client, env: Env, st: State, info: ModelInfo, d: Path, sp: Path): (o: Outcome)
    requires info.Object?
  {
    var o1 := if sp != "" then SaveMetadata(c, env, st, info, sp) else Done(st);
    if o1.Failed? then o1
    else
      var o2 := FetchDeclared(c, env, o1.st, info.files, d);
      if o2.Failed? then o2
      else
        var o3 := FetchPrimary(c, env, o2.st, info, sp);
        if o3.Failed? then o3
        else FetchPreviews(c, env, o3.st, info.images, PreviewBase(env, o3.st.fs, d, sp), 0)
  }

  /** `download_model_files(model_info, dest_folder, safetensor_path)`, with
      "" for an absent `safetensor_path`. A falsy record returns False and
      touches nothing; otherwise the result is True unless an exception
      escapes, and nothing inside catches one. */
  function DownloadModelFiles(c: Client, env: Env, fs: Fs, info: ModelInfo, d: Path, sp: Path): (r: Run)
    ensures !info.Object? ==> r == Run(State(fs, []), Returned(false))
    ensures info.Object? ==> r.exit != Returned(false)
    ensures info.Object? && MakeDirs(fs, d).None? ==> r == Run(State(fs, []), Raised(OsError(d)))
  {
    if !info.Object? then Run(State(fs, []), Returned(false))
    else
      match MakeDirs(fs, d)
      case None => Run(State(fs, []), Raised(OsError(d)))
      case Some(fs0) =>
        match Reconcile(c, env, State(fs0, []), info, d, sp)
        case Done(s) => Run(s, Returned(true))
        case Failed(s, e) => Run(s, Raised(e))
  }

  // ---------------------------------------------------------------------
  // process_lora_folder
  // ---------------------------------------------------------------------

  /** Either every result, or the exception that ended the scan. */
  datatype Scan = Scanned(st: State, results: seq<(Path, bool)>) | Stopped(st: State, failure: Failure)

  /** `hash_file`: SHA-256 of the content; opening a missing file or a directory raises. */
  function HashFile(env: Env, fs: Fs, path: Path): (r: Option<string>)
    ensures r.Some? <==> IsFile(fs, path)
    ensures r.Some? ==> r.value == env.sha256(View(fs, path).value.content)
  {
    if IsFile(fs, path) then Some(env.sha256(View(fs, path).value.content)) else None
  }

  /** The body of the inner loop for one listed file: other files are
      passed over; a model file is hashed (an unreadable one raises), looked
      up, and reported with True exactly when the lookup gave a record, in
      which case its side-cars are reconciled into the file's own folder. */
  function ProcessFile(c: Client, env: Env, st: State, root: Path, file: string): (r: Scan)
    ensures !IsSafetensors(file) ==> r == Scanned(st, [])
    ensures IsSafetensors(file) && !IsFile(st.fs, Join(root, file)) ==> r == Stopped(st, OsError(Join(root, file)))
    ensures IsSafetensors(file) && IsFile(st.fs, Join(root, file)) ==>
      var path := Join(root, file);
      var hash := env.sha256(View(st.fs, path).value.content);
      var info := GetModelInfoByHash(c, env, hash);
      && |r.st.events| > |st.events|
      && r.st.events[..|st.events| + 1] == st.events + [Query(LookupUrl(hash))]
      && (r.Scanned? ==> r.results == [(path, info.Object?)])
      && (r.Stopped? ==> info.Object? && DownloadModelFiles(c, env, st.fs, info, root, path).exit.Raised?)
      && (info.Object? ==>
            var run := DownloadModelFiles(c, env, st.fs, info, root, path);
            && r.st == State(run.st.fs, st.events + [Query(LookupUrl(hash))] + run.st.events)
            && (r.Stopped? <==> run.exit.Raised?)
            && (r.Stopped? ==> r.failure == run.exit.failure))
      && (!info.Object? ==> r == Scanned(State(st.fs, st.events + [Query(LookupUrl(hash))]), [(path, false)]))
  {
    if !IsSafetensors(file) then Scanned(st, [])
    else
      var path := Join(root, file);
      match HashFile(env, st.fs, path)
      case None => Stopped(st, OsError(path))
      case Some(hash) =>
        var info := GetModelInfoByHash(c, env, hash);
        var st1 := st.(events := st.events + [Query(LookupUrl(hash))]);
        if info.Object? then
          var run := DownloadModelFiles(c, env, st1.fs, info, root, path);
          var st2 := State(run.st.fs, st1.events + run.st.events);
          if run.exit.Raised? then Stopped(st2, run.exit.failure)
          else Scanned(st2, [(path, true)])
        else Scanned(st1, [(path, false)])
  }

  /** The results gathered so far in front of what the rest of a scan gives;
      an exception in the rest passes through unchanged. */
  function Prepend(results: seq<(Path, bool)>, rest: Scan): Scan
  {
    match rest
    case Stopped(s, e) => Stopped(s, e)
    case Scanned(s, more) => Scanned(s, results + more)
  }

  /** The inner loop over the file names of one directory. */
  function ProcessFiles(c: Client, env: Env, st: State, root: Path, files: seq<string>): (r: Scan)
    decreases |files|
  {
    if |files| == 0 then Scanned(st, [])
    else
      match ProcessFile(c, env, st, root, files[0])
      case Stopped(s, e) => Stopped(s, e)
      case Scanned(s, res) => Prepend(res, ProcessFiles(c, env, s, root, files[1..]))
  }

  /** The walk loop; without `recursive` it stops after the first directory. */
  function ProcessWalk(c: Client, env: Env, st: State, walk: seq<WalkDir>, recursive: bool): (r: Scan)
    decreases |walk|
  {
    if |walk| == 0 then Scanned(st, [])
    else
      match ProcessFiles(c, env, st, walk[0].root, walk[0].files)
      case Stopped(s, e) => Stopped(s, e)
      case Scanned(s, res) =>
        if !recursive then Scanned(s, res)
        else Prepend(res, ProcessWalk(c, env, s, walk[1..], recursive))
  }

  /** `process_lora_folder(lora_folder, recursive)` over the walk `os.walk` yields. */
  function ProcessLoraFolder(c: Client, env: Env, fs: Fs, walk: seq<WalkDir>, recursive: bool): Scan
  {
    ProcessWalk(c, env, State(fs, []), walk, recursive)
  }

  /** The paths of the model files the scan visits, in walk order. */
  function CandidatesIn(root: Path, files: seq<string>): seq<Path>
    decreases |files|
  {
    if |files| == 0 then []
    else (if IsSafetensors(files[0]) then [Join(root, files[0])] else []) + CandidatesIn(root, files[1..])
  }

  function Candidates(walk: seq<WalkDir>, recursive: bool): seq<Path>
    decreases |walk|
  {
    if |walk| == 0 then []
    else CandidatesIn(walk[0].root, walk[0].files) + (if recursive then Candidates(walk[1..], recursive) else [])
  }

  function ResultPaths(results: seq<(Path, bool)>): (r: seq<Path>)
    ensures |r| == |results|
    ensures forall i :: 0 <= i < |r| ==> r[i] == results[i].0
  {
    if |results| == 0 then [] else [results[0].0] + ResultPaths(results[1..])
  }
}

=== FILE: civitai_proofs.dfy ===
/** What `download_model_files` and `process_lora_folder` promise: which
    requests can happen at all, that nothing existing is fetched again, that
    the metadata is rewritten only on a change, that a second identical call
    is quiet, the naming of preview images, and the shape of a folder scan. */
module CivitaiProofs {
  import opened Wrappers
  import opened Paths
  import opened FileSystem
  import opened Civitai

  // ---------------------------------------------------------------------
  // Single downloads
  // ---------------------------------------------------------------------

  /** A download to a destination that does not exist leaves it existing and
      disturbs nothing else that exists. */
  lemma FetchToSettles(c: Client, env: Env, st: State, url: string, dest: Path, kind: LogKind, isPreview: bool)
    requires WellFormed(st.fs)
    requires !Exists(st.fs, dest)
    requires FetchTo(c, env, st, url, dest, kind, isPreview).Done?
    ensures var o := FetchTo(c, env, st, url, dest, kind, isPreview);
      Grows(st.fs, o.st.fs) && WellFormed(o.st.fs) && Exists(o.st.fs, dest)
  {
    WriteFreshGrows(st.fs, dest, Fetch(c, env, url).body);
  }

  /** With a 200 answer, a download to a fresh path succeeds and adds exactly that path. */
  lemma FetchToFresh(c: Client, env: Env, st: State, url: string, dest: Path, kind: LogKind, isPreview: bool)
    requires dest !in st.fs
    requires Fetch(c, env, url).status == 200
    ensures var o := FetchTo(c, env, st, url, dest, kind, isPreview);
      o.Done? && o.st.fs.Keys == st.fs.Keys + {dest}
  {
  }

  /** The events `st'` adds to `st` are download-step events, and every
      request among them is for one of `targets`. */
  ghost predicate FetchesAmong(st: State, st': State, targets: seq<(string, Path)>)
  {
    && Extends(st, st')
    && forall i :: |st.events| <= i < |st'.events| ==>
         IsFetchEvent(st'.events[i]) && (st'.events[i].Get? ==> (st'.events[i].url, st'.events[i].dest) in targets)
  }

  /** The exception names the request it came from. */
  predicate Blames(f: Failure, e: Event)
  {
    e.Get? && match f
      case HttpStatus(u, _) => u == e.url
      case OsError(p) => p == e.dest
  }

  /** A failed step ends with the request that failed. */
  ghost predicate AbortsAtLastGet(st: State, o: Outcome)
  {
    o.Failed? ==> |o.st.events| > |st.events| && Blames(o.failure, o.st.events[|o.st.events| - 1])
  }

  /** An abort after a step that only added events still ends with the failed request. */
  lemma AbortsChain(st: State, st1: State, o: Outcome)
    requires Extends(st, st1) && AbortsAtLastGet(st1, o)
    ensures AbortsAtLastGet(st, o)
  {
  }

  /** No destination of `targets` is a name in `fs`. */
  ghost predicate NoneIn(fs: Fs, targets: seq<(string, Path)>)
  {
    forall x :: x in targets ==> x.1 !in fs
  }

  /** Every destination of `targets` exists in `fs`. */
  ghost predicate AllExist(fs: Fs, targets: seq<(string, Path)>)
  {
    forall x :: x in targets ==> Exists(fs, x.1)
  }

  /** Every image that has a URL answers with status 200. */
  ghost predicate AllAnswer(c: Client, env: Env, images: seq<RemoteImage>)
  {
    forall j :: 0 <= j < |images| && images[j].url != "" ==> Fetch(c, env, images[j].url).status == 200
  }

  lemma ExtendsTransitive(a: State, b: State, c: State)
    requires Extends(a, b) && Extends(b, c)
    ensures Extends(a, c)
  {
    assert c.events[..|a.events|] == c.events[..|b.events|][..|a.events|];
  }

  lemma OnlyLogsAddedTransitive(a: State, b: State, c: State)
    requires OnlyLogsAdded(a, b) && OnlyLogsAdded(b, c)
    ensures OnlyLogsAdded(a, c)
  {
    ExtendsTransitive(a, b, c);
    forall i | |a.events| <= i < |c.events| ensures c.events[i].Log? {
      if i < |b.events| {
        assert c.events[i] == b.events[i];
      }
    }
  }

  lemma FetchesAmongWeaken(a: State, b: State, t: seq<(string, Path)>, t': seq<(string, Path)>)
    requires FetchesAmong(a, b, t)
    requires forall x :: x in t ==> x in t'
    ensures FetchesAmong(a, b, t')
  {
  }

  lemma FetchesAmongTransitive(a: State, b: State, c: State, t1: seq<(string, Path)>, t2: seq<(string, Path)>, t: seq<(string, Path)>)
    requires FetchesAmong(a, b, t1) && FetchesAmong(b, c, t2)
    requires t == t1 + t2
    ensures FetchesAmong(a, c, t)
  {
    ExtendsTransitive(a, b, c);
    forall i | |a.events| <= i < |c.events|
      ensures IsFetchEvent(c.events[i]) && (c.events[i].Get? ==> (c.events[i].url, c.events[i].dest) in t)
    {
      if i < |b.events| {
        assert c.events[i] == c.events[..|b.events|][i] == b.events[i];
      }
    }
  }

  /** One download adds its log line, its request and its callback, and
      nothing else; a failure names that request. */
  lemma FetchToEvents(c: Client, env: Env, st: State, url: string, dest: Path, kind: LogKind, isPreview: bool)
    ensures var o := FetchTo(c, env, st, url, dest, kind, isPreview);
      FetchesAmong(st, o.st, [(url, dest)]) && AbortsAtLastGet(st, o)
  {
    var o := FetchTo(c, env, st, url, dest, kind, isPreview);
    assert o.st.events[..|st.events|] == st.events;
  }

  /** The destinations of the declared step, in order. */
  function DeclaredTargets(files: seq<RemoteFile>, d: Path): (r: seq<(string, Path)>)
    ensures |r| <= |files|
    decreases |files|
  {
    if |files| == 0 then []
    else (if Declared(files[0]) then [(files[0].downloadUrl, DeclaredDest(d, files[0]))] else [])
         + DeclaredTargets(files[1..], d)
  }

  /** A target of the declared step is exactly a declared file's URL and destination. */
  lemma {:induction false} DeclaredTargetsMember(files: seq<RemoteFile>, d: Path, x: (string, Path))
    ensures x in DeclaredTargets(files, d) <==>
      exists j :: 0 <= j < |files| && Declared(files[j]) && x == (files[j].downloadUrl, DeclaredDest(d, files[j]))
    decreases |files|
  {
    if |files| > 0 {
      DeclaredTargetsMember(files[1..], d, x);
      if x in DeclaredTargets(files[1..], d) {
        var j :| 0 <= j < |files[1..]| && Declared(files[1..][j])
                 && x == (files[1..][j].downloadUrl, DeclaredDest(d, files[1..][j]));
        assert files[1..][j] == files[j + 1];
      }
      if exists j :: 0 <= j < |files| && Declared(files[j]) && x == (files[j].downloadUrl, DeclaredDest(d, files[j])) {
        var j :| 0 <= j < |files| && Declared(files[j]) && x == (files[j].downloadUrl, DeclaredDest(d, files[j]));
        if j > 0 {
          assert files[1..][j - 1] == files[j];
        }
      }
    }
  }

  // ---------------------------------------------------------------------
  // Step 2: declared files
  // ---------------------------------------------------------------------

  /** One declared file: at most its own request, and an abort names it. */
  lemma DeclaredFileRequests(c: Client, env: Env, st: State, f: RemoteFile, d: Path)
    ensures var o := FetchDeclaredFile(c, env, st, f, d);
      && FetchesAmong(st, o.st, if Declared(f) then [(f.downloadUrl, DeclaredDest(d, f))] else [])
      && AbortsAtLastGet(st, o)
  {
    var o := FetchDeclaredFile(c, env, st, f, d);
    if Declared(f) && !Exists(st.fs, DeclaredDest(d, f)) {
      FetchToEvents(c, env, st, f.downloadUrl, DeclaredDest(d, f), DownloadingDeclared,
                    Lower(SplitExt(f.name).1) in PreviewExts);
    } else {
      assert FetchesAmong(st, o.st, []);
      if Declared(f) {
        FetchesAmongWeaken(st, o.st, [], [(f.downloadUrl, DeclaredDest(d, f))]);
      }
    }
  }

  /** The requests of the declared-file step: each is for a declared file
      (never a `.safetensors` one), and an abort names the request that failed. */
  lemma {:induction false} DeclaredRequests(c: Client, env: Env, st: State, files: seq<RemoteFile>, d: Path)
    ensures var o := FetchDeclared(c, env, st, files, d);
      FetchesAmong(st, o.st, DeclaredTargets(files, d)) && AbortsAtLastGet(st, o)
    decreases |files|
  {
    var o := FetchDeclared(c, env, st, files, d);
    if |files| > 0 {
      var f := files[0];
      var o1 := FetchDeclaredFile(c, env, st, f, d);
      var head := if Declared(f) then [(f.downloadUrl, DeclaredDest(d, f))] else [];
      assert DeclaredTargets(files, d) == head + DeclaredTargets(files[1..], d);
      DeclaredFileRequests(c, env, st, f, d);
      if o1.Done? {
        assert o == FetchDeclared(c, env, o1.st, files[1..], d);
        DeclaredRequests(c, env, o1.st, files[1..], d);
        assert FetchesAmong(st, o.st, DeclaredTargets(files, d)) by {
          FetchesAmongTransitive(st, o1.st, o.st, head, DeclaredTargets(files[1..], d), DeclaredTargets(files, d));
        }
        AbortsChain(st, o1.st, o);
      } else {
        assert o == o1;
        FetchesAmongWeaken(st, o1.st, head, DeclaredTargets(files, d));
      }
    } else {
      assert o == Done(st);
    }
  }

  /** After the declared-file step every declared destination exists, and
      nothing that existed before was disturbed. */
  lemma {:induction false} DeclaredSettles(c: Client, env: Env, st: State, files: seq<RemoteFile>, d: Path)
    requires WellFormed(st.fs)
    requires FetchDeclared(c, env, st, files, d).Done?
    ensures var o := FetchDeclared(c, env, st, files, d);
      && Grows(st.fs, o.st.fs) && WellFormed(o.st.fs)
      && forall j :: 0 <= j < |files| && Declared(files[j]) ==> Exists(o.st.fs, DeclaredDest(d, files[j]))
    decreases |files|
  {
    if |files| > 0 {
      var f := files[0];
      var o1 := FetchDeclaredFile(c, env, st, f, d);
      if Declared(f) && !Exists(st.fs, DeclaredDest(d, f)) {
        FetchToSettles(c, env, st, f.downloadUrl, DeclaredDest(d, f), DownloadingDeclared,
                       Lower(SplitExt(f.name).1) in PreviewExts);
      }
      DeclaredSettles(c, env, o1.st, files[1..], d);
      var o := FetchDeclared(c, env, st, files, d);
      GrowsTransitive(st.fs, o1.st.fs, o.st.fs);
      forall j | 0 <= j < |files| && Declared(files[j]) ensures Exists(o.st.fs, DeclaredDest(d, files[j])) {
        if j > 0 {
          assert files[1..][j - 1] == files[j];
        }
      }
    }
  }

  /** When every declared destination already exists the step changes nothing
      and only logs. */
  lemma {:induction false} DeclaredQuiet(c: Client, env: Env, st: State, files: seq<RemoteFile>, d: Path)
    requires forall j :: 0 <= j < |files| && Declared(files[j]) ==> Exists(st.fs, DeclaredDest(d, files[j]))
    ensures var o := FetchDeclared(c, env, st, files, d);
      o.Done? && o.st.fs == st.fs && OnlyLogsAdded(st, o.st)
    decreases |files|
  {
    if |files| > 0 {
      var o1 := FetchDeclaredFile(c, env, st, files[0], d);
      forall j | 0 <= j < |files[1..]| && Declared(files[1..][j])
        ensures Exists(o1.st.fs, DeclaredDest(d, files[1..][j]))
      {
        assert files[1..][j] == files[j + 1];
      }
      assert o1.Done? && o1.st.fs == st.fs;
      assert OnlyLogsAdded(st, o1.st);
      DeclaredQuiet(c, env, o1.st, files[1..], d);
      var o := FetchDeclared(c, env, st, files, d);
      assert o == FetchDeclared(c, env, o1.st, files[1..], d);
      OnlyLogsAddedTransitive(st, o1.st, o.st);
    }
  }

  // ---------------------------------------------------------------------
  // Step 4: preview images
  // ---------------------------------------------------------------------

  /** The plan numbers the URL-bearing images consecutively from `k`. */
  lemma {:induction false} ImagePlanEntries(images: seq<RemoteImage>, base: Path, k: nat)
    ensures var plan := ImagePlan(images, base, k);
      forall j :: 0 <= j < |plan| ==>
        plan[j] == (Urls(images)[j], PreviewName(base, k + j, SplitExt(Urls(images)[j]).1))
    decreases |images|
  {
    if |images| > 0 {
      var url := images[0].url;
      var plan, urls := ImagePlan(images, base, k), Urls(images);
      if url != "" {
        var rest, urest := ImagePlan(images[1..], base, k + 1), Urls(images[1..]);
        ImagePlanEntries(images[1..], base, k + 1);
        assert plan == [(url, PreviewName(base, k, SplitExt(url).1))] + rest;
        assert urls == [url] + urest;
        forall j | 0 <= j < |plan|
          ensures plan[j] == (urls[j], PreviewName(base, k + j, SplitExt(urls[j]).1))
        {
          if j > 0 {
            assert plan[j] == rest[j - 1] && urls[j] == urest[j - 1];
          }
        }
      } else {
        ImagePlanEntries(images[1..], base, k);
        assert plan == ImagePlan(images[1..], base, k) && urls == Urls(images[1..]);
      }
    }
  }

  lemma AllAnswerTail(c: Client, env: Env, images: seq<RemoteImage>)
    requires |images| > 0 && AllAnswer(c, env, images)
    ensures AllAnswer(c, env, images[1..])
  {
    forall j | 0 <= j < |images[1..]| && images[1..][j].url != "" ensures Fetch(c, env, images[1..][j].url).status == 200 {
      assert images[1..][j] == images[j + 1];
    }
  }

  /** No planned name reuses an index below the starting one. */
  lemma {:induction false} PlanAvoids(images: seq<RemoteImage>, base: Path, k: nat, m: nat, ext: string)
    requires m < k
    ensures forall x :: x in ImagePlan(images, base, k) ==> x.1 != PreviewName(base, m, ext)
    decreases |images|
  {
    if |images| > 0 {
      var url := images[0].url;
      if url != "" {
        PreviewNamesDistinct(base, k, SplitExt(url).1, m, ext);
        PlanAvoids(images[1..], base, k + 1, m, ext);
        assert ImagePlan(images, base, k)
          == [(url, PreviewName(base, k, SplitExt(url).1))] + ImagePlan(images[1..], base, k + 1);
      } else {
        PlanAvoids(images[1..], base, k, m, ext);
      }
    }
  }

  /** Without a usable base no image is requested and nothing happens. */
  lemma {:induction false} NoBaseNoPreviews(c: Client, env: Env, st: State, images: seq<RemoteImage>, base: Option<Path>, k: nat)
    requires !Usable(base)
    ensures FetchPreviews(c, env, st, images, base, k) == Done(st)
    decreases |images|
  {
    if |images| > 0 {
      NoBaseNoPreviews(c, env, st, images[1..], base, k);
    }
  }

  /** Every request of the image step is for an entry of the plan, and an
      abort names the request that failed. */
  lemma {:induction false} PreviewRequests(c: Client, env: Env, st: State, images: seq<RemoteImage>, base: Path, k: nat)
    requires base != ""
    ensures var o := FetchPreviews(c, env, st, images, Some(base), k);
      FetchesAmong(st, o.st, ImagePlan(images, base, k)) && AbortsAtLastGet(st, o)
    decreases |images|
  {
    if |images| > 0 {
      var url := images[0].url;
      var o := FetchPreviews(c, env, st, images, Some(base), k);
      if url != "" {
        var dest := PreviewName(base, k, SplitExt(url).1);
        var o1 := if Exists(st.fs, dest) then Done(st)
                  else FetchTo(c, env, st, url, dest, DownloadingPreview, true);
        var plan := ImagePlan(images, base, k);
        var rest := ImagePlan(images[1..], base, k + 1);
        assert plan == [(url, dest)] + rest;
        if !Exists(st.fs, dest) {
          FetchToEvents(c, env, st, url, dest, DownloadingPreview, true);
        }
        assert FetchesAmong(st, o1.st, [(url, dest)]);
        if o1.Done? {
          PreviewRequests(c, env, o1.st, images[1..], base, k + 1);
          assert o == FetchPreviews(c, env, o1.st, images[1..], Some(base), k + 1);
          FetchesAmongTransitive(st, o1.st, o.st, [(url, dest)], rest, plan);
          AbortsChain(st, o1.st, o);
        } else {
          assert o == o1;
          FetchesAmongWeaken(st, o1.st, [(url, dest)], plan);
        }
      } else {
        assert ImagePlan(images, base, k) == ImagePlan(images[1..], base, k);
        PreviewRequests(c, env, st, images[1..], base, k);
      }
    }
  }

  /** After the image step every planned destination exists, and nothing that
      existed before was disturbed. */
  lemma {:induction false} PreviewsSettle(c: Client, env: Env, st: State, images: seq<RemoteImage>, base: Path, k: nat)
    requires base != ""
    requires WellFormed(st.fs)
    requires FetchPreviews(c, env, st, images, Some(base), k).Done?
    ensures var o := FetchPreviews(c, env, st, images, Some(base), k);
      && Grows(st.fs, o.st.fs) && WellFormed(o.st.fs)
      && AllExist(o.st.fs, ImagePlan(images, base, k))
    decreases |images|
  {
    if |images| > 0 {
      var url := images[0].url;
      var o := FetchPreviews(c, env, st, images, Some(base), k);
      if url != "" {
        var dest := PreviewName(base, k, SplitExt(url).1);
        var o1 := if Exists(st.fs, dest) then Done(st)
                  else FetchTo(c, env, st, url, dest, DownloadingPreview, true);
        if !Exists(st.fs, dest) {
          FetchToSettles(c, env, st, url, dest, DownloadingPreview, true);
        }
        assert Exists(o1.st.fs, dest);
        assert o == FetchPreviews(c, env, o1.st, images[1..], Some(base), k + 1);
        PreviewsSettle(c, env, o1.st, images[1..], base, k + 1);
        GrowsTransitive(st.fs, o1.st.fs, o.st.fs);
        assert Exists(o.st.fs, dest);
        assert ImagePlan(images, base, k) == [(url, dest)] + ImagePlan(images[1..], base, k + 1);
      } else {
        assert ImagePlan(images, base, k) == ImagePlan(images[1..], base, k);
        PreviewsSettle(c, env, st, images[1..], base, k);
      }
    }
  }

  /** When every planned destination exists the image step does nothing at all. */
  lemma {:induction false} PreviewsQuiet(c: Client, env: Env, st: State, images: seq<RemoteImage>, base: Path, k: nat)
    requires base != ""
    requires AllExist(st.fs, ImagePlan(images, base, k))
    ensures FetchPreviews(c, env, st, images, Some(base), k) == Done(st)
    decreases |images|
  {
    if |images| > 0 {
      var url := images[0].url;
      if url != "" {
        var dest := PreviewName(base, k, SplitExt(url).1);
        assert ImagePlan(images, base, k) == [(url, dest)] + ImagePlan(images[1..], base, k + 1);
        assert Exists(st.fs, dest);
        PreviewsQuiet(c, env, st, images[1..], base, k + 1);
        assert FetchPreviews(c, env, st, images, Some(base), k) == FetchPreviews(c, env, st, images[1..], Some(base), k + 1);
      } else {
        assert ImagePlan(images, base, k) == ImagePlan(images[1..], base, k);
        PreviewsQuiet(c, env, st, images[1..], base, k);
      }
    }
  }

  /** Preview names with different indices differ, whatever the extensions. */
  lemma PreviewNamesDistinct(base: Path, k1: nat, e1: string, k2: nat, e2: string)
    requires k1 != k2
    ensures PreviewName(base, k1, e1) != PreviewName(base, k2, e2)
  {
    var n1, n2 := PreviewName(base, k1, e1), PreviewName(base, k2, e2);
    var b := |base|;
    if k1 == 0 || k2 == 0 {
      // one name continues with ".preview", the other with "." and a digit
      var kk := if k1 == 0 then k2 else k1;
      var numbered := base + "." + NatToString(kk) + ".preview" + (if k1 == 0 then e2 else e1);
      assert numbered[b + 1] == NatToString(kk)[0];
      var plain := base + ".preview" + (if k1 == 0 then e1 else e2);
      assert plain[b + 1] == 'p';
    } else {
      var s1, s2 := NatToString(k1), NatToString(k2);
      if |s1| == |s2| {
        if s1 == s2 {
          NatToStringInjective(k1, k2);
        } else {
          var i :| 0 <= i < |s1| && s1[i] != s2[i];
          assert n1[b + 1 + i] == s1[i];
          assert n2[b + 1 + i] == s2[i];
        }
      } else if |s1| < |s2| {
        assert n1[b + 1 + |s1|] == '.';
        assert n2[b + 1 + |s1|] == s2[|s1|];
      } else {
        assert n2[b + 1 + |s2|] == '.';
        assert n1[b + 1 + |s2|] == s1[|s2|];
      }
    }
  }

  /** The requests an image step makes, as a list. */
  function Gets(es: seq<Event>): (r: seq<Event>)
    ensures forall i :: 0 <= i < |r| ==> r[i].Get?
  {
    if |es| == 0 then [] else (if es[0].Get? then [es[0]] else []) + Gets(es[1..])
  }

  lemma {:induction false} GetsAppend(a: seq<Event>, b: seq<Event>)
    ensures Gets(a + b) == Gets(a) + Gets(b)
    decreases |a|
  {
    if |a| > 0 {
      assert (a + b)[1..] == a[1..] + b;
      GetsAppend(a[1..], b);
    } else {
      assert a + b == b;
    }
  }

  function PlanGets(plan: seq<(string, Path)>): (r: seq<Event>)
    ensures |r| == |plan|
    ensures forall j :: 0 <= j < |r| ==> r[j] == Get(plan[j].0, plan[j].1)
  {
    if |plan| == 0 then [] else [Get(plan[0].0, plan[0].1)] + PlanGets(plan[1..])
  }

  lemma PlanGetsCons(plan: seq<(string, Path)>)
    requires |plan| > 0
    ensures PlanGets(plan) == [Get(plan[0].0, plan[0].1)] + PlanGets(plan[1..])
  {
  }

  /** The requests among the events `b` adds to `a` and `c` to `b`. */
  lemma GetsSplit(a: State, b: State, c: State)
    requires Extends(a, b) && Extends(b, c)
    ensures Gets(c.events[|a.events|..]) == Gets(b.events[|a.events|..]) + Gets(c.events[|b.events|..])
  {
    assert c.events[|a.events|..] == b.events[|a.events|..] + c.events[|b.events|..];
    GetsAppend(b.events[|a.events|..], c.events[|b.events|..]);
  }

  /** A successful download adds exactly one request. */
  lemma FetchToGets(c: Client, env: Env, st: State, url: string, dest: Path, kind: LogKind, isPreview: bool)
    requires FetchTo(c, env, st, url, dest, kind, isPreview).Done?
    ensures var o := FetchTo(c, env, st, url, dest, kind, isPreview);
      Extends(st, o.st) && Gets(o.st.events[|st.events|..]) == [Get(url, dest)]
  {
    var o := FetchTo(c, env, st, url, dest, kind, isPreview);
    var pre, cb := When(c.hooks.log, Log(kind, dest)), When(c.hooks.preview && isPreview, PreviewCallback);
    assert o.st.events[|st.events|..] == pre + [Get(url, dest)] + cb;
    assert o.st.events[..|st.events|] == st.events;
    GetsAppend(pre + [Get(url, dest)], cb);
    GetsAppend(pre, [Get(url, dest)]);
  }

  /** The first image of a fresh folder, when it has a URL: one request for
      it, after which the rest of the plan is still absent. */
  lemma PreviewsFreshHead(c: Client, env: Env, st: State, images: seq<RemoteImage>, base: Path, k: nat)
    requires base != "" && |images| > 0 && images[0].url != ""
    requires NoneIn(st.fs, ImagePlan(images, base, k))
    requires Fetch(c, env, images[0].url).status == 200
    ensures var url := images[0].url;
      var dest := PreviewName(base, k, SplitExt(url).1);
      var o1 := FetchTo(c, env, st, url, dest, DownloadingPreview, true);
      && o1.Done? && Extends(st, o1.st) && Gets(o1.st.events[|st.events|..]) == [Get(url, dest)]
      && NoneIn(o1.st.fs, ImagePlan(images[1..], base, k + 1))
      && FetchPreviews(c, env, st, images, Some(base), k) == FetchPreviews(c, env, o1.st, images[1..], Some(base), k + 1)
      && ImagePlan(images, base, k) == [(url, dest)] + ImagePlan(images[1..], base, k + 1)
  {
    var url := images[0].url;
    var dest := PreviewName(base, k, SplitExt(url).1);
    var plan := ImagePlan(images, base, k);
    assert plan == [(url, dest)] + ImagePlan(images[1..], base, k + 1);
    assert dest !in st.fs by {
      assert (url, dest) in plan;
    }
    FetchToFresh(c, env, st, url, dest, DownloadingPreview, true);
    FetchToGets(c, env, st, url, dest, DownloadingPreview, true);
    var o1 := FetchTo(c, env, st, url, dest, DownloadingPreview, true);
    PlanAvoids(images[1..], base, k + 1, k, SplitExt(url).1);
    forall x | x in ImagePlan(images[1..], base, k + 1) ensures x.1 !in o1.st.fs {
      assert x in plan;
    }
    assert !Exists(st.fs, dest);
  }

  /** In a folder holding none of the planned names, with every image answering
      200, the image step requests every planned image exactly once, in order. */
  lemma {:induction false} PreviewsFresh(c: Client, env: Env, st: State, images: seq<RemoteImage>, base: Path, k: nat)
    requires base != ""
    requires NoneIn(st.fs, ImagePlan(images, base, k))
    requires AllAnswer(c, env, images)
    ensures var o := FetchPreviews(c, env, st, images, Some(base), k);
      o.Done? && Extends(st, o.st) && Gets(o.st.events[|st.events|..]) == PlanGets(ImagePlan(images, base, k))
    decreases |images|
  {
    var o := FetchPreviews(c, env, st, images, Some(base), k);
    if |images| == 0 {
      assert o.st.events[|st.events|..] == [];
    } else {
      var url := images[0].url;
      AllAnswerTail(c, env, images);
      if url != "" {
        var dest := PreviewName(base, k, SplitExt(url).1);
        var plan, rest := ImagePlan(images, base, k), ImagePlan(images[1..], base, k + 1);
        PreviewsFreshHead(c, env, st, images, base, k);
        var o1 := FetchTo(c, env, st, url, dest, DownloadingPreview, true);
        PreviewsFresh(c, env, o1.st, images[1..], base, k + 1);
        GetsSplit(st, o1.st, o.st);
        ExtendsTransitive(st, o1.st, o.st);
        PlanGetsCons(plan);
        assert plan[1..] == rest;
      } else {
        assert ImagePlan(images, base, k) == ImagePlan(images[1..], base, k);
        PreviewsFresh(c, env, st, images[1..], base, k);
        assert o == FetchPreviews(c, env, st, images[1..], Some(base), k);
      }
    }
  }
}

=== FILE: civitai_runs.dfy ===
/** Whole calls of `download_model_files` and `process_lora_folder`: what a
    call may request, when the metadata is rewritten, that a second identical
    call is quiet, that a fresh folder gets each image once, and which files a
    folder scan reports. */
module CivitaiRuns {
  import opened Wrappers
  import opened Paths
  import opened FileSystem
  import opened Civitai
  import opened CivitaiProofs

  // ---------------------------------------------------------------------
  // Facts about the steps that the whole-call lemmas share
  // ---------------------------------------------------------------------

  /** A metadata write keeps the filesystem well formed and every directory in place. */
  lemma SaveMetadataShape(c: Client, env: Env, st: State, info: ModelInfo, sp: Path)
    requires WellFormed(st.fs)
    requires SaveMetadata(c, env, st, info, sp).Done?
    ensures var o := SaveMetadata(c, env, st, info, sp);
      WellFormed(o.st.fs) && forall q :: IsDir(st.fs, q) ==> View(o.st.fs, q) == View(st.fs, q)
  {
    var jp, text := MetadataPath(sp), env.dumps(info);
    if View(st.fs, jp) != Some(Regular(text)) {
      WriteKeepsShape(st.fs, jp, text);
    }
  }

  /** The primary preview is the first entry of the image plan. */
  lemma PrimaryIsPlanned(info: ModelInfo, sp: Path)
    requires info.Object? && HasPrimary(info, sp)
    ensures ImagePlan(info.images, SplitExt(sp).0, 0)[0] == (info.images[0].url, PrimaryPath(info, sp))
    ensures (info.images[0].url, PrimaryPath(info, sp)) in ImagePlan(info.images, SplitExt(sp).0, 0)
  {
    var url := info.images[0].url;
    assert ImagePlan(info.images, SplitExt(sp).0, 0)
      == [(url, PreviewName(SplitExt(sp).0, 0, SplitExt(url).1))] + ImagePlan(info.images[1..], SplitExt(sp).0, 1);
  }

  /** Whatever is added after a step that only adds download-step events
      cannot be a metadata write or a metadata callback. */
  lemma FetchesKeepOthers(a: State, b: State, t: seq<(string, Path)>, e: Event)
    requires FetchesAmong(a, b, t)
    requires !IsFetchEvent(e)
    ensures e in b.events <==> e in a.events
  {
    if e in b.events {
      var i :| 0 <= i < |b.events| && b.events[i] == e;
      assert b.events[..|a.events|] == a.events;
      assert b.events[i] == b.events[..|a.events|][i];
    }
    if e in a.events {
      var i :| 0 <= i < |a.events| && a.events[i] == e;
      assert b.events[..|a.events|][i] == b.events[i];
    }
  }

  // ---------------------------------------------------------------------
  // download_model_files
  // ---------------------------------------------------------------------

  /** Steps 2 to 4 of a call with a model path. */
  function AfterMetadata(c: Client, env: Env, st: State, info: ModelInfo, d: Path, sp: Path): (o: Outcome)
    requires info.Object? && sp != ""
  {
    var o2 := FetchDeclared(c, env, st, info.files, d);
    if o2.Failed? then o2
    else
      var o3 := FetchPrimary(c, env, o2.st, info, sp);
      if o3.Failed? then o3 else FetchPreviews(c, env, o3.st, info.images, Some(SplitExt(sp).0), 0)
  }

  /** The steps after the metadata one add download-step events only, every
      request among them is for a declared file or a planned preview, and
      an abort names the request that failed. */
  lemma DownloadStepsRequests(c: Client, env: Env, st: State, info: ModelInfo, d: Path, sp: Path)
    requires info.Object? && sp != ""
    ensures var o := AfterMetadata(c, env, st, info, d, sp);
      && FetchesAmong(st, o.st, DeclaredTargets(info.files, d) + ImagePlan(info.images, SplitExt(sp).0, 0))
      && AbortsAtLastGet(st, o)
  {
    var base := SplitExt(sp).0;
    var targets := DeclaredTargets(info.files, d) + ImagePlan(info.images, base, 0);
    var o2 := FetchDeclared(c, env, st, info.files, d);
    DeclaredRequests(c, env, st, info.files, d);
    FetchesAmongWeaken(st, o2.st, DeclaredTargets(info.files, d), targets);
    if o2.Done? {
      var o3 := FetchPrimary(c, env, o2.st, info, sp);
      var primary := if HasPrimary(info, sp) && !Exists(o2.st.fs, PrimaryPath(info, sp))
                     then [(info.images[0].url, PrimaryPath(info, sp))] else [];
      if primary != [] {
        FetchToEvents(c, env, o2.st, info.images[0].url, PrimaryPath(info, sp), DownloadingPrimary, true);
        PrimaryIsPlanned(info, sp);
      }
      assert FetchesAmong(o2.st, o3.st, primary);
      FetchesAmongTransitive(st, o2.st, o3.st, DeclaredTargets(info.files, d), primary,
                             DeclaredTargets(info.files, d) + primary);
      FetchesAmongWeaken(st, o3.st, DeclaredTargets(info.files, d) + primary, targets);
      if o3.Done? {
        var o4 := FetchPreviews(c, env, o3.st, info.images, Some(base), 0);
        StemNonEmpty(sp);
        PreviewRequests(c, env, o3.st, info.images, base, 0);
        FetchesAmongTransitive(st, o3.st, o4.st, targets, ImagePlan(info.images, base, 0), targets + ImagePlan(info.images, base, 0));
        FetchesAmongWeaken(st, o4.st, targets + ImagePlan(info.images, base, 0), targets);
        assert AbortsAtLastGet(o3.st, o4);
        if o4.Failed? {
          assert |o4.st.events| > |o3.st.events| >= |st.events| by {
            assert Extends(st, o3.st);
          }
        }
      } else {
        assert |o3.st.events| > |o2.st.events|;
      }
    }
  }

  /** Writing the metadata makes no request. */
  lemma MetadataMakesNoRequest(c: Client, env: Env, info: ModelInfo, fs: Fs, sp: Path)
    requires SaveMetadata(c, env, State(fs, []), info, sp).Done?
    ensures var o := SaveMetadata(c, env, State(fs, []), info, sp);
      forall i :: 0 <= i < |o.st.events| ==> !o.st.events[i].Get?
  {
  }

  /** When `st` holds no request, every request in `st'` is one of `targets`. */
  lemma AllGetsAmong(st: State, st': State, targets: seq<(string, Path)>)
    requires FetchesAmong(st, st', targets)
    requires forall i :: 0 <= i < |st.events| ==> !st.events[i].Get?
    ensures forall i :: 0 <= i < |st'.events| && st'.events[i].Get? ==>
      (st'.events[i].url, st'.events[i].dest) in targets
  {
    assert forall i :: 0 <= i < |st.events| ==> st'.events[i] == st'.events[..|st.events|][i];
    forall i | 0 <= i < |st'.events| && st'.events[i].Get?
      ensures (st'.events[i].url, st'.events[i].dest) in targets
    {
      assert i >= |st.events|;
    }
  }

  /** Every request of a call with a model path is for a declared file or for
      a planned preview name; an exception escapes either before anything is
      recorded (the folder or the metadata file is a directory or cannot be
      made) or right after the request it names. */
  lemma RunRequests(c: Client, env: Env, fs: Fs, info: ModelInfo, d: Path, sp: Path)
    requires info.Object? && sp != ""
    ensures var r := DownloadModelFiles(c, env, fs, info, d, sp);
      && (forall i :: 0 <= i < |r.st.events| && r.st.events[i].Get? ==>
            (r.st.events[i].url, r.st.events[i].dest)
              in DeclaredTargets(info.files, d) + ImagePlan(info.images, SplitExt(sp).0, 0))
      && (r.exit.Raised? ==>
            || (r.st.events == [] && (r.exit.failure == OsError(d) || r.exit.failure == OsError(MetadataPath(sp))))
            || (|r.st.events| > 0 && Blames(r.exit.failure, r.st.events[|r.st.events| - 1])))
  {
    if MakeDirs(fs, d).Some? {
      var fs0 := MakeDirs(fs, d).value;
      var o1 := SaveMetadata(c, env, State(fs0, []), info, sp);
      if o1.Done? {
        var targets := DeclaredTargets(info.files, d) + ImagePlan(info.images, SplitExt(sp).0, 0);
        DownloadStepsRequests(c, env, o1.st, info, d, sp);
        RunUnfolds(c, env, fs, info, d, sp);
        MetadataMakesNoRequest(c, env, info, fs0, sp);
        AllGetsAmong(o1.st, AfterMetadata(c, env, o1.st, info, d, sp).st, targets);
      }
    }
  }

  /** The metadata file is written at most once, only when the folder did
      not already hold exactly the serialised record there, and the metadata
      callback fires only together with such a write. */
  lemma MetadataWrittenOnlyOnChange(c: Client, env: Env, fs: Fs, info: ModelInfo, d: Path, sp: Path)
    requires info.Object? && sp != "" && MakeDirs(fs, d).Some?
    ensures var r := DownloadModelFiles(c, env, fs, info, d, sp);
      var fs0 := MakeDirs(fs, d).value;
      var jp := MetadataPath(sp);
      && (MetadataWrite(jp) in r.st.events <==>
            !IsDir(fs0, jp) && View(fs0, jp) != Some(Regular(env.dumps(info))))
      && (forall e :: e in r.st.events && e.MetadataWrite? ==> e == MetadataWrite(jp))
      && (JsonCallback in r.st.events ==> c.hooks.json && MetadataWrite(jp) in r.st.events)
  {
    var fs0 := MakeDirs(fs, d).value;
    var jp := MetadataPath(sp);
    var o1 := SaveMetadata(c, env, State(fs0, []), info, sp);
    MetadataEvents(c, env, info, fs0, sp);
    if o1.Done? {
      var o := AfterMetadata(c, env, o1.st, info, d, sp);
      var targets := DeclaredTargets(info.files, d) + ImagePlan(info.images, SplitExt(sp).0, 0);
      RunUnfolds(c, env, fs, info, d, sp);
      DownloadStepsRequests(c, env, o1.st, info, d, sp);
      FetchesKeepOthers(o1.st, o.st, targets, MetadataWrite(jp));
      FetchesKeepOthers(o1.st, o.st, targets, JsonCallback);
      forall e | e in o.st.events && e.MetadataWrite? ensures e == MetadataWrite(jp) {
        FetchesKeepOthers(o1.st, o.st, targets, e);
      }
    }
  }

  /** The events of the metadata step alone: a write of the metadata path
      exactly when the text there differs, and the callback only with it. */
  lemma MetadataEvents(c: Client, env: Env, info: ModelInfo, fs: Fs, sp: Path)
    ensures var o := SaveMetadata(c, env, State(fs, []), info, sp);
      var jp := MetadataPath(sp);
      && (o.Failed? ==> o.st.events == [])
      && (MetadataWrite(jp) in o.st.events <==>
            !IsDir(fs, jp) && View(fs, jp) != Some(Regular(env.dumps(info))))
      && (forall e :: e in o.st.events && e.MetadataWrite? ==> e == MetadataWrite(jp))
      && (JsonCallback in o.st.events ==> c.hooks.json && MetadataWrite(jp) in o.st.events)
  {
    var o := SaveMetadata(c, env, State(fs, []), info, sp);
    var jp := MetadataPath(sp);
    if o.Done? && View(fs, jp) != Some(Regular(env.dumps(info))) {
      assert o.st.events[0] == MetadataWrite(jp);
    }
  }

  /** Everything a completed call leaves in place. */
  ghost predicate Reconciled(env: Env, fs: Fs, info: ModelInfo, d: Path, sp: Path)
    requires info.Object?
  {
    && d != "" && IsDir(fs, d)
    && View(fs, MetadataPath(sp)) == Some(Regular(env.dumps(info)))
    && (forall j :: 0 <= j < |info.files| && Declared(info.files[j]) ==> Exists(fs, DeclaredDest(d, info.files[j])))
    && (HasPrimary(info, sp) ==> Exists(fs, PrimaryPath(info, sp)))
    && AllExist(fs, ImagePlan(info.images, SplitExt(sp).0, 0))
  }

  /** A call with a model path that returns True leaves the folder reconciled. */
  lemma RunReconciles(c: Client, env: Env, fs: Fs, info: ModelInfo, d: Path, sp: Path)
    requires WellFormed(fs) && info.Object? && sp != ""
    requires DownloadModelFiles(c, env, fs, info, d, sp).exit == Returned(true)
    ensures var r := DownloadModelFiles(c, env, fs, info, d, sp);
      WellFormed(r.st.fs) && Reconciled(env, r.st.fs, info, d, sp)
  {
    var r := DownloadModelFiles(c, env, fs, info, d, sp);
    var jp, base := MetadataPath(sp), SplitExt(sp).0;
    MakeDirsGrows(fs, d);
    var st0 := State(MakeDirs(fs, d).value, []);
    var o1 := SaveMetadata(c, env, st0, info, sp);
    SaveMetadataShape(c, env, st0, info, sp);
    assert IsDir(o1.st.fs, d);
    var o2 := FetchDeclared(c, env, o1.st, info.files, d);
    DeclaredSettles(c, env, o1.st, info.files, d);
    var o3 := FetchPrimary(c, env, o2.st, info, sp);
    if HasPrimary(info, sp) && !Exists(o2.st.fs, PrimaryPath(info, sp)) {
      FetchToSettles(c, env, o2.st, info.images[0].url, PrimaryPath(info, sp), DownloadingPrimary, true);
    }
    var o4 := FetchPreviews(c, env, o3.st, info.images, Some(base), 0);
    assert r.st == o4.st;
    StemNonEmpty(sp);
    PreviewsSettle(c, env, o3.st, info.images, base, 0);
    GrowsTransitive(o1.st.fs, o2.st.fs, o3.st.fs);
    GrowsTransitive(o1.st.fs, o3.st.fs, o4.st.fs);
    GrowsTransitive(o2.st.fs, o3.st.fs, o4.st.fs);
    assert Exists(o1.st.fs, d) && Exists(o1.st.fs, jp);
  }

  /** `splitext` leaves a non-empty stem for a non-empty path. */
  lemma StemNonEmpty(p: Path)
    requires p != ""
    ensures SplitExt(p).0 != ""
  {
    var sep, dot := LastIndex(p, '/'), LastIndex(p, '.');
    if sep < dot && exists k :: sep < k < dot && p[k] != '.' {
      var k :| sep < k < dot && p[k] != '.';
      assert SplitExt(p).0 == p[..dot];
    }
  }

  /** On a reconciled folder a call changes nothing, returns True and only logs. */
  lemma ReconciledRunIsQuiet(c: Client, env: Env, fs: Fs, info: ModelInfo, d: Path, sp: Path)
    requires info.Object? && sp != ""
    requires Reconciled(env, fs, info, d, sp)
    ensures var r := DownloadModelFiles(c, env, fs, info, d, sp);
      && r.exit == Returned(true) && r.st.fs == fs
      && forall i :: 0 <= i < |r.st.events| ==> r.st.events[i].Log?
  {
    var base := SplitExt(sp).0;
    StemNonEmpty(sp);
    assert MakeDirs(fs, d) == Some(fs);
    var st0 := State(fs, []);
    assert SaveMetadata(c, env, st0, info, sp) == Done(st0);
    DeclaredQuiet(c, env, st0, info.files, d);
    var o2 := FetchDeclared(c, env, st0, info.files, d);
    assert FetchPrimary(c, env, o2.st, info, sp) == Done(o2.st);
    PreviewsQuiet(c, env, o2.st, info.images, base, 0);
  }

  /** Calling `download_model_files` a second time with the same record and
      paths on what the first call left changes nothing and only logs. */
  lemma SecondRunChangesNothing(c: Client, env: Env, fs: Fs, info: ModelInfo, d: Path, sp: Path)
    requires WellFormed(fs) && info.Object? && sp != ""
    requires DownloadModelFiles(c, env, fs, info, d, sp).exit == Returned(true)
    ensures var fs1 := DownloadModelFiles(c, env, fs, info, d, sp).st.fs;
      var r := DownloadModelFiles(c, env, fs1, info, d, sp);
      && r.exit == Returned(true) && r.st.fs == fs1
      && forall i :: 0 <= i < |r.st.events| ==> r.st.events[i].Log?
  {
    var fs1 := DownloadModelFiles(c, env, fs, info, d, sp).st.fs;
    RunReconciles(c, env, fs, info, d, sp);
    ReconciledRunIsQuiet(c, env, fs1, info, d, sp);
  }

  /** The metadata name is never a preview name of the same stem. */
  lemma MetadataNotPreview(base: Path, m: nat, ext: string)
    ensures base + ".json" != PreviewName(base, m, ext)
  {
    var b := |base|;
    if m == 0 {
      assert PreviewName(base, m, ext)[b + 1] == 'p';
    } else {
      assert PreviewName(base, m, ext)[b + 1] == NatToString(m)[0];
    }
    assert (base + ".json")[b + 1] == 'j';
  }

  lemma {:induction false} PlanAvoidsMetadata(images: seq<RemoteImage>, base: Path, k: nat)
    ensures forall x :: x in ImagePlan(images, base, k) ==> x.1 != base + ".json"
    decreases |images|
  {
    if |images| > 0 {
      var url := images[0].url;
      if url != "" {
        MetadataNotPreview(base, k, SplitExt(url).1);
        PlanAvoidsMetadata(images[1..], base, k + 1);
        assert ImagePlan(images, base, k)
          == [(url, PreviewName(base, k, SplitExt(url).1))] + ImagePlan(images[1..], base, k + 1);
      } else {
        PlanAvoidsMetadata(images[1..], base, k);
      }
    }
  }

  lemma GetsNone(es: seq<Event>)
    requires forall i :: 0 <= i < |es| ==> !es[i].Get?
    ensures Gets(es) == []
    decreases |es|
  {
    if |es| > 0 {
      GetsNone(es[1..]);
    }
  }

  /** Steps 3 and 4 in a folder holding no planned name: every planned image
      is requested once, the first one by the primary step. */
  lemma FreshImages(c: Client, env: Env, st: State, info: ModelInfo, sp: Path)
    requires info.Object? && sp != ""
    requires NoneIn(st.fs, ImagePlan(info.images, SplitExt(sp).0, 0))
    requires AllAnswer(c, env, info.images)
    ensures var o3 := FetchPrimary(c, env, st, info, sp);
      var o := FetchPreviews(c, env, o3.st, info.images, Some(SplitExt(sp).0), 0);
      && o3.Done? && o.Done? && Extends(st, o.st)
      && Gets(o.st.events[|st.events|..]) == PlanGets(ImagePlan(info.images, SplitExt(sp).0, 0))
  {
    var images, base := info.images, SplitExt(sp).0;
    StemNonEmpty(sp);
    var plan := ImagePlan(images, base, 0);
    var o3 := FetchPrimary(c, env, st, info, sp);
    var o := FetchPreviews(c, env, o3.st, images, Some(base), 0);
    if HasPrimary(info, sp) {
      var url, primary := images[0].url, PrimaryPath(info, sp);
      PrimaryIsPlanned(info, sp);
      var rest := ImagePlan(images[1..], base, 1);
      assert plan == [(url, primary)] + rest;
      FetchToFresh(c, env, st, url, primary, DownloadingPrimary, true);
      FetchToGets(c, env, st, url, primary, DownloadingPrimary, true);
      assert primary == PreviewName(base, 0, SplitExt(url).1);
      assert o == FetchPreviews(c, env, o3.st, images[1..], Some(base), 1);
      PlanAvoids(images[1..], base, 1, 0, SplitExt(url).1);
      AllAnswerTail(c, env, images);
      PreviewsFresh(c, env, o3.st, images[1..], base, 1);
      GetsSplit(st, o3.st, o.st);
      ExtendsTransitive(st, o3.st, o.st);
      assert plan[1..] == rest;
    } else {
      assert o3 == Done(st);
      PreviewsFresh(c, env, st, images, base, 0);
    }
  }

  /** In a folder that holds neither the metadata file nor any planned
      preview name, a call for a record that declares no files, with every
      image answering 200, returns True and requests every planned image
      exactly once, in order: the first through the primary step, the rest
      in the image step, which finds the first one present. */
  lemma FreshFolderFetchesEachImageOnce(c: Client, env: Env, fs: Fs, images: seq<RemoteImage>, rest: string, d: Path, sp: Path)
    requires sp != "" && d != "" && IsDir(fs, d)
    requires MetadataPath(sp) !in fs
    requires NoneIn(fs, ImagePlan(images, SplitExt(sp).0, 0))
    requires AllAnswer(c, env, images)
    ensures var r := DownloadModelFiles(c, env, fs, Object([], images, rest), d, sp);
      r.exit == Returned(true) && Gets(r.st.events) == PlanGets(ImagePlan(images, SplitExt(sp).0, 0))
  {
    var info := Object([], images, rest);
    var base, jp := SplitExt(sp).0, MetadataPath(sp);
    var r := DownloadModelFiles(c, env, fs, info, d, sp);
    assert MakeDirs(fs, d) == Some(fs);
    var st0 := State(fs, []);
    FreshMetadata(c, env, st0, info, sp);
    var o1 := SaveMetadata(c, env, st0, info, sp);
    PlanAvoidsMetadata(images, base, 0);
    assert NoneIn(o1.st.fs, ImagePlan(images, base, 0));
    assert FetchDeclared(c, env, o1.st, [], d) == Done(o1.st);
    FreshImages(c, env, o1.st, info, sp);
    var o := AfterMetadata(c, env, o1.st, info, d, sp);
    RunUnfolds(c, env, fs, info, d, sp);
    GetsSplit(st0, o1.st, o.st);
    assert o.st.events[|st0.events|..] == o.st.events;
  }

  /** Writing the metadata of a record into a folder without it adds the
      file and makes no request. */
  lemma FreshMetadata(c: Client, env: Env, st: State, info: ModelInfo, sp: Path)
    requires MetadataPath(sp) !in st.fs
    ensures var o := SaveMetadata(c, env, st, info, sp);
      && o.Done? && o.st.fs.Keys == st.fs.Keys + {MetadataPath(sp)}
      && Extends(st, o.st) && Gets(o.st.events[|st.events|..]) == []
  {
    var o := SaveMetadata(c, env, st, info, sp);
    var added := [MetadataWrite(MetadataPath(sp))] + When(c.hooks.log, Log(SavedMetadata, MetadataPath(sp)))
                 + When(c.hooks.json, JsonCallback);
    assert o.st.events == st.events + added;
    assert o.st.events[|st.events|..] == added;
    assert o.st.events[..|st.events|] == st.events;
    GetsNone(added);
  }

  /** A call whose folder and metadata steps succeed ends as steps 2 to 4 end. */
  lemma RunUnfolds(c: Client, env: Env, fs: Fs, info: ModelInfo, d: Path, sp: Path)
    requires info.Object? && sp != "" && MakeDirs(fs, d).Some?
    requires SaveMetadata(c, env, State(MakeDirs(fs, d).value, []), info, sp).Done?
    ensures var o := AfterMetadata(c, env, SaveMetadata(c, env, State(MakeDirs(fs, d).value, []), info, sp).st, info, d, sp);
      var r := DownloadModelFiles(c, env, fs, info, d, sp);
      && r.st == o.st && (r.exit == Returned(true) <==> o.Done?)
      && (o.Failed? ==> r.exit == Raised(o.failure))
  {
    var st0 := State(MakeDirs(fs, d).value, []);
    var o1 := SaveMetadata(c, env, st0, info, sp);
    var o2 := FetchDeclared(c, env, o1.st, info.files, d);
    if o2.Done? {
      var o3 := FetchPrimary(c, env, o2.st, info, sp);
      assert PreviewBase(env, o3.st.fs, d, sp) == Some(SplitExt(sp).0);
    }
  }
}

=== FILE: civitai_scan.dfy ===
/** `process_lora_folder`: which files a scan reports and in what order,
    what a scan that matches no record does, and what `recursive` changes. */
module CivitaiScan {
  import opened Wrappers
  import opened Paths
  import opened FileSystem
  import opened Civitai

  lemma {:induction false} ResultPathsAppend(a: seq<(Path, bool)>, b: seq<(Path, bool)>)
    ensures ResultPaths(a + b) == ResultPaths(a) + ResultPaths(b)
  {
    var l, r := ResultPaths(a + b), ResultPaths(a) + ResultPaths(b);
    forall i | 0 <= i < |l| ensures l[i] == r[i] {
      if i < |a| {
        assert (a + b)[i] == a[i];
      } else {
        assert (a + b)[i] == b[i - |a|];
      }
    }
  }

  // ---------------------------------------------------------------------
  // Which files are reported
  // ---------------------------------------------------------------------

  /** One directory: a scan that runs through reports every model file of
      the listing, joined to the directory, in listing order, and nothing else. */
  lemma {:induction false} FilesVisitCandidates(c: Client, env: Env, st: State, root: Path, files: seq<string>)
    ensures var r := ProcessFiles(c, env, st, root, files);
      r.Scanned? ==> ResultPaths(r.results) == CandidatesIn(root, files)
    decreases |files|
  {
    if |files| > 0 {
      var r := ProcessFiles(c, env, st, root, files);
      var h := ProcessFile(c, env, st, root, files[0]);
      if h.Scanned? {
        var t := ProcessFiles(c, env, h.st, root, files[1..]);
        FilesVisitCandidates(c, env, h.st, root, files[1..]);
        if t.Scanned? {
          assert r.results == h.results + t.results;
          ResultPathsAppend(h.results, t.results);
          assert ResultPaths(h.results) == (if IsSafetensors(files[0]) then [Join(root, files[0])] else []);
        }
      }
    }
  }

  /** The whole walk: a scan that runs through reports the model files of every
      directory in walk order, or of the top directory only without `recursive`. */
  lemma {:induction false} WalkVisitsCandidates(c: Client, env: Env, st: State, walk: seq<WalkDir>, recursive: bool)
    ensures var r := ProcessWalk(c, env, st, walk, recursive);
      r.Scanned? ==> ResultPaths(r.results) == Candidates(walk, recursive)
    decreases |walk|
  {
    if |walk| > 0 {
      var r := ProcessWalk(c, env, st, walk, recursive);
      var h := ProcessFiles(c, env, st, walk[0].root, walk[0].files);
      FilesVisitCandidates(c, env, st, walk[0].root, walk[0].files);
      if h.Scanned? && recursive {
        var t := ProcessWalk(c, env, h.st, walk[1..], recursive);
        WalkVisitsCandidates(c, env, h.st, walk[1..], recursive);
        if t.Scanned? {
          assert r.results == h.results + t.results;
          ResultPathsAppend(h.results, t.results);
        }
      } else if h.Scanned? {
        assert Candidates(walk, recursive) == CandidatesIn(walk[0].root, walk[0].files) + [];
      }
    }
  }

  /** `process_lora_folder` returns one entry per model file it meets, in walk order. */
  lemma ScanReportsCandidates(c: Client, env: Env, fs: Fs, walk: seq<WalkDir>, recursive: bool)
    ensures var r := ProcessLoraFolder(c, env, fs, walk, recursive);
      r.Scanned? ==> ResultPaths(r.results) == Candidates(walk, recursive)
  {
    WalkVisitsCandidates(c, env, State(fs, []), walk, recursive);
  }

  /** Without `recursive` only the first directory `os.walk` yields is scanned. */
  lemma NonRecursiveScansTopOnly(c: Client, env: Env, fs: Fs, walk: seq<WalkDir>)
    requires |walk| > 0
    ensures ProcessLoraFolder(c, env, fs, walk, false) == ProcessLoraFolder(c, env, fs, [walk[0]], true)
  {
    var st := State(fs, []);
    var h := ProcessFiles(c, env, st, walk[0].root, walk[0].files);
    assert [walk[0]][0] == walk[0] && [walk[0]][1..] == [];
    if h.Scanned? {
      assert ProcessWalk(c, env, h.st, [walk[0]][1..], true) == Scanned(h.st, []);
      assert h.results + [] == h.results;
    }
  }

  // ---------------------------------------------------------------------
  // A scan that matches nothing
  // ---------------------------------------------------------------------

  /** The service knows none of the hashes it may be asked about. */
  ghost predicate NoRecords(c: Client, env: Env)
  {
    forall h :: !GetModelInfoByHash(c, env, h).Object?
  }

  /** `st'` continues `st` with lookups only and the same filesystem. */
  ghost predicate OnlyLookups(st: State, st': State)
  {
    && st'.fs == st.fs
    && Extends(st, st')
    && forall i :: |st.events| <= i < |st'.events| ==> st'.events[i].Query?
  }

  lemma OnlyLookupsTransitive(a: State, b: State, c: State)
    requires OnlyLookups(a, b) && OnlyLookups(b, c)
    ensures OnlyLookups(a, c)
  {
    assert c.events[..|a.events|] == c.events[..|b.events|][..|a.events|];
    forall i | |a.events| <= i < |c.events| ensures c.events[i].Query? {
      if i < |b.events| {
        assert c.events[i] == c.events[..|b.events|][i];
      }
    }
  }

  /** Everything a scan that matches no record reports is False. */
  predicate AllUnmatched(results: seq<(Path, bool)>)
  {
    forall i :: 0 <= i < |results| ==> !results[i].1
  }

  /** One listed file when no record matches: at most a lookup, a False entry,
      and a failure only for a model file that cannot be read. */
  lemma UnmatchedFile(c: Client, env: Env, st: State, root: Path, file: string)
    requires NoRecords(c, env)
    ensures var r := ProcessFile(c, env, st, root, file);
      && OnlyLookups(st, r.st)
      && (r.Scanned? ==> AllUnmatched(r.results))
      && (r.Stopped? ==> r.failure == OsError(Join(root, file)))
  {
    var r := ProcessFile(c, env, st, root, file);
    var path := Join(root, file);
    if IsSafetensors(file) && IsFile(st.fs, path) {
      var hash := env.sha256(View(st.fs, path).value.content);
      assert !GetModelInfoByHash(c, env, hash).Object?;
      var st1 := State(st.fs, st.events + [Query(LookupUrl(hash))]);
      assert r == Scanned(st1, [(path, false)]);
      assert st1.events[..|st.events|] == st.events;
    }
  }

  lemma {:induction false} UnmatchedFiles(c: Client, env: Env, st: State, root: Path, files: seq<string>)
    requires NoRecords(c, env)
    ensures var r := ProcessFiles(c, env, st, root, files);
      && OnlyLookups(st, r.st)
      && (r.Scanned? ==> AllUnmatched(r.results))
      && (r.Stopped? ==> r.failure.OsError?)
    decreases |files|
  {
    if |files| > 0 {
      var r := ProcessFiles(c, env, st, root, files);
      var h := ProcessFile(c, env, st, root, files[0]);
      UnmatchedFile(c, env, st, root, files[0]);
      if h.Scanned? {
        var t := ProcessFiles(c, env, h.st, root, files[1..]);
        UnmatchedFiles(c, env, h.st, root, files[1..]);
        OnlyLookupsTransitive(st, h.st, t.st);
        if t.Scanned? {
          assert r.results == h.results + t.results;
          assert r.st == t.st;
        } else {
          assert r == Stopped(t.st, t.failure);
        }
      }
    } else {
      assert ProcessFiles(c, env, st, root, files) == Scanned(st, []);
    }
  }

  lemma {:induction false} UnmatchedWalk(c: Client, env: Env, st: State, walk: seq<WalkDir>, recursive: bool)
    requires NoRecords(c, env)
    ensures var r := ProcessWalk(c, env, st, walk, recursive);
      && OnlyLookups(st, r.st)
      && (r.Scanned? ==> AllUnmatched(r.results))
      && (r.Stopped? ==> r.failure.OsError?)
    decreases |walk|
  {
    if |walk| > 0 {
      var r := ProcessWalk(c, env, st, walk, recursive);
      var h := ProcessFiles(c, env, st, walk[0].root, walk[0].files);
      UnmatchedFiles(c, env, st, walk[0].root, walk[0].files);
      if h.Scanned? && recursive {
        var t := ProcessWalk(c, env, h.st, walk[1..], recursive);
        UnmatchedWalk(c, env, h.st, walk[1..], recursive);
        OnlyLookupsTransitive(st, h.st, t.st);
        if t.Scanned? {
          assert r.results == h.results + t.results;
          assert r.st == t.st;
        } else {
          assert r == Stopped(t.st, t.failure);
        }
      }
    } else {
      assert ProcessWalk(c, env, st, walk, recursive) == Scanned(st, []);
    }
  }

  /** When the service knows none of the hashes, a scan writes nothing, only
      looks hashes up, reports every model file with False, and can only be
      stopped by a model file it cannot read. */
  lemma UnmatchedScanChangesNothing(c: Client, env: Env, fs: Fs, walk: seq<WalkDir>, recursive: bool)
    requires NoRecords(c, env)
    ensures var r := ProcessLoraFolder(c, env, fs, walk, recursive);
      && r.st.fs == fs
      && (forall i :: 0 <= i < |r.st.events| ==> r.st.events[i].Query?)
      && (r.Scanned? ==> forall i :: 0 <= i < |r.results| ==> !r.results[i].1)
      && (r.Stopped? ==> r.failure.OsError?)
  {
    UnmatchedWalk(c, env, State(fs, []), walk, recursive);
  }

  // ---------------------------------------------------------------------
  // Where a scan stops
  // ---------------------------------------------------------------------

  lemma PrependPrepend(a: seq<(Path, bool)>, b: seq<(Path, bool)>, rest: Scan)
    ensures Prepend(a, Prepend(b, rest)) == Prepend(a + b, rest)
  {
    if rest.Scanned? {
      assert a + (b + rest.results) == (a + b) + rest.results;
    }
  }

  /** Scanning a listing is scanning its first `k` names and, unless that
      stopped, the remaining names from the state it left. */
  lemma {:induction false} ProcessFilesSplit(c: Client, env: Env, st: State, root: Path, files: seq<string>, k: nat)
    requires k <= |files|
    ensures var pre := ProcessFiles(c, env, st, root, files[..k]);
      ProcessFiles(c, env, st, root, files)
        == if pre.Stopped? then pre else Prepend(pre.results, ProcessFiles(c, env, pre.st, root, files[k..]))
    decreases k
  {
    if k == 0 {
      assert files[..0] == [] && files[0..] == files;
      var r := ProcessFiles(c, env, st, root, files);
      if r.Scanned? {
        assert [] + r.results == r.results;
      }
    } else {
      var h := ProcessFile(c, env, st, root, files[0]);
      assert files[..k][0] == files[0];
      if h.Scanned? {
        ProcessFilesSplit(c, env, h.st, root, files[1..], k - 1);
        assert files[..k][1..] == files[1..][..k - 1];
        assert files[1..][k - 1..] == files[k..];
        var pre := ProcessFiles(c, env, h.st, root, files[1..][..k - 1]);
        if pre.Scanned? {
          PrependPrepend(h.results, pre.results, ProcessFiles(c, env, pre.st, root, files[k..]));
        }
      }
    }
  }

  /** The scan of a listing stops at its `k`-th name: the names before it ran
      through, and the step for that name raised, giving `r`. */
  ghost predicate FilesStopAt(c: Client, env: Env, st: State, root: Path, files: seq<string>, k: int, r: Scan)
  {
    && 0 <= k < |files|
    && var pre := ProcessFiles(c, env, st, root, files[..k]);
    && pre.Scanned?
    && ProcessFile(c, env, pre.st, root, files[k]) == r
    && r.Stopped?
  }

  /** The first name whose step raises ends the scan of its listing with that
      step's own state and exception: no later file is hashed or looked up. */
  lemma FirstStopEndsFiles(c: Client, env: Env, st: State, root: Path, files: seq<string>, k: nat)
    requires k < |files|
    requires ProcessFiles(c, env, st, root, files[..k]).Scanned?
    requires ProcessFile(c, env, ProcessFiles(c, env, st, root, files[..k]).st, root, files[k]).Stopped?
    ensures ProcessFiles(c, env, st, root, files)
      == ProcessFile(c, env, ProcessFiles(c, env, st, root, files[..k]).st, root, files[k])
    ensures FilesStopAt(c, env, st, root, files, k, ProcessFiles(c, env, st, root, files))
  {
    ProcessFilesSplit(c, env, st, root, files, k);
    assert files[k..][0] == files[k];
  }

  /** A listing's scan stops exactly when some name's step raised after
      every earlier name ran through, and then it is that step's result. */
  lemma {:induction false} StoppedFilesHasFirst(c: Client, env: Env, st: State, root: Path, files: seq<string>)
    ensures var r := ProcessFiles(c, env, st, root, files);
      r.Stopped? <==> exists k :: FilesStopAt(c, env, st, root, files, k, r)
    decreases |files|
  {
    var r := ProcessFiles(c, env, st, root, files);
    if r.Stopped? {
      var h := ProcessFile(c, env, st, root, files[0]);
      if h.Stopped? {
        assert files[..0] == [];
        assert FilesStopAt(c, env, st, root, files, 0, r);
      } else {
        var t := ProcessFiles(c, env, h.st, root, files[1..]);
        StoppedFilesHasFirst(c, env, h.st, root, files[1..]);
        var k :| FilesStopAt(c, env, h.st, root, files[1..], k, t);
        assert files[..k + 1][0] == files[0];
        assert files[..k + 1][1..] == files[1..][..k];
        assert files[k + 1] == files[1..][k];
        assert FilesStopAt(c, env, st, root, files, k + 1, r);
      }
    }
  }

  /** Scanning a recursive walk is scanning its first `d` directories and,
      unless that stopped, the remaining ones from the state it left. */
  lemma {:induction false} ProcessWalkSplit(c: Client, env: Env, st: State, walk: seq<WalkDir>, d: nat)
    requires d <= |walk|
    ensures var pre := ProcessWalk(c, env, st, walk[..d], true);
      ProcessWalk(c, env, st, walk, true)
        == if pre.Stopped? then pre else Prepend(pre.results, ProcessWalk(c, env, pre.st, walk[d..], true))
    decreases d
  {
    if d == 0 {
      assert walk[..0] == [] && walk[0..] == walk;
      var r := ProcessWalk(c, env, st, walk, true);
      if r.Scanned? {
        assert [] + r.results == r.results;
      }
    } else {
      var h := ProcessFiles(c, env, st, walk[0].root, walk[0].files);
      assert walk[..d][0] == walk[0];
      if h.Scanned? {
        ProcessWalkSplit(c, env, h.st, walk[1..], d - 1);
        assert walk[..d][1..] == walk[1..][..d - 1];
        assert walk[1..][d - 1..] == walk[d..];
        var pre := ProcessWalk(c, env, h.st, walk[1..][..d - 1], true);
        if pre.Scanned? {
          PrependPrepend(h.results, pre.results, ProcessWalk(c, env, pre.st, walk[d..], true));
        }
      }
    }
  }

  /** A recursive walk's scan stops in its `d`-th directory: the directories
      before it ran through, and the scan of that directory stopped, giving `r`. */
  ghost predicate WalkStopsAt(c: Client, env: Env, st: State, walk: seq<WalkDir>, d: int, r: Scan)
  {
    && 0 <= d < |walk|
    && var pre := ProcessWalk(c, env, st, walk[..d], true);
    && pre.Scanned?
    && ProcessFiles(c, env, pre.st, walk[d].root, walk[d].files) == r
    && r.Stopped?
  }

  /** The first directory whose scan stops ends a recursive walk's scan with
      that directory's state and exception: no later directory is visited. */
  lemma FirstStopEndsWalk(c: Client, env: Env, st: State, walk: seq<WalkDir>, d: nat)
    requires d < |walk|
    requires ProcessWalk(c, env, st, walk[..d], true).Scanned?
    requires ProcessFiles(c, env, ProcessWalk(c, env, st, walk[..d], true).st, walk[d].root, walk[d].files).Stopped?
    ensures ProcessWalk(c, env, st, walk, true)
      == ProcessFiles(c, env, ProcessWalk(c, env, st, walk[..d], true).st, walk[d].root, walk[d].files)
    ensures WalkStopsAt(c, env, st, walk, d, ProcessWalk(c, env, st, walk, true))
  {
    ProcessWalkSplit(c, env, st, walk, d);
    assert walk[d..][0] == walk[d];
  }

  /** A recursive walk's scan stops exactly when some directory's scan stopped
      after every earlier directory ran through, and then it is that result. */
  lemma {:induction false} StoppedWalkHasFirst(c: Client, env: Env, st: State, walk: seq<WalkDir>)
    ensures var r := ProcessWalk(c, env, st, walk, true);
      r.Stopped? <==> exists d :: WalkStopsAt(c, env, st, walk, d, r)
    decreases |walk|
  {
    var r := ProcessWalk(c, env, st, walk, true);
    if r.Stopped? {
      var h := ProcessFiles(c, env, st, walk[0].root, walk[0].files);
      if h.Stopped? {
        assert walk[..0] == [];
        assert WalkStopsAt(c, env, st, walk, 0, r);
      } else {
        var t := ProcessWalk(c, env, h.st, walk[1..], true);
        StoppedWalkHasFirst(c, env, h.st, walk[1..]);
        var d :| WalkStopsAt(c, env, h.st, walk[1..], d, t);
        assert walk[..d + 1][0] == walk[0];
        assert walk[..d + 1][1..] == walk[1..][..d];
        assert walk[d + 1] == walk[1..][d];
        assert WalkStopsAt(c, env, st, walk, d + 1, r);
      }
    }
  }

  /** The scan of a folder stops at model file `k` of directory `d`: every
      earlier directory and every earlier name of `d` ran through, and the
      step for that name raised, giving `r`. Without `recursive` only the
      top directory is scanned, so `d` is 0. */
  ghost predicate ScanStopsAt(c: Client, env: Env, fs: Fs, walk: seq<WalkDir>, recursive: bool, d: int, k: int, r: Scan)
  {
    && 0 <= d < |walk|
    && (recursive || d == 0)
    && var pre := ProcessWalk(c, env, State(fs, []), walk[..d], true);
    && pre.Scanned?
    && FilesStopAt(c, env, pre.st, walk[d].root, walk[d].files, k, r)
  }

  /** `process_lora_folder` stops exactly when the step for one model file
      raised, and then its result is that step's own: the state holds what the
      scan did up to and including that file and nothing after it, and the
      exception is the one that step raised. */
  lemma ScanStopsAtFirstFailure(c: Client, env: Env, fs: Fs, walk: seq<WalkDir>, recursive: bool)
    ensures var r := ProcessLoraFolder(c, env, fs, walk, recursive);
      r.Stopped? <==> exists d, k :: ScanStopsAt(c, env, fs, walk, recursive, d, k, r)
  {
    var st := State(fs, []);
    var r := ProcessLoraFolder(c, env, fs, walk, recursive);
    if r.Stopped? {
      var d;
      if recursive {
        StoppedWalkHasFirst(c, env, st, walk);
        d :| WalkStopsAt(c, env, st, walk, d, r);
      } else {
        d := 0;
        assert walk[..0] == [];
      }
      var pre := ProcessWalk(c, env, st, walk[..d], true);
      StoppedFilesHasFirst(c, env, pre.st, walk[d].root, walk[d].files);
      var k :| FilesStopAt(c, env, pre.st, walk[d].root, walk[d].files, k, r);
      assert ScanStopsAt(c, env, fs, walk, recursive, d, k, r);
    }
  }

  /** The other direction, as an ending: once every earlier file ran through,
      the first model file whose step raises ends the whole scan with that
      step's result. */
  lemma FirstStopEndsScan(c: Client, env: Env, fs: Fs, walk: seq<WalkDir>, recursive: bool, d: nat, k: nat)
    requires d < |walk| && (recursive || d == 0)
    requires ProcessWalk(c, env, State(fs, []), walk[..d], true).Scanned?
    requires var pre := ProcessWalk(c, env, State(fs, []), walk[..d], true);
      && k < |walk[d].files|
      && ProcessFiles(c, env, pre.st, walk[d].root, walk[d].files[..k]).Scanned?
      && ProcessFile(c, env, ProcessFiles(c, env, pre.st, walk[d].root, walk[d].files[..k]).st, walk[d].root, walk[d].files[k]).Stopped?
    ensures var pre := ProcessWalk(c, env, State(fs, []), walk[..d], true);
      var mid := ProcessFiles(c, env, pre.st, walk[d].root, walk[d].files[..k]);
      ProcessLoraFolder(c, env, fs, walk, recursive) == ProcessFile(c, env, mid.st, walk[d].root, walk[d].files[k])
  {
    var st := State(fs, []);
    var pre := ProcessWalk(c, env, st, walk[..d], true);
    FirstStopEndsFiles(c, env, pre.st, walk[d].root, walk[d].files, k);
    if recursive {
      FirstStopEndsWalk(c, env, st, walk, d);
    } else {
      assert walk[..0] == [];
    }
  }
}

=== FILE: filesystem.dfy ===
/** An abstract filesystem: a map from path to entry. A symbolic link is
    followed one step, the way `os.path.exists`, `os.path.isfile` and `open`
    see it; a link that lands on nothing is dangling. */
module FileSystem {
  import opened Wrappers
  import opened Paths

  datatype Entry = Regular(content: string) | Directory | Link(target: Path)

  type Fs = map<Path, Entry>

  /** Where an access to `p` lands: the link target for a link, `p` itself otherwise. */
  function Resolve(fs: Fs, p: Path): Path
  {
    if p in fs && fs[p].Link? then fs[p].target else p
  }

  /** One step of `os.walk`: a directory and the names of the files it lists. */
  datatype WalkDir = WalkDir(root: Path, files: seq<string>)

  /** What `os.stat(p)` sees, if anything. */
  function View(fs: Fs, p: Path): (r: Option<Entry>)
    ensures r.Some? ==> !r.value.Link?
  {
    var q := Resolve(fs, p);
    if q in fs && !fs[q].Link? then Some(fs[q]) else None
  }

  /** `os.path.exists` */
  predicate Exists(fs: Fs, p: Path)
  {
    View(fs, p).Some?
  }

  /** `os.path.isfile` */
  predicate IsFile(fs: Fs, p: Path)
  {
    View(fs, p).Some? && View(fs, p).value.Regular?
  }

  /** `os.path.isdir` */
  predicate IsDir(fs: Fs, p: Path)
  {
    View(fs, p).Some? && View(fs, p).value.Directory?
  }

  /** `os.path.islink`: true for dangling links too. */
  predicate IsLink(fs: Fs, p: Path)
  {
    p in fs && fs[p].Link?
  }

  /** Links are followed one step only, so the model is used on filesystems
      where no link points at another link. */
  ghost predicate WellFormed(fs: Fs)
  {
    forall p :: p in fs && fs[p].Link? ==> !IsLink(fs, fs[p].target)
  }

  /** `open(p, "w").write(data)`: fails on a directory, writes through a link. */
  function Write(fs: Fs, p: Path, data: string): (r: Option<Fs>)
    ensures r.None? <==> IsDir(fs, p)
    ensures r.Some? ==> View(r.value, p) == Some(Regular(data))
    ensures r.Some? ==> r.value.Keys == fs.Keys + {Resolve(fs, p)}
    ensures r.Some? ==> forall q :: q in fs && q != Resolve(fs, p) ==> r.value[q] == fs[q]
  {
    if IsDir(fs, p) then None else Some(fs[Resolve(fs, p) := Regular(data)])
  }

  /** `os.makedirs(d, exist_ok=True)`, creating the last component only: an
      empty name or an existing non-directory entry (a dangling link included)
      raises. */
  function MakeDirs(fs: Fs, d: Path): (r: Option<Fs>)
    ensures r.Some? <==> d != "" && (IsDir(fs, d) || d !in fs)
    ensures r.Some? ==> IsDir(r.value, d)
    ensures r.Some? && IsDir(fs, d) ==> r.value == fs
  {
    if d == "" then None
    else if IsDir(fs, d) then Some(fs)
    else if d in fs then None
    else Some(fs[d := Directory])
  }

  /** Every path that existed still exists and sees the same entry. */
  ghost predicate Grows(fs: Fs, fs': Fs)
  {
    forall p :: Exists(fs, p) ==> View(fs', p) == View(fs, p)
  }

  lemma GrowsTransitive(a: Fs, b: Fs, c: Fs)
    requires Grows(a, b) && Grows(b, c)
    ensures Grows(a, c)
  {
  }

  /** Writing to a path that does not exist disturbs nothing that does. */
  lemma WriteFreshGrows(fs: Fs, p: Path, data: string)
    requires WellFormed(fs)
    requires !Exists(fs, p)
    ensures Write(fs, p, data).Some?
    ensures Grows(fs, Write(fs, p, data).value)
    ensures WellFormed(Write(fs, p, data).value)
    ensures Exists(Write(fs, p, data).value, p)
  {
    var t := Resolve(fs, p);
    assert t !in fs by {
      if p in fs && fs[p].Link? {
        assert !IsLink(fs, t);
      }
    }
    var fs' := Write(fs, p, data).value;
    forall q | Exists(fs, q) ensures View(fs', q) == View(fs, q) {
      assert Resolve(fs, q) in fs;
    }
  }

  /** Creating a missing directory disturbs nothing that exists. */
  lemma MakeDirsGrows(fs: Fs, d: Path)
    requires WellFormed(fs)
    requires MakeDirs(fs, d).Some?
    ensures Grows(fs, MakeDirs(fs, d).value)
    ensures WellFormed(MakeDirs(fs, d).value)
  {
    var fs' := MakeDirs(fs, d).value;
    forall q | Exists(fs, q) ensures View(fs', q) == View(fs, q) {
      assert Resolve(fs, q) in fs;
    }
  }

  /** A successful write keeps the filesystem well formed and leaves every
      directory where it was. */
  lemma WriteKeepsShape(fs: Fs, p: Path, data: string)
    requires WellFormed(fs)
    requires Write(fs, p, data).Some?
    ensures WellFormed(Write(fs, p, data).value)
    ensures forall q :: IsDir(fs, q) ==> View(Write(fs, p, data).value, q) == View(fs, q)
  {
    var fs' := Write(fs, p, data).value;
    var t := Resolve(fs, p);
    assert !IsLink(fs, t) by {
      if p in fs && fs[p].Link? {
        assert !IsLink(fs, fs[p].target);
      }
    }
    forall q | IsDir(fs, q) ensures View(fs', q) == View(fs, q) {
      assert Resolve(fs, q) != t;
    }
  }
}

=== FILE: lora_manager.dfy ===
/** The rules behind the LoRA manager window (lora_manager.py): which files
    belong to a LoRA, copying a selection into the output folder and removing
    it again, grouping the output folder into cards, preview and config
    lookup, the search index and its filter, the selection, zoom and the
    thumbnail grid. Widgets, styles and settings are not modelled; each
    handler is reduced to what it does to the filesystem, the selection and
    the cards it lays out. */
module LoraManager {
  import opened Wrappers
  import opened Seqs
  import opened Paths
  import opened FileSystem

  const ImageExts: seq<string> := [".png", ".jpg", ".jpeg"]
  const ConfigExts: seq<string> := [".yaml", ".yml", ".json"]

  /** The extra width each thumbnail takes beside the image itself. */
  const CardPadding := 24

  const ZoomStep := 50
  const ZoomMin := 100
  const ZoomMax := 500

  predicate IsImage(file: string)
  {
    EndsWithAny(Lower(file), ImageExts)
  }

  predicate IsConfig(file: string)
  {
    EndsWithAny(Lower(file), ConfigExts)
  }

  /** `splitext(basename(lora_path))[0]`: the name a LoRA's files share. */
  function LoraName(loraPath: Path): string
  {
    SplitExt(Basename(loraPath)).0
  }

  /** The test `apply_selection` and `remove_lora` share: a file is part of the
      LoRA `name` when its base is the name, or when it starts with
      `<name>.preview` (case-sensitive, and a prefix test only). */
  predicate Belongs(name: string, file: string)
  {
    SplitExt(file).0 == name || StartsWith(file, name + ".preview")
  }

  /** What a button handler leaves behind: the filesystem, the selection, and
      whether an exception escaped the handler. */
  datatype After = After(fs: Fs, selection: set<Path>, raised: bool)

  // ---------------------------------------------------------------------
  // remove_lora, remove_selected_or_all_loras
  // ---------------------------------------------------------------------

  /** What `os.remove` can delete: a file or a link, dangling or not. */
  predicate Removable(fs: Fs, p: Path)
  {
    p in fs && !fs[p].Directory?
  }

  /** `os.remove(p)` inside `try … except OSError`: a directory or a missing
      name raises, the error is printed, and nothing changes. */
  function Remove(fs: Fs, p: Path): Fs
  {
    if Removable(fs, p) then fs - {p} else fs
  }

  /** Remove `out/f` for each listed name `f` in turn. */
  function RemoveNames(fs: Fs, out: Path, names: seq<string>): Fs
    decreases |names|
  {
    if |names| == 0 then fs else RemoveNames(Remove(fs, Join(out, names[0])), out, names[1..])
  }

  /** The paths `out/f` for the listed names. */
  function Targets(out: Path, names: seq<string>): set<Path>
  {
    set f | f in names :: Join(out, f)
  }

  /** `remove_lora(lora_path)`, given the listing of the output folder. */
  function RemoveLora(fs: Fs, out: Path, loraPath: Path, listing: seq<string>): Fs
  {
    RemoveNames(fs, out, Filter(listing, f => Belongs(LoraName(loraPath), f)))
  }

  /** The selected branch: `remove_lora` for each selected LoRA in turn. */
  function RemoveEach(fs: Fs, out: Path, selected: seq<Path>, listing: seq<string>): Fs
    decreases |selected|
  {
    if |selected| == 0 then fs
    else RemoveEach(RemoveLora(fs, out, selected[0], listing), out, selected[1..], listing)
  }

  /** `remove_selected_or_all_loras`: with a selection (`selected` is the list
      the set is turned into) remove each selected LoRA's files, otherwise
      remove every listed file of the output folder; either way the
      selection ends up empty. Listing a missing output folder raises before
      anything is removed. Each `remove_lora` lists the folder again; one
      listing taken at the start is used here, which removes the same files
      (see `LoraManagerProofs.RemoveLoraListing`). */
  function RemoveSelectedOrAll(fs: Fs, out: Path, selected: seq<Path>, listing: seq<string>): (r: After)
    ensures r.raised <==> !IsDir(fs, out)
    ensures !r.raised ==> r.selection == {}
    ensures r.raised ==> r.fs == fs
  {
    if !IsDir(fs, out) then After(fs, set p | p in selected, true)
    else if |selected| > 0 then After(RemoveEach(fs, out, selected, listing), {}, false)
    else After(RemoveNames(fs, out, listing), {}, false)
  }

  // ---------------------------------------------------------------------
  // apply_selection
  // ---------------------------------------------------------------------

  /** `os.makedirs(dirname(target), exist_ok=True)` then `shutil.copy2(src,
      target)`, both inside one `try`: a failure of either leaves what was
      done before it. `copy2` reads the source through a link and writes
      through a link at the target. */
  function CopyInto(fs: Fs, src: Path, target: Path): Fs
  {
    match MakeDirs(fs, Dirname(target))
    case None => fs
    case Some(fs1) =>
      match View(fs1, src)
      case Some(Regular(data)) => Write(fs1, target, data).GetOr(fs1)
      case _ => fs1
  }

  /** The body of the inner loop for one listed file `file` of the folder
      `dir` of the LoRA `name`: a non-file or a file of another LoRA is
      passed over; an existing target that is not a link is left alone with
      a warning; a target that is a link is unlinked first; a source that has
      gone missing by then is skipped; otherwise the file is copied. */
  function ApplyFile(fs: Fs, out: Path, dir: Path, name: string, file: string): Fs
  {
    var src, target := Join(dir, file), Join(out, file);
    if !IsFile(fs, src) || !Belongs(name, file) then fs
    else if Exists(fs, target) && !IsLink(fs, target) then fs
    else
      var fs1 := if Exists(fs, target) then fs - {target} else fs;
      if !Exists(fs1, src) then fs1 else CopyInto(fs1, src, target)
  }

  /** The inner loop over a listing of the LoRA's folder. */
  function ApplyFiles(fs: Fs, out: Path, dir: Path, name: string, listing: seq<string>): Fs
    decreases |listing|
  {
    if |listing| == 0 then fs
    else ApplyFiles(ApplyFile(fs, out, dir, name, listing[0]), out, dir, name, listing[1..])
  }

  /** The outer loop: each selected LoRA's folder is listed (`ls`, on the
      filesystem as it is then) and its files applied; listing a folder that
      is not a directory raises and ends the loop. The flag says whether it
      ran to the end. */
  function ApplyEach(fs: Fs, out: Path, selected: seq<Path>, ls: (Fs, Path) -> seq<string>): (r: (Fs, bool))
    decreases |selected|
  {
    if |selected| == 0 then (fs, true)
    else
      var dir := Dirname(selected[0]);
      if !IsDir(fs, dir) then (fs, false)
      else ApplyEach(ApplyFiles(fs, out, dir, LoraName(selected[0]), ls(fs, dir)), out, selected[1..], ls)
  }

  /** `apply_selection`: copies every selected LoRA's files into the output
      folder, then `refresh_selected_list()`, the clearing of the selection,
      and `load_loras()`. The refresh lists an output path that exists, so it
      raises, before the clearing, when that path is not a folder; the
      `os.makedirs` of `load_loras` comes after the clearing. An exception
      that escapes before the clearing leaves the selection as it was. */
  function ApplySelection(fs: Fs, out: Path, selected: seq<Path>, ls: (Fs, Path) -> seq<string>): (r: After)
    ensures var a := ApplyEach(fs, out, selected, ls);
      && (r.raised <==> !a.1 || MakeDirs(a.0, out).None?)
      && (!a.1 || (Exists(a.0, out) && !IsDir(a.0, out)) ==> r.selection == set p | p in selected)
      && (a.1 && !(Exists(a.0, out) && !IsDir(a.0, out)) ==> r.selection == {})
      && (r.raised ==> r.fs == a.0)
      && (!r.raised ==> IsDir(r.fs, out) && (IsDir(a.0, out) ==> r.fs == a.0))
  {
    var (fs', ok) := ApplyEach(fs, out, selected, ls);
    if !ok || (Exists(fs', out) && !IsDir(fs', out)) then After(fs', set p | p in selected, true)
    else
      match MakeDirs(fs', out)
      case None => After(fs', {}, true)
      case Some(fs'') => After(fs'', {}, false)
  }

  // ---------------------------------------------------------------------
  // refresh_selected_list
  // ---------------------------------------------------------------------

  /** One entry of `lora_files`: a model file and the preview and config
      attached to it. */
  datatype Group = Group(name: string, model: Path, preview: Option<Path>, config: Option<Path>)

  /** Which branch of the `if/elif` chain a listed file takes. */
  datatype Kind = ModelFile | ImageFile | ConfigFile | OtherFile

  function KindOf(file: string): Kind
  {
    if IsSafetensors(file) then ModelFile
    else if IsImage(file) then ImageFile
    else if IsConfig(file) then ConfigFile
    else OtherFile
  }

  /** The group an image is filed under: its base with every `.preview` deleted. */
  function ImageKey(file: string): string
  {
    RemoveAll(SplitExt(file).0, ".preview")
  }

  /** The group name a listed file is filed under, by its kind. */
  function KeyOf(file: string): string
  {
    if KindOf(file) == ImageFile then ImageKey(file) else SplitExt(file).0
  }

  function GroupIndex(groups: seq<Group>, name: string): Option<nat>
  {
    FirstIndex(groups, (g: Group) => g.name == name)
  }

  /** One pass of the grouping loop: a model file opens a group unless its
      name has one; an image or a config file is attached to an existing
      group, replacing an earlier one, and is dropped when there is none. */
  function AddFile(groups: seq<Group>, out: Path, file: string): seq<Group>
  {
    var path, key := Join(out, file), KeyOf(file);
    match (KindOf(file), GroupIndex(groups, key))
    case (ModelFile, None) => groups + [Group(key, path, None, None)]
    case (ImageFile, Some(i)) => groups[i := groups[i].(preview := Some(path))]
    case (ConfigFile, Some(i)) => groups[i := groups[i].(config := Some(path))]
    case _ => groups
  }

  /** The grouping loop over the listing of the output folder, in listing
      order (a dict keeps its first-insertion order). */
  function GroupFiles(out: Path, listing: seq<string>): seq<Group>
    decreases |listing|
  {
    if |listing| == 0 then [] else AddFile(GroupFiles(out, listing[..|listing| - 1]), out, listing[|listing| - 1])
  }

  /** `join(dir, stem + ext)` for each image extension, in order. */
  function WithImageExts(dir: Path, stem: string): (r: seq<Path>)
    ensures |r| == |ImageExts|
  {
    seq(|ImageExts|, i requires 0 <= i < |ImageExts| => Join(dir, stem + ImageExts[i]))
  }

  /** The paths the bottom panel tries for a preview, in order. */
  function PreviewCandidates(dir: Path, name: string): seq<Path>
  {
    WithImageExts(dir, name + ".preview") + WithImageExts(dir, name)
  }

  /** The preview of a bottom-panel card: the first candidate that exists;
      failing that `<name>.preview.png` if it exists, else `preview.png` in
      the same folder, whether or not that exists. */
  function ResolvePreview(fs: Fs, dir: Path, name: string): Path
  {
    match First(PreviewCandidates(dir, name), (p: Path) => Exists(fs, p))
    case Some(p) => p
    case None =>
      var d := Join(dir, name + ".preview.png");
      if Exists(fs, d) then d else Join(dir, "preview.png")
  }

  /** What `create_thumbnail_widget` is given: the model path, the name, the preview path. */
  datatype Card = Card(path: Path, name: string, preview: Path)

  /** The card of a group: its model file, its name, and the preview resolved
      in the model file's folder. */
  function GroupCard(fs: Fs, g: Group): (c: Card)
    ensures c.path == g.model && c.name == g.name
    ensures c.preview == ResolvePreview(fs, Dirname(g.model), g.name)
  {
    Card(g.model, g.name, ResolvePreview(fs, Dirname(g.model), g.name))
  }

  /** The bottom panel after a refresh, and the selection. */
  datatype Panel = Panel(cards: seq<Card>, selection: set<Path>, raised: bool)

  /** `refresh_selected_list`: a missing output folder gives an empty panel
      and keeps the selection; an output path that is not a folder makes the
      listing raise; otherwise one card per group, in group order, and the
      selection is cleared. */
  function RefreshSelected(fs: Fs, out: Path, listing: seq<string>, selection: set<Path>): (r: Panel)
    ensures !Exists(fs, out) ==> r == Panel([], selection, false)
    ensures r.raised <==> Exists(fs, out) && !IsDir(fs, out)
    ensures IsDir(fs, out) ==> r.selection == {} && |r.cards| == |GroupFiles(out, listing)|
    ensures IsDir(fs, out) ==>
      forall i :: 0 <= i < |r.cards| ==> r.cards[i] == GroupCard(fs, GroupFiles(out, listing)[i])
  {
    if !Exists(fs, out) then Panel([], selection, false)
    else if !IsDir(fs, out) then Panel([], selection, true)
    else
      var groups := GroupFiles(out, listing);
      Panel(seq(|groups|, i requires 0 <= i < |groups| => GroupCard(fs, groups[i])), {}, false)
  }

  // ---------------------------------------------------------------------
  // load_loras
  // ---------------------------------------------------------------------

  /** The preview `load_loras` picks from a folder's listing: the first image
      whose lower-cased name starts with `<name>.preview`, else the first
      image whose lower-cased name starts with the name (a prefix test, so
      `foo` also picks up `foo-v2.png`). */
  function FindPreview(files: seq<string>, name: string): Option<string>
  {
    var marked := First(files, (f: string) => MarkedPreview(name, f));
    if marked.Some? then marked
    else First(files, (f: string) => NamedPreview(name, f))
  }

  /** The first pass's test: an image whose lower-cased name starts with `<name>.preview`. */
  predicate MarkedPreview(name: string, f: string)
  {
    StartsWith(Lower(f), Lower(name + ".preview")) && IsImage(f)
  }

  /** The second pass's test: an image whose lower-cased name starts with the name. */
  predicate NamedPreview(name: string, f: string)
  {
    StartsWith(Lower(f), Lower(name)) && IsImage(f)
  }

  /** The config file: the first listed one whose base is exactly the name. */
  function FindConfig(files: seq<string>, name: string): Option<string>
  {
    First(files, (f: string) => ConfigFor(name, f))
  }

  /** `f` is a config file whose base is exactly `name`. */
  predicate ConfigFor(name: string, f: string)
  {
    SplitExt(f).0 == name && IsConfig(f)
  }

  /** `os.path.relpath(root, base)` for the roots `os.walk(base)` yields: `.`
      for the folder itself, the part after `base` and its separators below
      it (trailing separators of `base` do not count, as `relpath` normalises
      them away). */
  function RelPath(root: Path, base: Path): Path
  {
    var b := RStripSlashes(base);
    if root == base || root == b then "."
    else if StartsWith(root, b + "/") then LStripSlashes(root[|b|..])
    else root
  }

  /** One card of the top panel: the card itself, the config found for it,
      and its search key. */
  datatype Found = Found(card: Card, config: Option<Path>, key: string)

  /** What the inner loop builds for the model file `file` of `root`. */
  function FoundFile(fs: Fs, loraRoot: Path, root: Path, files: seq<string>, file: string): Found
  {
    var name := SplitExt(file).0;
    Found(Card(Join(root, file), name, PreviewPath(fs, root, files, name)), ConfigPath(root, files, name),
          Lower(name + " " + RelPath(root, loraRoot)))
  }

  /** The preview a card shows: the image found for it, else `<name>.preview.png`
      when that exists, else the folder's `preview.png`. */
  function PreviewPath(fs: Fs, root: Path, files: seq<string>, name: string): Path
  {
    match FindPreview(files, name)
    case Some(f) => Join(root, f)
    case None =>
      var d := Join(root, name + ".preview.png");
      if Exists(fs, d) then d else Join(root, "preview.png")
  }

  /** The config file found for a card, joined to its folder. */
  function ConfigPath(root: Path, files: seq<string>, name: string): Option<Path>
  {
    match FindConfig(files, name)
    case Some(f) => Some(Join(root, f))
    case None => None
  }

  /** Every model file of the walk, directory by directory, in listing order. */
  function FoundAll(fs: Fs, loraRoot: Path, walk: seq<WalkDir>): seq<Found>
    decreases |walk|
  {
    if |walk| == 0 then []
    else
      var models := Filter(walk[0].files, IsSafetensors);
      seq(|models|, i requires 0 <= i < |models| => FoundFile(fs, loraRoot, walk[0].root, walk[0].files, models[i]))
        + FoundAll(fs, loraRoot, walk[1..])
  }

  /** `load_loras`: creates the output folder (an uncaught failure), then lays
      out one card per model file of the walk of the LoRA folder. */
  function LoadLoras(fs: Fs, loraRoot: Path, out: Path, walk: seq<WalkDir>): (r: Option<(Fs, seq<Found>)>)
    ensures r.Some? <==> MakeDirs(fs, out).Some?
    ensures r.Some? ==> IsDir(r.value.0, out)
  {
    match MakeDirs(fs, out)
    case None => None
    case Some(fs1) => Some((fs1, FoundAll(fs1, loraRoot, walk)))
  }

  // ---------------------------------------------------------------------
  // filter_loras
  // ---------------------------------------------------------------------

  /** `d[k] = v` on an insertion-ordered dict: an existing key keeps its place
      and takes the new value; a new key goes at the end. */
  function Put(d: seq<(string, Card)>, k: string, v: Card): seq<(string, Card)>
  {
    match FirstIndex(d, (e: (string, Card)) => e.0 == k)
    case Some(i) => d[i := (k, v)]
    case None => d + [(k, v)]
  }

  /** `all_thumbnail_widgets` as `load_loras` fills it: keyed by search text. */
  function BuildIndex(found: seq<Found>): seq<(string, Card)>
    decreases |found|
  {
    if |found| == 0 then []
    else
      var last := found[|found| - 1];
      Put(BuildIndex(found[..|found| - 1]), last.key, last.card)
  }

  /** The search keys and cards, one entry per card laid out. */
  function Entries(found: seq<Found>): (r: seq<(string, Card)>)
    ensures |r| == |found|
  {
    seq(|found|, i requires 0 <= i < |found| => (found[i].key, found[i].card))
  }

  /** The entries whose key contains the lower-cased query, in order. */
  function Shown(entries: seq<(string, Card)>, query: string): seq<(string, Card)>
  {
    Filter(entries, (e: (string, Card)) => Contains(e.0, Lower(query)))
  }

  /** `filter_loras` as written: the search runs over the dict, in which a
      card whose key repeats an earlier one has replaced it. */
  function FilterAsWritten(found: seq<Found>, query: string): seq<(string, Card)>
  {
    Shown(BuildIndex(found), query)
  }

  /** `filter_loras` as intended: the search runs over every card laid out. */
  function FilterLoras(found: seq<Found>, query: string): seq<(string, Card)>
  {
    Shown(Entries(found), query)
  }

  // ---------------------------------------------------------------------
  // Selection, zoom and the grid
  // ---------------------------------------------------------------------

  /** `handle_click` on the selection: the clicked LoRA goes in or out. */
  function Toggle(selection: set<Path>, p: Path): (r: set<Path>)
    ensures p in r <==> p !in selection
    ensures forall q :: q != p ==> (q in r <==> q in selection)
  {
    if p in selection then selection - {p} else selection + {p}
  }

  /** `update_remove_all_btn_text` */
  function ButtonLabel(selection: set<Path>): string
  {
    if selection != {} then "Remove Selected" else "Remove All"
  }

  /** `zoom_in`: one step larger below the maximum. */
  function ZoomIn(size: int): int
  {
    if size < ZoomMax then size + ZoomStep else size
  }

  /** `zoom_out`: one step smaller above the minimum. */
  function ZoomOut(size: int): int
  {
    if size > ZoomMin then size - ZoomStep else size
  }

  /** Python's `a // b`: the quotient rounded toward minus infinity (Dafny's
      `/` rounds so that the remainder is non-negative, which differs for a
      negative divisor). */
  function FloorDiv(a: int, b: int): int
    requires b != 0
  {
    if b > 0 || a % b == 0 then a / b else a / b - 1
  }

  /** The width the grid is laid out in: the panel's, or the fallback
      (parent's or window's) when the panel is narrower than one card. */
  function GridWidth(width: int, fallback: int, thumb: int): int
  {
    if width < thumb + CardPadding then fallback else width
  }

  /** `max(1, int(container_width // (thumbnail_size + 24)))` */
  function MaxCols(width: int, fallback: int, thumb: int): (r: int)
    requires thumb + CardPadding != 0
    ensures r >= 1
  {
    var q := FloorDiv(GridWidth(width, fallback, thumb), thumb + CardPadding);
    if q > 1 then q else 1
  }

  /** The placement loop `col += 1; if col >= max_cols: col = 0; row += 1`
      shared by both panels and the filter: the `(row, col)` of each of `n`
      widgets. */
  method Place(n: nat, maxCols: int) returns (cells: seq<(int, int)>)
    requires maxCols >= 1
    ensures |cells| == n
    ensures forall i :: 0 <= i < n ==> 0 <= cells[i].1 < maxCols && 0 <= cells[i].0
    ensures forall i :: 0 <= i < n ==> cells[i].0 * maxCols + cells[i].1 == i
    ensures forall i :: 0 <= i < n ==> cells[i] == (i / maxCols, i % maxCols)
  {
    var row, col := 0, 0;
    cells := [];
    while |cells| < n
      invariant |cells| <= n
      invariant 0 <= col < maxCols && 0 <= row
      invariant row * maxCols + col == |cells|
      invariant forall i :: 0 <= i < |cells| ==> 0 <= cells[i].1 < maxCols && 0 <= cells[i].0
      invariant forall i :: 0 <= i < |cells| ==> cells[i].0 * maxCols + cells[i].1 == i
    {
      ghost var before := cells;
      cells := cells + [(row, col)];
      assert forall i :: 0 <= i < |before| ==> cells[i] == before[i];
      col := col + 1;
      if col >= maxCols {
        col := 0;
        row := row + 1;
        assert row * maxCols == (row - 1) * maxCols + maxCols;
      }
    }
    CellsAreDivMod(cells, maxCols);
  }

  /** Cells laid out row-major, as the loop keeps them, are the quotient and
      remainder of their index. */
  lemma CellsAreDivMod(cells: seq<(int, int)>, maxCols: int)
    requires maxCols >= 1
    requires forall i :: 0 <= i < |cells| ==> 0 <= cells[i].1 < maxCols && 0 <= cells[i].0
    requires forall i :: 0 <= i < |cells| ==> cells[i].0 * maxCols + cells[i].1 == i
    ensures forall i :: 0 <= i < |cells| ==> cells[i] == (i / maxCols, i % maxCols)
  {
    forall i | 0 <= i < |cells| ensures cells[i] == (i / maxCols, i % maxCols) {
      CellIsDivMod(cells[i].0, cells[i].1, maxCols);
    }
  }

  /** Row-major placement is division with remainder by the column count. */
  lemma CellIsDivMod(row: int, col: int, cols: int)
    requires 0 <= row && 0 <= col < cols
    ensures (row * cols + col) / cols == row && (row * cols + col) % cols == col
  {
    var i := row * cols + col;
    var q, r := i / cols, i % cols;
    assert i == q * cols + r && 0 <= r < cols;
    var k := q - row;
    assert k * cols == col - r;
    MulSign(k, cols);
  }

  /** A non-zero multiple of a positive number is at least that number away from zero. */
  lemma {:induction false} MulSign(k: int, c: int)
    requires c > 0
    ensures k >= 1 ==> k * c >= c
    ensures k <= -1 ==> k * c <= -c
    decreases if k < 0 then -k else k
  {
    if k > 1 {
      MulSign(k - 1, c);
      assert k * c == (k - 1) * c + c;
    } else if k < -1 {
      MulSign(k + 1, c);
      assert k * c == (k + 1) * c - c;
    }
  }
}

=== FILE: lora_manager_proofs.dfy ===
/** What the LoRA manager's rules guarantee: removal takes exactly a LoRA's
    files and nothing else, whatever the order of the selection; copying
    never overwrites a real file or makes a link, and a second copy of the
    same file does nothing; the bottom panel's groups agree with a
    declarative reading of the listing; the filter, selection, zoom and grid
    rules. */
module LoraManagerProofs {
  import opened Wrappers
  import opened Seqs
  import opened Paths
  import opened FileSystem
  import opened LoraManager

  // ---------------------------------------------------------------------
  // Removing
  // ---------------------------------------------------------------------

  /** The output-folder paths `remove_lora` aims at for the LoRA `name`. */
  function Doomed(out: Path, name: string, listing: seq<string>): set<Path>
  {
    set f | f in listing && Belongs(name, f) :: Join(out, f)
  }

  /** The paths aimed at for any of the selected LoRAs. */
  function DoomedBy(out: Path, selected: seq<Path>, listing: seq<string>): set<Path>
  {
    set q, f | q in selected && f in listing && Belongs(LoraName(q), f) :: Join(out, f)
  }

  /** `fs'` is `fs` without the removable entries among `gone`. */
  ghost predicate RemovedExactly(fs: Fs, fs': Fs, gone: set<Path>)
  {
    && (forall p :: p in fs' <==> p in fs && !(Removable(fs, p) && p in gone))
    && (forall p :: p in fs' ==> fs'[p] == fs[p])
  }

  lemma RemovedExactlyUnique(fs: Fs, a: Fs, b: Fs, gone: set<Path>, gone': set<Path>)
    requires RemovedExactly(fs, a, gone) && RemovedExactly(fs, b, gone')
    requires forall p :: Removable(fs, p) ==> (p in gone <==> p in gone')
    ensures a == b
  {
    assert a.Keys == b.Keys;
  }

  /** Removing listed names one at a time takes exactly the removable entries
      among their paths and leaves every other entry as it was. */
  lemma {:induction false} RemoveNamesExact(fs: Fs, out: Path, names: seq<string>)
    ensures RemovedExactly(fs, RemoveNames(fs, out, names), Targets(out, names))
    decreases |names|
  {
    if |names| > 0 {
      var fs1 := Remove(fs, Join(out, names[0]));
      RemoveNamesExact(fs1, out, names[1..]);
      assert Targets(out, names) == {Join(out, names[0])} + Targets(out, names[1..]) by {
        assert forall f :: f in names <==> f == names[0] || f in names[1..];
      }
    }
  }

  /** `remove_lora` takes exactly the files and links of the output folder
      that belong to the LoRA, and leaves every other entry as it was. */
  lemma RemoveLoraExact(fs: Fs, out: Path, loraPath: Path, listing: seq<string>)
    ensures RemovedExactly(fs, RemoveLora(fs, out, loraPath, listing), Doomed(out, LoraName(loraPath), listing))
  {
    var name := LoraName(loraPath);
    var mine := Filter(listing, f => Belongs(name, f));
    RemoveNamesExact(fs, out, mine);
    assert Targets(out, mine) == Doomed(out, name, listing) by {
      forall f | f in listing && Belongs(name, f) ensures f in mine {
        var i :| 0 <= i < |listing| && listing[i] == f;
      }
      forall f | f in mine ensures f in listing && Belongs(name, f) {
        var i :| 0 <= i < |mine| && mine[i] == f;
      }
    }
  }

  /** Only which removable entries a listing names matters: `remove_lora`
      listing the folder again, after earlier removals, removes the same
      files as the listing taken at the start. */
  lemma RemoveLoraListing(fs: Fs, out: Path, loraPath: Path, l1: seq<string>, l2: seq<string>)
    requires forall p :: Removable(fs, p) ==>
      (p in Doomed(out, LoraName(loraPath), l1) <==> p in Doomed(out, LoraName(loraPath), l2))
    ensures RemoveLora(fs, out, loraPath, l1) == RemoveLora(fs, out, loraPath, l2)
  {
    RemoveLoraExact(fs, out, loraPath, l1);
    RemoveLoraExact(fs, out, loraPath, l2);
    RemovedExactlyUnique(fs, RemoveLora(fs, out, loraPath, l1), RemoveLora(fs, out, loraPath, l2),
      Doomed(out, LoraName(loraPath), l1), Doomed(out, LoraName(loraPath), l2));
  }

  lemma RemovedExactlyTransitive(a: Fs, b: Fs, c: Fs, g1: set<Path>, g2: set<Path>)
    requires RemovedExactly(a, b, g1) && RemovedExactly(b, c, g2)
    ensures RemovedExactly(a, c, g1 + g2)
  {
  }

  /** Removing the selected LoRAs one after another takes exactly the files
      that belong to any of them. */
  lemma {:induction false} RemoveEachExact(fs: Fs, out: Path, selected: seq<Path>, listing: seq<string>)
    ensures RemovedExactly(fs, RemoveEach(fs, out, selected, listing), DoomedBy(out, selected, listing))
    decreases |selected|
  {
    if |selected| == 0 {
      assert DoomedBy(out, selected, listing) == {};
    } else {
      var fs1 := RemoveLora(fs, out, selected[0], listing);
      RemoveLoraExact(fs, out, selected[0], listing);
      RemoveEachExact(fs1, out, selected[1..], listing);
      RemovedExactlyTransitive(fs, fs1, RemoveEach(fs, out, selected, listing),
        Doomed(out, LoraName(selected[0]), listing), DoomedBy(out, selected[1..], listing));
      assert DoomedBy(out, selected, listing)
          == Doomed(out, LoraName(selected[0]), listing) + DoomedBy(out, selected[1..], listing) by {
        assert forall q :: q in selected <==> q == selected[0] || q in selected[1..];
      }
    }
  }

  /** The order in which the selection set is iterated does not matter. */
  lemma RemoveEachOrderFree(fs: Fs, out: Path, s1: seq<Path>, s2: seq<Path>, listing: seq<string>)
    requires forall q :: q in s1 <==> q in s2
    ensures RemoveEach(fs, out, s1, listing) == RemoveEach(fs, out, s2, listing)
  {
    RemoveEachExact(fs, out, s1, listing);
    RemoveEachExact(fs, out, s2, listing);
    assert DoomedBy(out, s1, listing) == DoomedBy(out, s2, listing);
    RemovedExactlyUnique(fs, RemoveEach(fs, out, s1, listing), RemoveEach(fs, out, s2, listing),
      DoomedBy(out, s1, listing), DoomedBy(out, s2, listing));
  }

  /** `remove_selected_or_all_loras` on an existing output folder: with a
      selection, exactly the selected LoRAs' files go; without one, every
      listed file and link goes and sub-folders stay. */
  lemma RemoveSelectedOrAllExact(fs: Fs, out: Path, selected: seq<Path>, listing: seq<string>)
    requires IsDir(fs, out)
    ensures var r := RemoveSelectedOrAll(fs, out, selected, listing);
      && !r.raised && r.selection == {}
      && RemovedExactly(fs, r.fs, if |selected| > 0 then DoomedBy(out, selected, listing) else Targets(out, listing))
  {
    if |selected| > 0 {
      RemoveEachExact(fs, out, selected, listing);
    } else {
      RemoveNamesExact(fs, out, listing);
    }
  }

  // ---------------------------------------------------------------------
  // Copying
  // ---------------------------------------------------------------------

  /** `fs'` keeps every real file and directory of `fs` as it was, and every
      link in `fs'` was already in `fs`: only links may go, only files and
      directories may appear. */
  ghost predicate Safe(fs: Fs, fs': Fs)
  {
    && (forall p :: p in fs && !fs[p].Link? ==> p in fs' && fs'[p] == fs[p])
    && (forall p :: p in fs' && fs'[p].Link? ==> p in fs && fs[p] == fs'[p])
  }

  lemma SafeTransitive(a: Fs, b: Fs, c: Fs)
    requires Safe(a, b) && Safe(b, c)
    ensures Safe(a, c)
  {
  }

  /** Copying onto a target that is absent or a link adds a directory or a
      file where nothing real was. */
  lemma CopyIntoSafe(fs: Fs, src: Path, target: Path)
    requires !Exists(fs, target)
    ensures Safe(fs, CopyInto(fs, src, target))
  {
    var d := Dirname(target);
    if MakeDirs(fs, d).Some? {
      var fs1 := MakeDirs(fs, d).value;
      MakeDirsSafe(fs, d);
      if View(fs1, src).Some? && View(fs1, src).value.Regular? {
        var w := Write(fs1, target, View(fs1, src).value.content);
        if w.Some? {
          assert !Exists(fs1, target) by {
            assert Resolve(fs1, target) == Resolve(fs, target);
          }
          WriteSafe(fs1, target, View(fs1, src).value.content);
          SafeTransitive(fs, fs1, w.value);
        }
      }
    }
  }

  /** `os.makedirs` only adds a directory. */
  lemma MakeDirsSafe(fs: Fs, d: Path)
    requires MakeDirs(fs, d).Some?
    ensures Safe(fs, MakeDirs(fs, d).value)
  {
  }

  /** Writing through a path where nothing real is seen puts a file where
      nothing real was. */
  lemma WriteSafe(fs: Fs, p: Path, data: string)
    requires !Exists(fs, p) && Write(fs, p, data).Some?
    ensures Safe(fs, Write(fs, p, data).value)
  {
    var t := Resolve(fs, p);
    assert !(t in fs && !fs[t].Link?);
  }

  /** One listed file: a copy never overwrites or deletes a real file or
      directory, and never creates a link. */
  lemma ApplyFileSafe(fs: Fs, out: Path, dir: Path, name: string, file: string)
    ensures Safe(fs, ApplyFile(fs, out, dir, name, file))
  {
    var src, target := Join(dir, file), Join(out, file);
    if IsFile(fs, src) && Belongs(name, file) && !(Exists(fs, target) && !IsLink(fs, target)) {
      var fs1 := if Exists(fs, target) then fs - {target} else fs;
      assert Safe(fs, fs1);
      if Exists(fs1, src) {
        CopyIntoSafe(fs1, src, target);
        SafeTransitive(fs, fs1, CopyInto(fs1, src, target));
      }
    }
  }

  lemma {:induction false} ApplyFilesSafe(fs: Fs, out: Path, dir: Path, name: string, listing: seq<string>)
    ensures Safe(fs, ApplyFiles(fs, out, dir, name, listing))
    decreases |listing|
  {
    if |listing| > 0 {
      var fs1 := ApplyFile(fs, out, dir, name, listing[0]);
      ApplyFileSafe(fs, out, dir, name, listing[0]);
      ApplyFilesSafe(fs1, out, dir, name, listing[1..]);
      SafeTransitive(fs, fs1, ApplyFiles(fs, out, dir, name, listing));
    }
  }

  lemma {:induction false} ApplyEachSafe(fs: Fs, out: Path, selected: seq<Path>, ls: (Fs, Path) -> seq<string>)
    ensures Safe(fs, ApplyEach(fs, out, selected, ls).0)
    decreases |selected|
  {
    if |selected| > 0 {
      var dir := Dirname(selected[0]);
      if IsDir(fs, dir) {
        var fs1 := ApplyFiles(fs, out, dir, LoraName(selected[0]), ls(fs, dir));
        ApplyFilesSafe(fs, out, dir, LoraName(selected[0]), ls(fs, dir));
        ApplyEachSafe(fs1, out, selected[1..], ls);
        SafeTransitive(fs, fs1, ApplyEach(fs, out, selected, ls).0);
      }
    }
  }

  /** `apply_selection` copies rather than links: whatever it lists and
      however far it gets, every real file and directory stays as it was,
      and every link afterwards was there before. */
  lemma ApplySelectionSafe(fs: Fs, out: Path, selected: seq<Path>, ls: (Fs, Path) -> seq<string>)
    ensures Safe(fs, ApplySelection(fs, out, selected, ls).fs)
  {
    ApplyEachSafe(fs, out, selected, ls);
    var fs1 := ApplyEach(fs, out, selected, ls).0;
    if MakeDirs(fs1, out).Some? {
      assert Safe(fs1, MakeDirs(fs1, out).value);
      SafeTransitive(fs, fs1, MakeDirs(fs1, out).value);
    }
  }

  /** A file of the LoRA whose target is free or a link, in an output folder
      that exists, ends up copied: the target shows the source's content. */
  lemma ApplyFileCopies(fs: Fs, out: Path, dir: Path, name: string, file: string)
    requires WellFormed(fs)
    requires IsFile(fs, Join(dir, file)) && Belongs(name, file)
    requires !Exists(fs, Join(out, file)) || IsLink(fs, Join(out, file))
    requires Join(dir, file) != Join(out, file)
    requires IsDir(fs, Dirname(Join(out, file))) && Dirname(Join(out, file)) !in {"", Join(out, file)}
    ensures View(ApplyFile(fs, out, dir, name, file), Join(out, file)) == View(fs, Join(dir, file))
  {
    var src, target := Join(dir, file), Join(out, file);
    var d := Dirname(target);
    var fs1 := if Exists(fs, target) then fs - {target} else fs;
    assert View(fs1, src) == View(fs, src) by {
      if Exists(fs, target) {
        assert IsLink(fs, target);
        if src in fs && fs[src].Link? {
          assert !IsLink(fs, fs[src].target);
        }
      }
    }
    assert IsDir(fs1, d) by {
      if Exists(fs, target) && d in fs && fs[d].Link? {
        assert !IsLink(fs, fs[d].target);
      }
    }
    assert MakeDirs(fs1, d) == Some(fs1);
    assert !IsDir(fs1, target);
  }

  /** The target after a copy attempt on a free target: either the attempt
      changed nothing, or a real file or directory now sits there. */
  lemma CopyIntoSettles(fs: Fs, src: Path, target: Path)
    requires target !in fs
    requires IsFile(fs, src)
    ensures var r := CopyInto(fs, src, target);
      r == fs || (Exists(r, target) && !IsLink(r, target))
  {
    var d := Dirname(target);
    if MakeDirs(fs, d).Some? {
      var fs1 := MakeDirs(fs, d).value;
      assert View(fs1, src) == View(fs, src) by {
        assert Resolve(fs, src) in fs;
      }
      if d == target {
        assert IsDir(fs1, target);
      }
    }
  }

  /** Applying a file twice is applying it once, provided the target is not
      a dangling link: the first pass leaves either nothing changed or a real
      entry at the target, which the second pass leaves alone. */
  lemma ApplyFileIdempotent(fs: Fs, out: Path, dir: Path, name: string, file: string)
    requires !(IsLink(fs, Join(out, file)) && !Exists(fs, Join(out, file)))
    ensures var r := ApplyFile(fs, out, dir, name, file);
      ApplyFile(r, out, dir, name, file) == r
  {
    var src, target := Join(dir, file), Join(out, file);
    var r := ApplyFile(fs, out, dir, name, file);
    if IsFile(fs, src) && Belongs(name, file) && !(Exists(fs, target) && !IsLink(fs, target)) {
      var fs1 := if Exists(fs, target) then fs - {target} else fs;
      assert target !in fs1;
      if Exists(fs1, src) {
        assert IsFile(fs1, src) by {
          assert Resolve(fs1, src) == Resolve(fs, src) || Resolve(fs1, src) == src;
        }
        CopyIntoSettles(fs1, src, target);
      }
    }
    ApplyFileSettled(r, out, dir, name, file);
  }

  /** The states a first pass leaves behind, each of which a second pass
      leaves alone. */
  lemma ApplyFileSettled(fs: Fs, out: Path, dir: Path, name: string, file: string)
    requires var src, target := Join(dir, file), Join(out, file);
      || !IsFile(fs, src) || !Belongs(name, file)
      || (Exists(fs, target) && !IsLink(fs, target))
      || (target !in fs && CopyInto(fs, src, target) == fs)
    ensures ApplyFile(fs, out, dir, name, file) == fs
  {
  }

  /** A dangling link at the target is not unlinked (`os.path.exists` is
      False for it): the copy is written through it, to where it points, and
      the link stays. */
  lemma DanglingTargetWrittenThrough(fs: Fs, out: Path, dir: Path, name: string, file: string)
    requires IsFile(fs, Join(dir, file)) && Belongs(name, file)
    requires IsLink(fs, Join(out, file)) && fs[Join(out, file)].target !in fs
    requires IsDir(fs, Dirname(Join(out, file))) && Dirname(Join(out, file)) != ""
    ensures var r := ApplyFile(fs, out, dir, name, file);
      && Join(out, file) in r && fs[Join(out, file)].target in r
      && r[Join(out, file)] == fs[Join(out, file)]
      && r[fs[Join(out, file)].target] == View(fs, Join(dir, file)).value
  {
    var target := Join(out, file);
    assert !Exists(fs, target);
    assert MakeDirs(fs, Dirname(target)) == Some(fs);
  }

  // ---------------------------------------------------------------------
  // Grouping the output folder
  // ---------------------------------------------------------------------

  /** `FirstIndex` is pinned down by "matches, and nothing before it does". */
  lemma FirstIndexUnique<T>(s: seq<T>, p: T -> bool, i: nat)
    requires i < |s| && p(s[i])
    requires forall j :: 0 <= j < i ==> !p(s[j])
    ensures FirstIndex(s, p) == Some(i)
  {
  }

  lemma {:induction false} FirstIndexSnoc<T>(s: seq<T>, x: T, p: T -> bool)
    ensures FirstIndex(s + [x], p)
      == if FirstIndex(s, p).Some? then FirstIndex(s, p) else if p(x) then Some(|s|) else None
  {
    var t := s + [x];
    assert forall j :: 0 <= j < |s| ==> t[j] == s[j];
    assert t[|s|] == x;
    var a := FirstIndex(s, p);
    if a.Some? {
      FirstIndexUnique(t, p, a.value);
    } else if p(x) {
      FirstIndexUnique(t, p, |s|);
    } else {
      assert forall j :: 0 <= j < |t| ==> !p(t[j]);
    }
  }

  lemma LastIndexOfSnoc<T>(s: seq<T>, x: T, p: T -> bool)
    ensures LastIndexOf(s + [x], p) == if p(x) then Some(|s|) else LastIndexOf(s, p)
  {
    assert (s + [x])[..|s|] == s;
  }

  /** The listed file `f` is of kind `k` and filed under the name `n`. */
  predicate Filed(k: Kind, n: string, f: string)
  {
    KindOf(f) == k && KeyOf(f) == n
  }

  function FiledUnder(k: Kind, n: string): string -> bool
  {
    f => Filed(k, n, f)
  }

  lemma Snoc(listing: seq<string>, f: string)
    ensures (listing + [f])[..|listing|] == listing && (listing + [f])[|listing|] == f
  {
  }

  /** Where the group `n` is opened: the first model file whose base is `n`
      (see `ModelAtIsFirst`). */
  function ModelAt(listing: seq<string>, n: string): (r: Option<nat>)
    ensures r.Some? ==> r.value < |listing|
    decreases |listing|
  {
    if |listing| == 0 then None
    else
      var earlier := ModelAt(listing[..|listing| - 1], n);
      if earlier.Some? then earlier
      else if Filed(ModelFile, n, listing[|listing| - 1]) then Some(|listing| - 1)
      else None
  }

  /** The path of the last file of kind `k` filed under `n` that is listed
      after position `m` (see `AttachedAfterIsLast`). */
  function AttachedAfter(out: Path, listing: seq<string>, k: Kind, n: string, m: nat): Option<Path>
    decreases |listing|
  {
    if |listing| <= m + 1 then None
    else if Filed(k, n, listing[|listing| - 1]) then Some(Join(out, listing[|listing| - 1]))
    else AttachedAfter(out, listing[..|listing| - 1], k, n, m)
  }

  /** The group the declarative reading gives the name `n`, if any. */
  function Expected(out: Path, listing: seq<string>, n: string): Option<Group>
  {
    match ModelAt(listing, n)
    case None => None
    case Some(m) =>
      Some(Group(n, Join(out, listing[m]), AttachedAfter(out, listing, ImageFile, n, m),
                 AttachedAfter(out, listing, ConfigFile, n, m)))
  }

  predicate Before(a: Option<nat>, b: Option<nat>)
  {
    a.Some? && b.Some? && a.value < b.value
  }

  /** The names of the groups. */
  function Names(groups: seq<Group>): set<string>
  {
    set g | g in groups :: g.name
  }

  /** `groups` is what the declarative reading of `listing` gives: one group per
      model-file base, in the order those bases first appear, each holding its
      first model file and the last image and config filed under it after that. */
  ghost predicate Agrees(out: Path, listing: seq<string>, groups: seq<Group>)
  {
    && (forall i :: 0 <= i < |groups| ==> Expected(out, listing, groups[i].name) == Some(groups[i]))
    && (forall i, j :: 0 <= i < j < |groups| ==>
          Before(ModelAt(listing, groups[i].name), ModelAt(listing, groups[j].name)))
    && (forall n :: ModelAt(listing, n).Some? ==> n in Names(groups))
  }

  /** A group already opened keeps its model file when `f` is listed, and its
      reading changes only by `f` being attached to it. */
  lemma ExpectedSnoc(out: Path, listing: seq<string>, f: string, n: string)
    requires ModelAt(listing, n).Some?
    ensures ModelAt(listing + [f], n) == ModelAt(listing, n)
    ensures var g := Expected(out, listing, n).value;
      Expected(out, listing + [f], n)
        == Some(if Filed(ImageFile, n, f) then g.(preview := Some(Join(out, f)))
                else if Filed(ConfigFile, n, f) then g.(config := Some(Join(out, f)))
                else g)
  {
    Snoc(listing, f);
    var m := ModelAt(listing, n).value;
    assert (listing + [f])[m] == listing[m];
  }

  lemma GroupIndexNames(groups: seq<Group>, n: string)
    ensures GroupIndex(groups, n).Some? <==> n in Names(groups)
  {
    if n in Names(groups) {
      var g :| g in groups && g.name == n;
      var i :| 0 <= i < |groups| && groups[i] == g;
    }
  }

  /** The groups' own names: none of them is the name `n` of a model file
      that has no group. */
  lemma NamesOpened(out: Path, listing: seq<string>, groups: seq<Group>, n: string)
    requires Agrees(out, listing, groups)
    ensures n in Names(groups) <==> ModelAt(listing, n).Some?
  {
    if n in Names(groups) {
      var g :| g in groups && g.name == n;
      var i :| 0 <= i < |groups| && groups[i] == g;
      assert Expected(out, listing, groups[i].name).Some?;
    }
  }

  /** A file that opens no group and is attached to none. */
  lemma AgreesIgnore(out: Path, listing: seq<string>, groups: seq<Group>, f: string)
    requires Agrees(out, listing, groups)
    requires KindOf(f) == ModelFile ==> ModelAt(listing, KeyOf(f)).Some?
    requires KindOf(f) in {ImageFile, ConfigFile} ==> ModelAt(listing, KeyOf(f)).None?
    ensures Agrees(out, listing + [f], groups)
  {
    Snoc(listing, f);
    forall i | 0 <= i < |groups|
      ensures Expected(out, listing + [f], groups[i].name) == Some(groups[i])
      ensures ModelAt(listing + [f], groups[i].name) == ModelAt(listing, groups[i].name)
    {
      ExpectedSnoc(out, listing, f, groups[i].name);
    }
  }

  /** A model file whose base has no group yet opens one at the end. */
  lemma AgreesNewGroup(out: Path, listing: seq<string>, groups: seq<Group>, f: string)
    requires Agrees(out, listing, groups)
    requires KindOf(f) == ModelFile && ModelAt(listing, KeyOf(f)).None?
    ensures Agrees(out, listing + [f], groups + [Group(KeyOf(f), Join(out, f), None, None)])
  {
    var l2, key := listing + [f], KeyOf(f);
    var g2 := groups + [Group(key, Join(out, f), None, None)];
    Snoc(listing, f);
    assert ModelAt(l2, key) == Some(|listing|);
    assert Expected(out, l2, key) == Some(g2[|groups|]);
    forall i | 0 <= i < |groups|
      ensures Expected(out, l2, g2[i].name) == Some(g2[i])
      ensures ModelAt(l2, g2[i].name) == ModelAt(listing, groups[i].name)
    {
      assert g2[i] == groups[i];
      ExpectedSnoc(out, listing, f, groups[i].name);
    }
    forall i, j | 0 <= i < j < |g2|
      ensures Before(ModelAt(l2, g2[i].name), ModelAt(l2, g2[j].name))
    {
      if j == |groups| {
        assert Expected(out, listing, groups[i].name).Some?;
      }
    }
    assert Names(g2) == Names(groups) + {key} by {
      assert forall g :: g in g2 <==> g in groups || g == g2[|groups|];
    }
  }

  /** An image or config file filed under an existing group replaces that
      group's preview or config. */
  lemma AgreesAttach(out: Path, listing: seq<string>, groups: seq<Group>, f: string, idx: nat)
    requires Agrees(out, listing, groups)
    requires KindOf(f) in {ImageFile, ConfigFile}
    requires idx < |groups| && groups[idx].name == KeyOf(f)
    ensures var g := groups[idx];
      Agrees(out, listing + [f], groups[idx := if KindOf(f) == ImageFile then g.(preview := Some(Join(out, f)))
                                             else g.(config := Some(Join(out, f)))])
  {
    var l2, g := listing + [f], groups[idx];
    var h := if KindOf(f) == ImageFile then g.(preview := Some(Join(out, f))) else g.(config := Some(Join(out, f)));
    var g2 := groups[idx := h];
    forall i | 0 <= i < |groups|
      ensures Expected(out, l2, g2[i].name) == Some(g2[i])
      ensures ModelAt(l2, g2[i].name) == ModelAt(listing, groups[i].name)
    {
      AttachOne(out, listing, groups, f, idx, h, i);
    }
    NamesUpdate(groups, idx, h);
  }

  /** One group after `f` is attached to the group `idx`: that group gains
      `f`, any other is unchanged, and no group's model file moves. */
  lemma AttachOne(out: Path, listing: seq<string>, groups: seq<Group>, f: string, idx: nat, h: Group, i: nat)
    requires Agrees(out, listing, groups)
    requires KindOf(f) in {ImageFile, ConfigFile}
    requires idx < |groups| && groups[idx].name == KeyOf(f)
    requires h == if KindOf(f) == ImageFile then groups[idx].(preview := Some(Join(out, f)))
                  else groups[idx].(config := Some(Join(out, f)))
    requires i < |groups|
    ensures Expected(out, listing + [f], groups[idx := h][i].name) == Some(groups[idx := h][i])
    ensures ModelAt(listing + [f], groups[idx := h][i].name) == ModelAt(listing, groups[i].name)
  {
    ExpectedSnoc(out, listing, f, groups[i].name);
    if i != idx {
      assert Before(ModelAt(listing, groups[i].name), ModelAt(listing, groups[idx].name))
          || Before(ModelAt(listing, groups[idx].name), ModelAt(listing, groups[i].name));
    }
  }

  /** Replacing a group by one of the same name keeps the set of names. */
  lemma NamesUpdate(groups: seq<Group>, idx: nat, h: Group)
    requires idx < |groups| && h.name == groups[idx].name
    ensures Names(groups[idx := h]) == Names(groups)
  {
    var g2 := groups[idx := h];
    forall n | n in Names(groups) ensures n in Names(g2) {
      var x :| x in groups && x.name == n;
      var i :| 0 <= i < |groups| && groups[i] == x;
      assert g2[i] in g2;
    }
    forall n | n in Names(g2) ensures n in Names(groups) {
      var x :| x in g2 && x.name == n;
      var i :| 0 <= i < |g2| && g2[i] == x;
      assert groups[i] in groups;
    }
  }

  /** One pass of the grouping loop keeps the groups in agreement with the
      declarative reading of the listing so far. */
  lemma AddFileAgrees(out: Path, listing: seq<string>, groups: seq<Group>, f: string)
    requires Agrees(out, listing, groups)
    ensures Agrees(out, listing + [f], AddFile(groups, out, f))
  {
    var key := KeyOf(f);
    GroupIndexNames(groups, key);
    NamesOpened(out, listing, groups, key);
    match GroupIndex(groups, key)
    case None =>
      if KindOf(f) == ModelFile {
        AgreesNewGroup(out, listing, groups, f);
      } else {
        AgreesIgnore(out, listing, groups, f);
      }
    case Some(idx) =>
      if KindOf(f) in {ImageFile, ConfigFile} {
        AgreesAttach(out, listing, groups, f, idx);
      } else {
        AgreesIgnore(out, listing, groups, f);
      }
  }

  /** The grouping loop builds exactly what the declarative reading gives: one
      group per model-file base, in the order the bases first appear; each
      keeps its first model file; the last image and the last config filed
      under it after that file are attached, and earlier ones are dropped. */
  lemma {:induction false} GroupFilesAgree(out: Path, listing: seq<string>)
    ensures Agrees(out, listing, GroupFiles(out, listing))
    decreases |listing|
  {
    if |listing| > 0 {
      var init, last := listing[..|listing| - 1], listing[|listing| - 1];
      assert init + [last] == listing;
      GroupFilesAgree(out, init);
      AddFileAgrees(out, init, GroupFiles(out, init), last);
    }
  }

  /** The group of `n` is opened by the first model file whose base is `n`. */
  lemma {:induction false} ModelAtIsFirst(listing: seq<string>, n: string)
    ensures ModelAt(listing, n) == FirstIndex(listing, FiledUnder(ModelFile, n))
    decreases |listing|
  {
    if |listing| > 0 {
      var init, last := listing[..|listing| - 1], listing[|listing| - 1];
      assert init + [last] == listing;
      ModelAtIsFirst(init, n);
      FirstIndexSnoc(init, last, FiledUnder(ModelFile, n));
    }
  }

  /** What is attached to a group opened at `m` is the last file of that kind
      filed under its name, if that comes after `m`; an earlier one never is. */
  lemma {:induction false} AttachedAfterIsLast(out: Path, listing: seq<string>, k: Kind, n: string, m: nat)
    ensures var j := LastIndexOf(listing, FiledUnder(k, n));
      AttachedAfter(out, listing, k, n, m) == if j.Some? && j.value > m then Some(Join(out, listing[j.value])) else None
    decreases |listing|
  {
    if |listing| > m + 1 {
      var init, last := listing[..|listing| - 1], listing[|listing| - 1];
      assert init + [last] == listing;
      LastIndexOfSnoc(init, last, FiledUnder(k, n));
      if !Filed(k, n, last) {
        AttachedAfterIsLast(out, init, k, n, m);
      }
    }
  }

  // ---------------------------------------------------------------------
  // Previews
  // ---------------------------------------------------------------------

  /** The bottom panel's preview is the first candidate that exists; when
      none does it is `preview.png` of the folder: the second look for
      `<name>.preview.png` never finds anything the first did not. */
  lemma ResolvePreviewOrder(fs: Fs, dir: Path, name: string)
    ensures var r, c := ResolvePreview(fs, dir, name), PreviewCandidates(dir, name);
      && ((forall j :: 0 <= j < |c| ==> !Exists(fs, c[j])) ==> r == Join(dir, "preview.png"))
      && ((exists j :: 0 <= j < |c| && Exists(fs, c[j])) ==>
            exists i :: 0 <= i < |c| && r == c[i] && Exists(fs, r) && forall j :: 0 <= j < i ==> !Exists(fs, c[j]))
  {
    var c := PreviewCandidates(dir, name);
    assert c[0] == Join(dir, name + ".preview.png") by {
      assert name + ".preview" + ".png" == name + ".preview.png";
    }
  }

  /** `refresh_selected_list` on an output folder shows one card per
      model-file base of the listing, in the order those bases first appear;
      each card shows the first model file with that base and the preview
      resolved beside it. */
  lemma RefreshShowsListing(fs: Fs, out: Path, listing: seq<string>, selection: set<Path>)
    requires IsDir(fs, out)
    ensures var cards := RefreshSelected(fs, out, listing, selection).cards;
      && (forall i :: 0 <= i < |cards| ==>
            var m := ModelAt(listing, cards[i].name);
            && m.Some? && cards[i].path == Join(out, listing[m.value])
            && cards[i].preview == ResolvePreview(fs, Dirname(cards[i].path), cards[i].name))
      && (forall i, j :: 0 <= i < j < |cards| ==>
            Before(ModelAt(listing, cards[i].name), ModelAt(listing, cards[j].name)))
      && (forall n :: ModelAt(listing, n).Some? ==> exists i :: 0 <= i < |cards| && cards[i].name == n)
  {
    var groups := GroupFiles(out, listing);
    var cards := RefreshSelected(fs, out, listing, selection).cards;
    GroupFilesAgree(out, listing);
    forall i | 0 <= i < |cards|
      ensures var m := ModelAt(listing, cards[i].name);
        && m.Some? && cards[i].path == Join(out, listing[m.value])
        && cards[i].preview == ResolvePreview(fs, Dirname(cards[i].path), cards[i].name)
    {
      assert cards[i] == GroupCard(fs, groups[i]);
      assert Expected(out, listing, groups[i].name) == Some(groups[i]);
    }
    forall i, j | 0 <= i < j < |cards|
      ensures Before(ModelAt(listing, cards[i].name), ModelAt(listing, cards[j].name))
    {
      assert cards[i] == GroupCard(fs, groups[i]) && cards[j] == GroupCard(fs, groups[j]);
    }
    forall n | ModelAt(listing, n).Some? ensures exists i :: 0 <= i < |cards| && cards[i].name == n {
      assert n in Names(groups);
      var g :| g in groups && g.name == n;
      var i :| 0 <= i < |groups| && groups[i] == g;
      assert cards[i] == GroupCard(fs, groups[i]);
    }
  }

  /** A preview `apply_selection` copies for a LoRA is filed under that LoRA
      by `refresh_selected_list`, whether it is `<name>.preview<ext>` or
      `<name><ext>`, as long as the name itself holds no `.preview`. */
  lemma PreviewFiledUnderName(name: string, ext: string)
    requires HasStem(name) && !Contains(name, ".preview")
    requires IsExt(ext) && ext != ""
    ensures ImageKey(name + ".preview" + ext) == name
    ensures ImageKey(name + ext) == name
    ensures Belongs(name, name + ".preview" + ext) && Belongs(name, name + ext)
  {
    var marked := name + ".preview";
    assert HasStem(marked) by {
      LastIndexSpec(marked, '/');
      LastIndexSpec(name, '/');
      var k :| LastIndex(name, '/') < k < |name| && name[k] != '.';
      assert marked[k] == name[k];
      if LastIndex(marked, '/') >= |name| {
        assert marked[LastIndex(marked, '/')] == ".preview"[LastIndex(marked, '/') - |name|];
      }
      if LastIndex(marked, '/') >= 0 && LastIndex(marked, '/') < |name| {
        assert marked[LastIndex(marked, '/')] == name[LastIndex(marked, '/')];
        assert LastIndex(name, '/') >= LastIndex(marked, '/');
      }
    }
    SplitExtAppend(marked, ext);
    SplitExtAppend(name, ext);
    RemoveAllSuffix(name, ".preview");
    RemoveAllAbsent(name, ".preview");
    assert StartsWith(marked + ext, marked);
  }

  /** Deleting `pat` from `s + pat`, where `s` does not contain `pat` and no
      later character of `pat` equals its first, leaves `s`. */
  lemma {:induction false} RemoveAllSuffix(s: string, pat: string)
    requires |pat| > 0 && !Contains(s, pat)
    requires forall k :: 0 < k < |pat| ==> pat[k] != pat[0]
    ensures RemoveAll(s + pat, pat) == s
    decreases |s|
  {
    var t := s + pat;
    if |s| == 0 {
      assert t[..|pat|] == pat;
      assert t[|pat|..] == [];
    } else {
      PatternNotAtFront(s, pat);
      AbsentFromTail(s, pat);
      RemoveAllSuffix(s[1..], pat);
      assert t[1..] == s[1..] + pat;
      RemoveAllStep(t, pat);
      assert [s[0]] + s[1..] == s;
    }
  }

  /** Under the conditions of `RemoveAllSuffix`, `s + pat` does not start with `pat`. */
  lemma PatternNotAtFront(s: string, pat: string)
    requires |s| > 0 && |pat| > 0 && !Contains(s, pat)
    requires forall k :: 0 < k < |pat| ==> pat[k] != pat[0]
    ensures (s + pat)[..|pat|] != pat
  {
    var t := s + pat;
    if |s| >= |pat| {
      assert t[..|pat|] == s[..|pat|];
      assert !OccursAt(s, pat, 0);
    } else {
      assert t[|s|] == pat[0];
    }
  }

  /** A string that does not start with the pattern keeps its first character. */
  lemma RemoveAllStep(t: string, pat: string)
    requires |t| >= |pat| > 0 && t[..|pat|] != pat
    ensures RemoveAll(t, pat) == [t[0]] + RemoveAll(t[1..], pat)
  {
  }

  lemma LowerPrefix(a: string, b: string)
    ensures Lower(a + b) == Lower(a) + Lower(b)
  {
    assert forall i :: 0 <= i < |a| ==> (a + b)[i] == a[i];
    assert forall i :: |a| <= i < |a + b| ==> (a + b)[i] == b[i - |a|];
  }

  lemma StartsWithTransitive(s: string, t: string, u: string)
    requires StartsWith(s, t) && StartsWith(t, u)
    ensures StartsWith(s, u)
  {
    assert s[..|u|] == s[..|t|][..|u|];
  }

  /** `i` is where the first listed file passing `p` sits. */
  ghost predicate FirstAt(files: seq<string>, i: int, p: string -> bool)
  {
    0 <= i < |files| && p(files[i]) && forall j :: 0 <= j < i ==> !p(files[j])
  }

  /** The top panel's preview for `name`: the first listed image whose
      lower-cased name starts with `<name>.preview`; when there is none, the
      first listed image whose lower-cased name starts with the name; and none
      only when no listed image starts with the name. */
  lemma FindPreviewSpec(files: seq<string>, name: string)
    ensures var r := FindPreview(files, name);
      && ((exists i :: 0 <= i < |files| && MarkedPreview(name, files[i])) ==>
            exists i :: FirstAt(files, i, (f: string) => MarkedPreview(name, f)) && r == Some(files[i]))
      && ((forall i :: 0 <= i < |files| ==> !MarkedPreview(name, files[i])) && r.Some? ==>
            exists i :: FirstAt(files, i, (f: string) => NamedPreview(name, f)) && r == Some(files[i]))
      && (r.Some? ==> r.value in files && NamedPreview(name, r.value))
      && (r.None? <==> forall i :: 0 <= i < |files| ==> !NamedPreview(name, files[i]))
  {
    LowerPrefix(name, ".preview");
    assert StartsWith(Lower(name + ".preview"), Lower(name));
    forall f | MarkedPreview(name, f) ensures NamedPreview(name, f) {
      StartsWithTransitive(Lower(f), Lower(name + ".preview"), Lower(name));
    }
  }

  /** The prefix test lets one LoRA take another's picture: `foo` is shown with
      `foo-v2.png`, a file `apply_selection` does not count as part of `foo`. */
  lemma PrefixTakesOtherPreview()
    ensures FindPreview(["foo-v2" + ".png"], "foo") == Some("foo-v2" + ".png")
    ensures !Belongs("foo", "foo-v2" + ".png")
  {
    OtherLorasImage();
    OtherLorasFile();
  }

  lemma OtherLorasImage()
    ensures var f := "foo-v2" + ".png";
      && IsImage(f)
      && !StartsWith(Lower(f), Lower("foo" + ".preview"))
      && StartsWith(Lower(f), Lower("foo"))
  {
    var f := "foo-v2" + ".png";
    LowerKeeps("foo-v2");
    LowerKeeps(".png");
    LowerPrefix("foo-v2", ".png");
    LowerKeeps("foo");
    LowerKeeps(".preview");
    LowerPrefix("foo", ".preview");
    assert f[3] != ("foo" + ".preview")[3];
    assert EndsWith(f, ImageExts[0]);
    assert StartsWith(f, "foo");
  }

  lemma OtherLorasFile()
    ensures !Belongs("foo", "foo-v2" + ".png")
  {
    var f := "foo-v2" + ".png";
    assert HasStem("foo-v2") by {
      LastIndexSpec("foo-v2", '/');
      assert "foo-v2"[0] != '.';
    }
    assert IsExt(".png");
    SplitExtAppend("foo-v2", ".png");
    assert f[3] != ("foo" + ".preview")[3];
  }

  /** The config found for a LoRA is the first listed config file whose base
      is exactly the name, and one is found whenever such a file is listed. */
  lemma FindConfigSpec(files: seq<string>, name: string)
    ensures var r := FindConfig(files, name);
      && (r.Some? ==> exists i :: FirstAt(files, i, (f: string) => ConfigFor(name, f)) && r == Some(files[i]))
      && (r.None? <==> forall i :: 0 <= i < |files| ==> !ConfigFor(name, files[i]))
  {
  }

  /** `join(base, sub)` is `base` without its trailing separators, then one
      or more separators, then `sub`. */
  lemma WalkRootSplits(base: Path, sub: Path) returns (t: string)
    requires base != ""
    requires sub != "" && sub[0] != '/'
    ensures |t| > 0 && forall k :: 0 <= k < |t| ==> t[k] == '/'
    ensures Join(base, sub) == RStripSlashes(base) + t + sub
    ensures |Join(base, sub)| > |base|
  {
    var b := RStripSlashes(base);
    assert !StartsWith(sub, "/");
    if EndsWith(base, "/") {
      t := base[|b|..];
      assert base == b + t;
    } else {
      t := "/";
    }
  }

  /** `relpath` of the roots `os.walk(base)` yields: the folder itself is `.`,
      and `join(base, sub)` is `sub`, whatever separators `base` ends with. */
  lemma RelPathOfWalk(base: Path, sub: Path)
    requires base != ""
    requires sub != "" && sub[0] != '/'
    ensures RelPath(base, base) == "."
    ensures RelPath(Join(base, sub), base) == sub
  {
    var t := WalkRootSplits(base, sub);
    RelPathSplit(Join(base, sub), base, t, sub);
  }

  /** A path made of the base without its trailing separators, some
      separators and a name that does not start with one, taken relative to
      that base. */
  lemma RelPathSplit(root: Path, base: Path, t: string, sub: Path)
    requires |t| > 0 && forall k :: 0 <= k < |t| ==> t[k] == '/'
    requires sub != "" && sub[0] != '/'
    requires root == RStripSlashes(base) + t + sub && |root| > |base|
    ensures RelPath(root, base) == sub
  {
    SplitRoot(RStripSlashes(base), t, sub);
    RelPathUnder(root, base);
    LStripSlashesPrefix(t, sub);
  }

  /** The pieces of a path made of `b`, separators `t` and `sub`. */
  lemma SplitRoot(b: string, t: string, sub: string)
    requires |t| > 0 && t[0] == '/'
    ensures StartsWith(b + t + sub, b + "/")
    ensures (b + t + sub)[|b|..] == t + sub
  {
    SlashAfter(b, t, sub);
    assert b + t + sub == b + (t + sub);
  }

  lemma SlashAfter(b: string, t: string, sub: string)
    requires |t| > 0 && t[0] == '/'
    ensures StartsWith(b + t + sub, b + "/")
  {
    var root, p := b + t + sub, b + "/";
    forall k | 0 <= k < |p| ensures root[k] == p[k] {
      if k == |b| {
        assert root[k] == t[0];
      }
    }
    assert root[..|p|] == p;
  }

  lemma RelPathUnder(root: Path, base: Path)
    requires root != base && root != RStripSlashes(base)
    requires StartsWith(root, RStripSlashes(base) + "/")
    ensures RelPath(root, base) == LStripSlashes(root[|RStripSlashes(base)|..])
  {
  }

  // ---------------------------------------------------------------------
  // Searching
  // ---------------------------------------------------------------------

  lemma {:induction false} FilterKeepsAll<T>(s: seq<T>, p: T -> bool)
    requires forall i :: 0 <= i < |s| ==> p(s[i])
    ensures Filter(s, p) == s
    decreases |s|
  {
    if |s| > 0 {
      FilterKeepsAll(s[1..], p);
      assert [s[0]] + s[1..] == s;
    }
  }

  lemma ContainsTransitive(s: string, t: string, u: string)
    requires Contains(s, t) && Contains(t, u)
    ensures Contains(s, u)
  {
    var i :| 0 <= i <= |s| - |t| && OccursAt(s, t, i);
    var j :| 0 <= j <= |t| - |u| && OccursAt(t, u, j);
    forall k | 0 <= k < |u| ensures s[i + j + k] == u[k] {
      assert u[k] == t[j + k];
      assert t[j + k] == s[i + (j + k)];
    }
    assert OccursAt(s, u, i + j);
  }

  /** An entry is shown exactly when its key contains the lower-cased query. */
  lemma ShownSpec(entries: seq<(string, Card)>, query: string)
    ensures forall e :: e in Shown(entries, query) <==> e in entries && Contains(e.0, Lower(query))
  {
    var r := Shown(entries, query);
    forall e | e in r ensures e in entries && Contains(e.0, Lower(query)) {
      var i :| 0 <= i < |r| && r[i] == e;
    }
    forall e | e in entries && Contains(e.0, Lower(query)) ensures e in r {
      var i :| 0 <= i < |entries| && entries[i] == e;
    }
  }

  /** An empty search shows every entry, in order. */
  lemma EmptyQueryShowsAll(entries: seq<(string, Card)>)
    ensures Shown(entries, "") == entries
  {
    forall i | 0 <= i < |entries| ensures Contains(entries[i].0, Lower("")) {
      assert OccursAt(entries[i].0, "", 0);
    }
    FilterKeepsAll(entries, (e: (string, Card)) => Contains(e.0, Lower("")));
  }

  /** Typing more never shows more: whatever a longer query shows, a query it
      contains shows too. */
  lemma NarrowerQueryShowsLess(entries: seq<(string, Card)>, q1: string, q2: string)
    requires Contains(Lower(q2), Lower(q1))
    ensures forall e :: e in Shown(entries, q2) ==> e in Shown(entries, q1)
  {
    ShownSpec(entries, q1);
    ShownSpec(entries, q2);
    forall e | e in Shown(entries, q2) ensures e in Shown(entries, q1) {
      ContainsTransitive(e.0, Lower(q2), Lower(q1));
    }
  }

  /** With the search running over every card laid out, a card is listed
      exactly when its key contains the query, and an empty query lists every
      card `load_loras` laid out. */
  lemma FilterLorasShowsEveryMatch(found: seq<Found>, query: string)
    ensures forall i :: 0 <= i < |found| ==>
      ((found[i].key, found[i].card) in FilterLoras(found, query) <==> Contains(found[i].key, Lower(query)))
    ensures FilterLoras(found, "") == Entries(found)
  {
    ShownSpec(Entries(found), query);
    forall i | 0 <= i < |found| ensures (found[i].key, found[i].card) in Entries(found) {
      assert Entries(found)[i] == (found[i].key, found[i].card);
    }
    EmptyQueryShowsAll(Entries(found));
  }

  lemma LowerKeeps(s: string)
    requires forall k :: 0 <= k < |s| ==> !('A' <= s[k] <= 'Z')
    ensures Lower(s) == s
  {
  }

  /** `A.safetensors` and `a.safetensors` are both model files, named `A` and `a`. */
  lemma CaseTwinIsModel(s: string)
    requires s in ["A", "a"]
    ensures IsSafetensors(s + ".safetensors")
    ensures SplitExt(s + ".safetensors") == (s, ".safetensors")
  {
    LowerPrefix(s, ".safetensors");
    LowerKeeps(".safetensors");
    assert Lower(s) == "a";
    assert HasStem(s) by {
      LastIndexSpec(s, '/');
      assert s[0] != '.';
    }
    assert IsExt(".safetensors");
    SplitExtAppend(s, ".safetensors");
  }

  /** One folder of the walk: a card for each of its model files, in order. */
  lemma FoundOneDir(fs: Fs, root: Path, files: seq<string>)
    ensures var models := Filter(files, IsSafetensors);
      FoundAll(fs, root, [WalkDir(root, files)])
        == seq(|models|, i requires 0 <= i < |models| => FoundFile(fs, root, root, files, models[i]))
  {
    var walk := [WalkDir(root, files)];
    assert FoundAll(fs, root, walk[1..]) == [] by {
      assert walk[1..] == [];
    }
  }

  /** A folder listing two model files gives their two cards, in order. */
  lemma FoundPair(fs: Fs, root: Path, f0: string, f1: string)
    requires IsSafetensors(f0) && IsSafetensors(f1)
    ensures var found := FoundAll(fs, root, [WalkDir(root, [f0, f1])]);
      && |found| == 2
      && found[0] == FoundFile(fs, root, root, [f0, f1], f0)
      && found[1] == FoundFile(fs, root, root, [f0, f1], f1)
  {
    FilterKeepsAll([f0, f1], IsSafetensors);
    FoundOneDir(fs, root, [f0, f1]);
  }

  /** Two model files of one folder whose names differ only in case get one
      search key. */
  lemma CaseTwinsShareKey(fs: Fs, root: Path, files: seq<string>, f0: string, f1: string)
    requires Lower(SplitExt(f0).0) == Lower(SplitExt(f1).0)
    ensures FoundFile(fs, root, root, files, f0).key == FoundFile(fs, root, root, files, f1).key
    ensures FoundFile(fs, root, root, files, f0).card.name == SplitExt(f0).0
    ensures FoundFile(fs, root, root, files, f1).card.name == SplitExt(f1).0
  {
    var n0, n1, rel := SplitExt(f0).0, SplitExt(f1).0, RelPath(root, root);
    LowerPrefix(n0 + " ", rel);
    LowerPrefix(n1 + " ", rel);
    LowerPrefix(n0, " ");
    LowerPrefix(n1, " ");
  }

  /** No two entries of a dict listing share a key. */
  ghost predicate DistinctKeys(d: seq<(string, Card)>)
  {
    forall j, j' :: 0 <= j < j' < |d| ==> d[j].0 != d[j'].0
  }

  /** `i` is the last card laid out with the search key `k`. */
  ghost predicate LastWithKey(found: seq<Found>, i: int, k: string)
  {
    && 0 <= i < |found|
    && found[i].key == k
    && forall i' :: i < i' < |found| ==> found[i'].key != k
  }

  /** `d[k] = v` keeps the keys distinct, holds `(k, v)`, keeps every other
      entry, and drops only the old value of `k`. */
  lemma PutSpec(d: seq<(string, Card)>, k: string, v: Card)
    requires DistinctKeys(d)
    ensures var r := Put(d, k, v);
      && DistinctKeys(r)
      && (k, v) in r
      && (forall e :: e in r ==> e == (k, v) || (e in d && e.0 != k))
      && (forall e :: e in d && e.0 != k ==> e in r)
  {
    var r := Put(d, k, v);
    match FirstIndex(d, (e: (string, Card)) => e.0 == k)
    case Some(i) =>
      assert r == d[i := (k, v)] && r[i] == (k, v);
      forall e | e in r ensures e == (k, v) || (e in d && e.0 != k) {
        var j :| 0 <= j < |r| && r[j] == e;
        if j != i {
          assert r[j] == d[j] && d[j].0 != d[i].0;
        }
      }
      forall e | e in d && e.0 != k ensures e in r {
        var j :| 0 <= j < |d| && d[j] == e;
        assert j != i && r[j] == e;
      }
    case None =>
      assert r == d + [(k, v)];
      forall e | e in r ensures e == (k, v) || (e in d && e.0 != k) {
        var j :| 0 <= j < |r| && r[j] == e;
        if j < |d| {
          assert r[j] == d[j];
        }
      }
      forall e | e in d && e.0 != k ensures e in r {
        var j :| 0 <= j < |d| && d[j] == e;
        assert r[j] == e;
      }
  }

  /** What a card earlier in the walk is, it still is after one more card. */
  lemma LastWithKeySnoc(found: seq<Found>, i: int, k: string)
    requires |found| > 0 && found[|found| - 1].key != k
    requires LastWithKey(found[..|found| - 1], i, k)
    ensures LastWithKey(found, i, k) && found[i] == found[..|found| - 1][i]
  {
  }

  /** Every entry of `idx` holds the last card laid out with its key. */
  ghost predicate HoldsLast(found: seq<Found>, idx: seq<(string, Card)>)
  {
    forall e :: e in idx ==> exists i :: LastWithKey(found, i, e.0) && e.1 == found[i].card
  }

  /** Every search key laid out has an entry in `idx`. */
  ghost predicate CoversKeys(found: seq<Found>, idx: seq<(string, Card)>)
  {
    forall i :: 0 <= i < |found| ==> exists e :: e in idx && e.0 == found[i].key
  }

  /** One more card: every entry still holds the last card laid out with its key. */
  lemma IndexStepLast(found: seq<Found>, p: seq<(string, Card)>, idx: seq<(string, Card)>)
    requires |found| > 0 && HoldsLast(found[..|found| - 1], p)
    requires var last := found[|found| - 1];
      forall e :: e in idx ==> e == (last.key, last.card) || (e in p && e.0 != last.key)
    ensures HoldsLast(found, idx)
  {
    var n := |found| - 1;
    var last := found[n];
    forall e | e in idx ensures exists i :: LastWithKey(found, i, e.0) && e.1 == found[i].card {
      if e == (last.key, last.card) {
        assert LastWithKey(found, n, e.0);
      } else {
        var i :| LastWithKey(found[..n], i, e.0) && e.1 == found[..n][i].card;
        LastWithKeySnoc(found, i, e.0);
      }
    }
  }

  /** One more card: every key laid out still has an entry. */
  lemma IndexStepCovers(found: seq<Found>, p: seq<(string, Card)>, idx: seq<(string, Card)>)
    requires |found| > 0 && CoversKeys(found[..|found| - 1], p)
    requires var last := found[|found| - 1];
      && (last.key, last.card) in idx
      && forall e :: e in p && e.0 != last.key ==> e in idx
    ensures CoversKeys(found, idx)
  {
    var n := |found| - 1;
    var last := found[n];
    forall i | 0 <= i < |found| ensures exists e :: e in idx && e.0 == found[i].key {
      if i == n || found[i].key == last.key {
        assert (last.key, last.card) in idx;
      } else {
        assert found[i] == found[..n][i];
        var e :| e in p && e.0 == found[..n][i].key;
        assert e in idx;
      }
    }
  }

  /** `all_thumbnail_widgets` after `load_loras`: its keys are distinct and
      are exactly the search keys of the cards laid out (`HoldsLast` gives
      each key a card with that key, `CoversKeys` every key an entry), and
      each key holds the card of the last card laid out with that key. */
  lemma {:induction false} BuildIndexSpec(found: seq<Found>)
    ensures var idx := BuildIndex(found);
      DistinctKeys(idx) && HoldsLast(found, idx) && CoversKeys(found, idx)
    decreases |found|
  {
    if |found| > 0 {
      var n := |found| - 1;
      var pre, last := found[..n], found[n];
      var p := BuildIndex(pre);
      BuildIndexSpec(pre);
      PutSpec(p, last.key, last.card);
      assert BuildIndex(found) == Put(p, last.key, last.card);
      IndexStepLast(found, p, BuildIndex(found));
      IndexStepCovers(found, p, BuildIndex(found));
    }
  }

  /** Filling the dict with two cards under one key leaves only the second. */
  lemma IndexKeepsLater(x: Found, y: Found)
    requires x.key == y.key
    ensures BuildIndex([x, y]) == [(y.key, y.card)]
  {
    assert [x, y][..1] == [x] && [x][..0] == [];
    assert BuildIndex([x]) == [(x.key, x.card)];
    assert FirstIndex(BuildIndex([x]), (e: (string, Card)) => e.0 == y.key) == Some(0);
  }

  /** Two model files whose names differ only in case, in one folder, get the
      same search key; the dict keeps the later card, so the search (even an
      empty one) no longer lists the earlier card, although `load_loras` laid
      both out. Searching every card laid out lists both. */
  lemma KeyCollisionHidesCard(fs: Fs, root: Path, f0: string, f1: string)
    requires IsSafetensors(f0) && IsSafetensors(f1)
    requires SplitExt(f0).0 != SplitExt(f1).0 && Lower(SplitExt(f0).0) == Lower(SplitExt(f1).0)
    ensures var found := FoundAll(fs, root, [WalkDir(root, [f0, f1])]);
      && |found| == 2
      && found[0].card != found[1].card
      && FilterAsWritten(found, "") == [(found[1].key, found[1].card)]
      && FilterLoras(found, "") == [(found[0].key, found[0].card), (found[1].key, found[1].card)]
  {
    FoundPair(fs, root, f0, f1);
    CaseTwinsShareKey(fs, root, [f0, f1], f0, f1);
    SameKeyHidesFirst(FoundAll(fs, root, [WalkDir(root, [f0, f1])]));
  }

  /** Two cards under one key: the dict search shows only the second, the
      search over every card shows both. */
  lemma SameKeyHidesFirst(found: seq<Found>)
    requires |found| == 2 && found[0].key == found[1].key
    ensures FilterAsWritten(found, "") == [(found[1].key, found[1].card)]
    ensures FilterLoras(found, "") == [(found[0].key, found[0].card), (found[1].key, found[1].card)]
  {
    assert found == [found[0], found[1]];
    IndexKeepsLater(found[0], found[1]);
    EmptyQueryShowsAll([(found[1].key, found[1].card)]);
    EmptyQueryShowsAll(Entries(found));
    assert Entries(found) == [(found[0].key, found[0].card), (found[1].key, found[1].card)];
  }

  /** `A.safetensors` and `a.safetensors` are such a pair. */
  lemma CaseTwinsCollide()
    ensures IsSafetensors("A" + ".safetensors") && IsSafetensors("a" + ".safetensors")
    ensures SplitExt("A" + ".safetensors").0 == "A" && SplitExt("a" + ".safetensors").0 == "a"
    ensures Lower("A") == Lower("a")
  {
    CaseTwinIsModel("A");
    CaseTwinIsModel("a");
  }

  // ---------------------------------------------------------------------
  // Selection, zoom and the grid
  // ---------------------------------------------------------------------

  /** Clicking a card twice leaves the selection as it was. */
  lemma ToggleTwice(selection: set<Path>, p: Path)
    ensures Toggle(Toggle(selection, p), p) == selection
  {
  }

  /** After a click the button reads "Remove All" exactly when the clicked
      card was the only one selected. */
  lemma ClickRelabels(selection: set<Path>, p: Path)
    ensures ButtonLabel(Toggle(selection, p)) == "Remove All" <==> selection == {p}
  {
    if Toggle(selection, p) == {} {
      assert p in selection;
      assert forall q :: q in selection ==> q == p;
    }
    if selection == {p} {
      assert Toggle(selection, p) == {};
    }
  }

  /** The sizes reachable from the default: multiples of the step between the
      minimum and the maximum. */
  predicate OnLadder(size: int)
  {
    ZoomMin <= size <= ZoomMax && size % ZoomStep == 0
  }

  /** Zooming in or out keeps a size on the ladder; one step in and one step
      out (or out and in) return to where they started, away from the ends. */
  lemma ZoomLadder(size: int)
    ensures OnLadder(size) ==> OnLadder(ZoomIn(size)) && OnLadder(ZoomOut(size))
    ensures ZoomMin <= size < ZoomMax ==> ZoomOut(ZoomIn(size)) == size
    ensures ZoomMin < size <= ZoomMax ==> ZoomIn(ZoomOut(size)) == size
    ensures ZoomIn(size) >= size && ZoomOut(size) <= size
  {
  }

  /** Python's `//` leaves a remainder with the divisor's sign. */
  lemma FloorDivSpec(a: int, b: int)
    requires b != 0
    ensures b > 0 ==> 0 <= a - FloorDiv(a, b) * b < b
    ensures b < 0 ==> b < a - FloorDiv(a, b) * b <= 0
  {
    var q, r := a / b, a % b;
    assert a == q * b + r && 0 <= r;
    if b < 0 && r != 0 {
      assert (q - 1) * b == q * b - b;
    }
  }

  /** Only whole columns: the grid has as many columns as whole cards fit in
      the width, and at least one. */
  lemma MaxColsFit(width: int, fallback: int, thumb: int)
    requires thumb + CardPadding > 0
    ensures var w, c, r := GridWidth(width, fallback, thumb), thumb + CardPadding, MaxCols(width, fallback, thumb);
      && w < (r + 1) * c
      && (r > 1 ==> r * c <= w)
  {
    var w, c := GridWidth(width, fallback, thumb), thumb + CardPadding;
    FloorDivSpec(w, c);
    var q := FloorDiv(w, c);
    if q <= 1 {
      assert (q + 1) * c <= 2 * c;
    }
  }
}

=== FILE: paths.dfy ===
/** The string and path rules both components rely on: POSIX `os.path`
    (`splitext`, `join`, `basename`, `dirname`), `str.lower`, `str.replace`
    with an empty replacement, substring search and `str(n)` for a
    non-negative integer. Paths are plain strings with `/` as the separator. */
module Paths {

  type Path = string

  predicate StartsWith(s: string, prefix: string)
  {
    |prefix| <= |s| && s[..|prefix|] == prefix
  }

  predicate EndsWith(s: string, suffix: string)
  {
    |suffix| <= |s| && s[|s| - |suffix|..] == suffix
  }

  /** `s.endswith((a, b, …))` */
  predicate EndsWithAny(s: string, suffixes: seq<string>)
  {
    exists i :: 0 <= i < |suffixes| && EndsWith(s, suffixes[i])
  }

  /** `t in s` for strings: `t` occurs somewhere in `s` (the empty string occurs everywhere). */
  predicate Contains(s: string, t: string)
  {
    exists i :: 0 <= i <= |s| - |t| && OccursAt(s, t, i)
  }

  predicate OccursAt(s: string, t: string, i: int)
  {
    0 <= i <= |s| - |t| && s[i..i + |t|] == t
  }

  /** Lower-casing of one character; only ASCII letters are folded. */
  function LowerChar(c: char): char
  {
    if 'A' <= c <= 'Z' then (c as int + 32) as char else c
  }

  function Lower(s: string): (r: string)
    ensures |r| == |s|
    ensures forall i :: 0 <= i < |s| ==> r[i] == LowerChar(s[i])
  {
    seq(|s|, i requires 0 <= i < |s| => LowerChar(s[i]))
  }

  /** `s.rfind(c)`: the last index holding `c`, or -1. */
  function LastIndex(s: string, c: char): (r: int)
    ensures -1 <= r < |s|
  {
    if |s| == 0 then -1
    else if s[|s| - 1] == c then |s| - 1
    else LastIndex(s[..|s| - 1], c)
  }

  /** `os.path.splitext`: the extension starts at the last `.` of the final
      component, unless every character before that dot in the component is
      itself a dot (so `.bashrc` and `..` have no extension). */
  function SplitExt(p: Path): (r: (Path, string))
  {
    var sep := LastIndex(p, '/');
    var dot := LastIndex(p, '.');
    if sep < dot && exists k :: sep < k < dot && p[k] != '.' then
      (p[..dot], p[dot..])
    else
      (p, "")
  }

  /** What `splitext` can return as an extension: empty, or a dot followed by
      characters that are neither dots nor separators. */
  predicate IsExt(e: string)
  {
    e == "" || (e[0] == '.' && forall k :: 1 <= k < |e| ==> e[k] != '.' && e[k] != '/')
  }

  /** The final component of `p` has a character other than `.` in it. */
  predicate HasStem(p: Path)
  {
    exists k :: LastIndex(p, '/') < k < |p| && p[k] != '.'
  }

  /** `os.path.join(a, b)` for POSIX paths. */
  function Join(a: Path, b: Path): (r: Path)
  {
    if StartsWith(b, "/") then b
    else if a == "" || EndsWith(a, "/") then a + b
    else a + "/" + b
  }

  /** `os.path.basename`: everything after the last separator. */
  function Basename(p: Path): (r: Path)
  {
    p[LastIndex(p, '/') + 1..]
  }

  /** `os.path.dirname`: everything up to the last separator, with trailing
      separators removed unless the head consists of separators only. */
  function Dirname(p: Path): Path
  {
    var head := p[..LastIndex(p, '/') + 1];
    if head != "" && exists k :: 0 <= k < |head| && head[k] != '/' then RStripSlashes(head)
    else head
  }

  function RStripSlashes(s: string): (r: string)
    ensures |r| <= |s| && r == s[..|r|]
    ensures r == "" || r[|r| - 1] != '/'
    ensures forall k :: |r| <= k < |s| ==> s[k] == '/'
  {
    if |s| > 0 && s[|s| - 1] == '/' then RStripSlashes(s[..|s| - 1]) else s
  }

  function LStripSlashes(s: string): (r: string)
    ensures |r| <= |s| && r == s[|s| - |r|..]
    ensures r == "" || r[0] != '/'
  {
    if |s| > 0 && s[0] == '/' then LStripSlashes(s[1..]) else s
  }

  /** `s.replace(pat, "")`: delete the occurrences of `pat` found scanning left to right. */
  function RemoveAll(s: string, pat: string): (r: string)
    requires |pat| > 0
    ensures |r| <= |s|
    decreases |s|
  {
    if |s| < |pat| then s
    else if s[..|pat|] == pat then RemoveAll(s[|pat|..], pat)
    else [s[0]] + RemoveAll(s[1..], pat)
  }

  function DigitChar(d: nat): (c: char)
    requires d < 10
    ensures '0' <= c <= '9'
    ensures c as int - '0' as int == d
  {
    (d + '0' as int) as char
  }

  predicate IsDigits(s: string)
  {
    forall k :: 0 <= k < |s| ==> '0' <= s[k] <= '9'
  }

  /** `str(n)` for a non-negative integer: its decimal digits, without leading zeros. */
  function NatToString(n: nat): (r: string)
    ensures |r| >= 1 && IsDigits(r)
    ensures r[0] == '0' ==> n == 0
    decreases n
  {
    if n < 10 then [DigitChar(n)] else NatToString(n / 10) + [DigitChar(n % 10)]
  }

  /** `name.lower().endswith(".safetensors")`: how both components recognise a model file. */
  predicate IsSafetensors(file: string)
  {
    EndsWith(Lower(file), ".safetensors")
  }

  // ---------------------------------------------------------------------
  // Facts about these rules
  // ---------------------------------------------------------------------

  // The index-level facts below are lemmas rather than postconditions so that
  // proofs about whole downloads do not carry them around.

  /** `rfind` finds `c` (when it answers at all) and nothing after it holds `c`. */
  lemma {:induction false} LastIndexSpec(s: string, c: char)
    ensures var r := LastIndex(s, c);
      && (r >= 0 ==> s[r] == c)
      && (forall j :: r < j < |s| ==> s[j] != c)
      && (r == -1 <==> c !in s)
    decreases |s|
  {
    if |s| > 0 && s[|s| - 1] != c {
      var t := s[..|s| - 1];
      LastIndexSpec(t, c);
      forall j | 0 <= j < |t| ensures t[j] == s[j] { }
    }
  }

  /** `splitext` splits its argument: the two parts concatenate back to it,
      and the second is empty or a dot followed by neither dots nor separators. */
  lemma SplitExtSpec(p: Path)
    ensures SplitExt(p).0 + SplitExt(p).1 == p
    ensures IsExt(SplitExt(p).1)
  {
    var sep, dot := LastIndex(p, '/'), LastIndex(p, '.');
    LastIndexSpec(p, '/');
    LastIndexSpec(p, '.');
    if sep < dot && exists k :: sep < k < dot && p[k] != '.' {
      assert p[..dot] + p[dot..] == p;
      var e := p[dot..];
      forall k | 1 <= k < |e| ensures e[k] != '.' && e[k] != '/' {
        assert e[k] == p[dot + k];
      }
    }
  }

  /** `join(a, b)` ends with `b`. */
  lemma JoinEndsWith(a: Path, b: Path)
    ensures EndsWith(Join(a, b), b)
  {
    var r := Join(a, b);
    if !StartsWith(b, "/") {
      assert r[|r| - |b|..] == b;
    }
  }

  /** `basename(p)` holds no separator and is the tail of `p`. */
  lemma BasenameSpec(p: Path)
    ensures '/' !in Basename(p)
    ensures EndsWith(p, Basename(p))
  {
    LastIndexSpec(p, '/');
  }

  /** `rfind` is pinned down by "holds `c`, and nothing after it does". */
  lemma LastIndexUnique(s: string, c: char, r: int)
    requires -1 <= r < |s|
    requires r >= 0 ==> s[r] == c
    requires forall j :: r < j < |s| ==> s[j] != c
    ensures LastIndex(s, c) == r
  {
  }

  /** Appending an extension to a path whose final component has a stem is
      undone by `splitext`. */
  lemma SplitExtAppend(stem: Path, ext: string)
    requires HasStem(stem)
    requires IsExt(ext) && ext != ""
    ensures SplitExt(stem + ext) == (stem, ext)
  {
    var p := stem + ext;
    forall j | |stem| < j < |p| ensures p[j] != '.' && p[j] != '/' {
      assert p[j] == ext[j - |stem|];
    }
    LastIndexUnique(p, '.', |stem|);
    var sep0 := LastIndex(stem, '/');
    LastIndexSpec(stem, '/');
    forall j | sep0 < j < |p| ensures p[j] != '/' {
      if j < |stem| {
        assert p[j] == stem[j];
      }
    }
    if sep0 >= 0 {
      assert p[sep0] == stem[sep0];
    }
    LastIndexUnique(p, '/', sep0);
    var k :| sep0 < k < |stem| && stem[k] != '.';
    assert p[k] == stem[k];
    assert p[..|stem|] == stem;
    assert p[|stem|..] == ext;
  }

  /** Different numbers print differently. */
  lemma {:induction false} NatToStringInjective(a: nat, b: nat)
    requires NatToString(a) == NatToString(b)
    ensures a == b
    decreases a
  {
    var sa, sb := NatToString(a), NatToString(b);
    if a >= 10 && b >= 10 {
      assert sa[..|sa| - 1] == NatToString(a / 10);
      assert sb[..|sb| - 1] == NatToString(b / 10);
      NatToStringInjective(a / 10, b / 10);
      assert sa[|sa| - 1] == DigitChar(a % 10);
      assert sb[|sb| - 1] == DigitChar(b % 10);
    }
  }

  /** Deleting a pattern from a string that does not contain it changes nothing. */
  lemma {:induction false} RemoveAllAbsent(s: string, pat: string)
    requires |pat| > 0
    requires !Contains(s, pat)
    ensures RemoveAll(s, pat) == s
    decreases |s|
  {
    if |s| >= |pat| {
      assert !OccursAt(s, pat, 0);
      AbsentFromTail(s, pat);
      RemoveAllAbsent(s[1..], pat);
    }
  }

  /** A pattern missing from a string is missing from its tail. */
  lemma AbsentFromTail(s: string, pat: string)
    requires |s| > 0 && !Contains(s, pat)
    ensures !Contains(s[1..], pat)
  {
    forall i | 0 <= i <= |s[1..]| - |pat| ensures !OccursAt(s[1..], pat, i) {
      assert s[1..][i..i + |pat|] == s[i + 1..i + 1 + |pat|];
      assert !OccursAt(s, pat, i + 1);
    }
  }

  /** Leading separators are dropped up to the first other character. */
  lemma {:induction false} LStripSlashesPrefix(t: string, u: string)
    requires forall k :: 0 <= k < |t| ==> t[k] == '/'
    requires u == "" || u[0] != '/'
    ensures LStripSlashes(t + u) == u
    decreases |t|
  {
    if |t| > 0 {
      assert (t + u)[1..] == t[1..] + u;
      LStripSlashesPrefix(t[1..], u);
    } else {
      assert t + u == u;
    }
  }

}

=== FILE: scan_agreement.dfy ===
/** The two components walk the LoRA folder the same way: the top panel of
    the manager lays out one card per model file, in exactly the order and
    at exactly the paths the catalog scan visits. */
module ScanAgreement {
  import opened Seqs
  import opened Paths
  import opened FileSystem
  import opened Civitai
  import opened LoraManager
  import opened CivitaiScan

  /** One directory: the model files the panel keeps are the ones the scan visits. */
  lemma {:induction false} ModelsAreCandidates(root: Path, files: seq<string>)
    ensures var models := Filter(files, IsSafetensors);
      && |models| == |CandidatesIn(root, files)|
      && forall i :: 0 <= i < |models| ==> CandidatesIn(root, files)[i] == Join(root, models[i])
    decreases |files|
  {
    if |files| > 0 {
      ModelsAreCandidates(root, files[1..]);
      var models, tail := Filter(files, IsSafetensors), Filter(files[1..], IsSafetensors);
      var c, ctail := CandidatesIn(root, files), CandidatesIn(root, files[1..]);
      if IsSafetensors(files[0]) {
        assert models == [files[0]] + tail;
        assert c == [Join(root, files[0])] + ctail;
      } else {
        assert models == [] + tail;
        assert c == [] + ctail;
      }
    }
  }

  /** The cards of one directory sit at the paths the scan visits there. */
  lemma DirCards(fs: Fs, loraRoot: Path, root: Path, files: seq<string>)
    ensures var models := Filter(files, IsSafetensors);
      var here := seq(|models|, i requires 0 <= i < |models| => FoundFile(fs, loraRoot, root, files, models[i]));
      && |here| == |CandidatesIn(root, files)|
      && forall i :: 0 <= i < |here| ==> here[i].card.path == CandidatesIn(root, files)[i]
  {
    ModelsAreCandidates(root, files);
  }

  /** `load_loras` lays out a card for every model file `process_lora_folder`
      visits with `recursive` set, in the same order, at the same path. */
  lemma {:induction false} CardsFollowScan(fs: Fs, loraRoot: Path, walk: seq<WalkDir>)
    ensures var found, c := FoundAll(fs, loraRoot, walk), Candidates(walk, true);
      && |found| == |c|
      && forall i :: 0 <= i < |found| ==> found[i].card.path == c[i]
    decreases |walk|
  {
    if |walk| > 0 {
      var root, files := walk[0].root, walk[0].files;
      var models := Filter(files, IsSafetensors);
      var here := seq(|models|, i requires 0 <= i < |models| => FoundFile(fs, loraRoot, root, files, models[i]));
      var rest, crest := FoundAll(fs, loraRoot, walk[1..]), Candidates(walk[1..], true);
      var found, c := FoundAll(fs, loraRoot, walk), Candidates(walk, true);
      assert found == here + rest;
      assert c == CandidatesIn(root, files) + crest;
      DirCards(fs, loraRoot, root, files);
      CardsFollowScan(fs, loraRoot, walk[1..]);
      forall i | 0 <= i < |found| ensures found[i].card.path == c[i] {
        if i < |here| {
          assert found[i] == here[i];
        } else {
          assert found[i] == rest[i - |here|];
        }
      }
    }
  }

  /** Every file a completed scan reports has a card in the top panel, at the
      same position. */
  lemma ScanMatchesPanel(c: Client, env: Env, fs: Fs, loraRoot: Path, walk: seq<WalkDir>)
    ensures var r, found := ProcessLoraFolder(c, env, fs, walk, true), FoundAll(fs, loraRoot, walk);
      r.Scanned? ==>
        && |r.results| == |found|
        && forall i :: 0 <= i < |found| ==> r.results[i].0 == found[i].card.path
  {
    var r := ProcessLoraFolder(c, env, fs, walk, true);
    CardsFollowScan(fs, loraRoot, walk);
    if r.Scanned? {
      ScanReportsCandidates(c, env, fs, walk, true);
      assert ResultPaths(r.results) == Candidates(walk, true);
    }
  }

  /** `x` is the card, config and search key the inner loop of `load_loras`
      builds for some model file listed in some directory of the walk. */
  ghost predicate BuiltForWalk(fs: Fs, loraRoot: Path, walk: seq<WalkDir>, x: Found)
  {
    exists d, f :: 0 <= d < |walk| && f in walk[d].files && IsSafetensors(f)
      && x == FoundFile(fs, loraRoot, walk[d].root, walk[d].files, f)
  }

  /** What is built for a later directory is built for the walk. */
  lemma BuiltForTail(fs: Fs, loraRoot: Path, walk: seq<WalkDir>, x: Found)
    requires |walk| > 0 && BuiltForWalk(fs, loraRoot, walk[1..], x)
    ensures BuiltForWalk(fs, loraRoot, walk, x)
  {
    var d, f :| 0 <= d < |walk[1..]| && f in walk[1..][d].files && IsSafetensors(f)
      && x == FoundFile(fs, loraRoot, walk[1..][d].root, walk[1..][d].files, f);
    assert walk[1..][d] == walk[d + 1];
  }

  /** Every entry of the panel is built for a model file of the walk. */
  lemma {:induction false} FoundAllBuilt(fs: Fs, loraRoot: Path, walk: seq<WalkDir>)
    ensures forall x :: x in FoundAll(fs, loraRoot, walk) ==> BuiltForWalk(fs, loraRoot, walk, x)
    decreases |walk|
  {
    if |walk| > 0 {
      var root, files := walk[0].root, walk[0].files;
      var models := Filter(files, IsSafetensors);
      var here := seq(|models|, i requires 0 <= i < |models| => FoundFile(fs, loraRoot, root, files, models[i]));
      var rest := FoundAll(fs, loraRoot, walk[1..]);
      var found := FoundAll(fs, loraRoot, walk);
      assert found == here + rest;
      FoundAllBuilt(fs, loraRoot, walk[1..]);
      forall x | x in found ensures BuiltForWalk(fs, loraRoot, walk, x) {
        var i :| 0 <= i < |found| && found[i] == x;
        if i < |here| {
          assert found[i] == FoundFile(fs, loraRoot, walk[0].root, walk[0].files, models[i]);
          assert models[i] in walk[0].files && IsSafetensors(models[i]);
        } else {
          var j := i - |here|;
          assert found[i] == rest[j];
          BuiltForTail(fs, loraRoot, walk, rest[j]);
        }
      }
    }
  }

  /** `load_loras`, when the output folder can be made, shows one entry per
      model file `process_lora_folder` visits with `recursive` set, in the same
      order and at the same path, each built by the inner loop for a model file
      of the walk and looking up previews in the filesystem with the output
      folder in place. */
  lemma LoadLorasLaysOutScan(fs: Fs, loraRoot: Path, out: Path, walk: seq<WalkDir>)
    ensures var r, c := LoadLoras(fs, loraRoot, out, walk), Candidates(walk, true);
      r.Some? ==>
        && r.value.0 == MakeDirs(fs, out).value
        && |r.value.1| == |c|
        && (forall i :: 0 <= i < |c| ==> r.value.1[i].card.path == c[i])
        && forall i :: 0 <= i < |c| ==> BuiltForWalk(r.value.0, loraRoot, walk, r.value.1[i])
  {
    var r := LoadLoras(fs, loraRoot, out, walk);
    if r.Some? {
      CardsFollowScan(r.value.0, loraRoot, walk);
      FoundAllBuilt(r.value.0, loraRoot, walk);
    }
  }
}

=== FILE: seqs.dfy ===
/** Generic searches over sequences: "the first element that matches" and
    "keep the elements that match", the two loops the source writes by hand. */
module Seqs {
  import opened Wrappers

  /** Index of the first element satisfying `p`, as a `for … : if p(x): break` loop finds it. */
  function FirstIndex<T>(s: seq<T>, p: T -> bool): (r: Option<nat>)
    ensures r.Some? ==> r.value < |s| && p(s[r.value])
    ensures r.Some? ==> forall j :: 0 <= j < r.value ==> !p(s[j])
    ensures r.None? <==> forall j :: 0 <= j < |s| ==> !p(s[j])
  {
    if |s| == 0 then None
    else if p(s[0]) then Some(0)
    else
      match FirstIndex(s[1..], p)
      case None => None
      case Some(i) => Some(i + 1)
  }

  /** The first element satisfying `p`. */
  function First<T>(s: seq<T>, p: T -> bool): (r: Option<T>)
    ensures r.None? <==> forall j :: 0 <= j < |s| ==> !p(s[j])
    ensures r.Some? ==> exists i :: 0 <= i < |s| && s[i] == r.value && p(s[i])
                                    && forall j :: 0 <= j < i ==> !p(s[j])
  {
    match FirstIndex(s, p)
    case None => None
    case Some(i) => Some(s[i])
  }

  /** The elements satisfying `p`, in order: a list comprehension with an `if`. */
  function Filter<T>(s: seq<T>, p: T -> bool): (r: seq<T>)
    ensures |r| <= |s|
    ensures forall i :: 0 <= i < |r| ==> r[i] in s && p(r[i])
    ensures forall i :: 0 <= i < |s| && p(s[i]) ==> s[i] in r
    decreases |s|
  {
    if |s| == 0 then [] else (if p(s[0]) then [s[0]] else []) + Filter(s[1..], p)
  }

  /** Index of the last element satisfying `p`: what survives when a loop keeps overwriting its answer. */
  function LastIndexOf<T>(s: seq<T>, p: T -> bool): (r: Option<nat>)
    ensures r.Some? ==> r.value < |s| && p(s[r.value])
    ensures r.Some? ==> forall j :: r.value < j < |s| ==> !p(s[j])
    ensures r.None? <==> forall j :: 0 <= j < |s| ==> !p(s[j])
    decreases |s|
  {
    if |s| == 0 then None
    else if p(s[|s| - 1]) then Some(|s| - 1)
    else LastIndexOf(s[..|s| - 1], p)
  }
}

=== FILE: wrappers.dfy ===
/** Optional values, standing in for Python's `None`. */
module Wrappers {

  datatype Option<+T> = None | Some(value: T) {

    /** The wrapped value, or `default` when there is none. */
    function GetOr(default: T): T
    {
      match this
      case Some(v) => v
      case None => default
    }
  }
}
